=== FILE: README.md ===
# LaTeX Workshop: log interpretation, math-preview snippets and completion bookkeeping

This project models, in Dafny, three pure parts of the LaTeX Workshop editor extension.

**The build-log interpreter** (`src/components/parser/log.ts`).
- A LaTeX log is normalised, trimmed to the last engine run of a latexmk or texify wrapper, and folded line by line.
- The fold keeps a `ParserState` record: the open record, the `searchEmptyLine`, `insideBoxWarn` and `insideError` flags, and the stack of open files with its counter of unrelated parentheses.
- Each line goes, in priority order, to one of these:
  - continuation text;
  - the exclude patterns;
  - bad boxes;
  - output-routine bad boxes;
  - `LaTeX`/`Package`/`Class` warnings;
  - Biber warnings;
  - errors;
  - the parenthesis-driven file tracker.
- Every regular expression of the parser is written out as a recogniser. Each recogniser promises that the pieces it returns reassemble the line it was given.
- The linter-log extractor is modelled beside the interpreter.

**The TeX-snippet helpers behind the hover math preview** (`src/components/mathpreview.ts`, `src/providers/preview/mathpreview.ts`, `src/providers/preview/mathpreviewlib/cursorrenderer.ts`).
- Stripping one pair of math delimiters.
- Cutting a line at its first unescaped `%`.
- The backward and forward searches for the lines that open and close an environment.
- Inline-math containment.
- `\label` to `\tag` substitution, after removing existing tags.
- The environment wrapping MathJax needs.
- The dummy code block around a hover.
- The "numbered N at last compilation" message and the tag shown for a reference.
- The theme colour.
- Splicing the cursor symbol into the line under the cursor.

**Completion bookkeeping** (`src/providers/completer/environment.ts`, `src/providers/completer/reference.ts`).
- The order-preserving, de-duplicating merge of default, cached and package environments.
- First-occurrence de-duplication of `\begin{…}` names.
- The memoised package lookup.
- The label-keyed suggestion map: rebuilt on each `provide`, with later definitions winning and stale keys deleted.
- Numbers from `\newlabel` lines, where the last line for a label wins.
- Label extraction from the LaTeX node tree.

The modules follow the source:
- `Wrappers` and `JsString`: JavaScript string semantics.
- `Seqs`: de-duplicating appends.
- `LogPatterns`, `LogParser` and `LogProperties`: `log.ts`.
- `TexSnippets`: `components/mathpreview.ts`.
- `HoverPreview`: `providers/preview/mathpreview.ts`.
- `CursorRenderer`: `cursorrenderer.ts`.
- `EnvCompleter` and `RefCompleter`: the two completers.

Editor state, settings and file contents are explicit parameters:
- the `message.badbox.show` setting and the exclude patterns;
- `path.resolve`;
- the active cursor and the `hover.*` settings;
- the cached file contents;
- the parsed `\newlabel` triples.

### Behaviour of the code worth noting
- While continuation lines are being collected, a blank line only closes the record with a trailing `"\n"`. Nothing is emitted at that point. The record is emitted when the next record opens, or at the final flush (`LogProperties.ContinuationCloses`).
- The wrapper trim is not idempotent in general. When rule lines follow the last engine start, one trim keeps them and a second trim drops them (`LogProperties.TrimLinesNotIdempotent`). Idempotence holds when the last rule line is not after the last engine start (`LogProperties.TrimLinesIdempotent`).
- The skip flag set by a bad-box line is consumed by the recursive call on the line's empty remainder. The next physical line is therefore read normally (`LogProperties.SkipFlagSpent`, `LogParser.ParseLine`).
- The `l.<n> ` prefix is stripped from error context lines. This happens only when the line is not first taken by the package-warning continuation pattern, which the code tries before it (`LogProperties.ErrorContextLine`).
- Everywhere else the model follows the code as written, with two exceptions, both listed under "## Findings". Each has an as-written member next to it.
  - The end-of-environment search uses the corrected bound (`TexSnippets.FindEndPair`).
  - The reference documentation uses the corrected window (`RefCompleter.DocumentationWindow`).

## Model

| member | source | states |
|---|---|---|
| LogParser.InitialState | src/components/parser/log.ts:47-59 | the fresh state satisfies the invariant every parsing step keeps (`Ready`); its stack holds only the root file, no unrelated parentheses are open, no record is open and no continuation or skip flag is set |
| LogParser.PushCurrent | src/components/parser/log.ts:186-188 | the open record is appended to the log exactly when its type is non-empty; the log is only ever extended |
| LogParser.LineOf | src/components/parser/log.ts:166-223 | a line number is NaN exactly when the optional line group did not match; otherwise it is the decimal value of the captured digits |
| LogParser.Accumulate | src/components/parser/log.ts:157-175 | a continuation line keeps the record's type and file and extends its text after a line break; a blank line, or a whitespace-led line in error mode, ends the collection with both flags cleared; only a `(file) text on input line N` line moves the record's line |
| LogParser.FirstParen | src/components/parser/log.ts:294 | the tracker looks at the leftmost parenthesis of the line, and there is none exactly when it returns nothing |
| LogParser.Pop | src/components/parser/log.ts:311 | popping drops the last open file, and popping an empty stack leaves it empty as JavaScript's `pop` does; `LogProperties.PopPush` shows it undoes a push |
| LogParser.FileStack | src/components/parser/log.ts:293-317 | a line without parentheses leaves the stack and the counter unchanged |
| LogProperties.FileStackDepth | src/components/parser/log.ts:293-317 | the stack depth plus the parenthesis counter grows by one per `(` and shrinks by one per `)` of the line, so the counter never has to go negative |
| LogProperties.FileStackOnlyCloses | src/components/parser/log.ts:293-317 | on a line with only closing parentheses, each `)` first cancels an unrelated open parenthesis, and every leftover one pops exactly one file; an empty stack is never popped below empty |
| LogProperties.FileStackOnlyOpens | src/components/parser/log.ts:293-317 | on a line with only opening parentheses, the stack is only extended (the old stack stays its prefix), and every `(` either pushes a file or raises the unrelated-parenthesis counter by one |
| LogProperties.PopPush | src/components/parser/log.ts:298-311 | popping right after a push gives back the stack as it was before the push |
| LogProperties.OpenPushesPath | src/components/parser/log.ts:298-300 | a `(` followed by a path pushes that path, trimmed, and leaves the counter alone |
| LogProperties.OpenPushesBareName | src/components/parser/log.ts:298-303 | a `(` followed by no path but a bare `name.ext` pushes `./name.ext`, trimmed |
| LogProperties.OpenCountsOther | src/components/parser/log.ts:298-306 | any other `(` leaves the stack alone and raises the unrelated-parenthesis counter by one |
| LogParser.TrackFiles | src/components/parser/log.ts:260-263 | after a line reaches the file tracker the stack is never empty: if the line closed every file, the root file is put back; nothing but the stack and counter changes |
| LogParser.ErrorEntry | src/components/parser/log.ts:250-255 | an error record's text is `X: msg` for a sub-engine X other than `LaTeX`, else the message; its file is the captured path resolved against the root, else the current file; its line is the captured number, else 1 |
| LogParser.ParseLine | src/components/parser/log.ts:146-264 | one line only appends to the log, and the record it appends first is the one that was open; continuation lines and the line after a bad box emit nothing; the skip flag is always spent by the end of the call; the root file is kept |
| LogParser.ClassifyBox | src/components/parser/log.ts:181-214 | the bad-box classifiers emit at most the open record, before opening their own |
| LogParser.ClassifyWarn | src/components/parser/log.ts:215-228 | the warning classifier emits at most the open record, before opening its own |
| LogParser.ClassifyBiber | src/components/parser/log.ts:229-243 | the Biber classifier emits at most the open record, before opening its own |
| LogParser.ClassifyError | src/components/parser/log.ts:245-263 | the error classifier and the file tracker emit at most the open record |
| LogParser.ParseLines | src/components/parser/log.ts:281-283 | folding the lines only ever extends the log and keeps the root file |
| LogProperties.ParseLinesConcat | src/components/parser/log.ts:281-283 | folding two blocks of lines is folding the first and then the second from where it stopped |
| LogParser.Flush | src/components/parser/log.ts:286-288 | the final flush appends the open record exactly when it has a type and its text does not begin with the empty-bibliography notice |
| LogParser.LaTeXEntries | src/components/parser/log.ts:276-288 | every record of a parsed log is a typesetting notice, a warning or an error |
| LogParser.ParseLaTeX | src/components/parser/log.ts:267-291 | without a root file nothing is parsed and the parser is unchanged; otherwise the stored build log and raw log are replaced by the new ones |
| LogParser.Normalise | src/components/parser/log.ts:75 | no carriage return survives and the text never grows |
| LogProperties.NormaliseKeepsPlainText | src/components/parser/log.ts:75 | text without carriage returns is left as it is |
| LogProperties.NormaliseIdempotent | src/components/parser/log.ts:75 | normalising twice is normalising once |
| LogProperties.NormaliseExample | src/components/parser/log.ts:75 | `\r\n` and a lone `\r` both become `\n` |
| LogParser.LastIndex | src/components/parser/log.ts:96-108 | the index found is the last line satisfying the pattern, or -1 when there is none |
| LogProperties.LastIndexUnique | src/components/parser/log.ts:96-108 | any index with the last-match property is the one the loop computes |
| LogParser.TrimLines | src/components/parser/log.ts:109-113 | let s be the last engine start and f the last wrapper step (each -1 when absent). The trim keeps `lines[s..f)` when a step follows the start, `lines[s..]` when none does, and nothing when there is no start but a step exists. When there is neither, `slice(-1)` keeps just the last line. It is always a contiguous run of the log's lines; when a start exists, the run begins with it and holds no other |
| LogParser.TrimWrapper | src/components/parser/log.ts:94-114 | the index loop computes the two-index trim of the split log |
| LogParser.TrimmedLog | src/components/parser/log.ts:94-114 | when an engine start exists, the lines of the trimmed text are exactly the lines `TrimLines` keeps. With no start, the text is empty when a wrapper step exists, and it is the log's last line when none does |
| LogParser.Prepared | src/components/parser/log.ts:72-81 | the text handed on holds no carriage return, even after a wrapper trim |
| LogParser.TrimLaTeXmk | src/components/parser/log.ts:94-114 | the latexmk trim is the two-index trim with latexmk's engine-start and rule patterns |
| LogParser.TrimTexify | src/components/parser/log.ts:116-136 | the texify trim is the same trim with texify's patterns |
| LogProperties.StartsAreSteps | src/components/parser/log.ts:19-24 | every engine-start line also matches the rule pattern, for latexmk and for texify |
| LogProperties.TrimLinesIdempotent | src/components/parser/log.ts:109-110 | when no rule line follows the last engine start, the trim keeps everything from that start on, and trimming again changes nothing |
| LogProperties.TrimmedLogIdempotent | src/components/parser/log.ts:94-114 | the same idempotence for the trim on whole log text |
| LogProperties.TrimLinesNotIdempotent | src/components/parser/log.ts:109-113 | with rule lines after the last start, a second trim removes a line the first one kept |
| LogParser.RouteOf | src/components/parser/log.ts:82-143 | a log with an output or fatal-error marker is parsed; otherwise a first line reporting up-to-date targets means skipped; otherwise nothing |
| LogProperties.LatexmkSkippedFirstLine | src/components/parser/log.ts:138-144 | only the first line decides whether latexmk had nothing to do; the lines after it are never looked at |
| LogParser.Parse | src/components/parser/log.ts:72-92 | the skipped flag is set exactly on the skipped route, which returns the previously stored build log unchanged; a parsed log is stored with its normalised, trimmed text; on no result nothing stored changes |
| LogParser.FirstTerminator | src/components/parser/log.ts:320 | the first line terminator of the text, with only non-terminators before it |
| LogParser.SplitLines | src/components/parser/log.ts:320-338 | the lines the multiline linter pattern sees hold no line terminator |
| LogParser.LinterFile | src/components/parser/log.ts:326-329 | without a root directory the entry's file is the supplied original path when given, else the captured file |
| LogParser.LinterEntryOf | src/components/parser/log.ts:327-336 | the entry's type is the captured severity lower-cased. Line, position, length and code are the decimal values of their digit groups. The file is the override or the capture, resolved as `LinterFile` says. The text is the code, `: `, then the message |
| LogParser.LineEntry | src/components/parser/log.ts:322-337 | a line yields one entry exactly when it matches the linter pattern |
| LogParser.LinterEntries | src/components/parser/log.ts:319-341 | at most one entry per line, every type lower-case; `LogProperties.LinterEntriesSingle` and `LogProperties.LinterEntriesConcat` fix every entry |
| LogParser.ParseLinter | src/components/parser/log.ts:319-341 | at most one entry per line of the log, every type lower-case; `LogProperties.ParseLinterOneLine` and `LogProperties.ParseLinterNextLine` give the entries line by line |
| LogProperties.LinterEntriesConcat | src/components/parser/log.ts:322-338 | lines are read independently: the entries of two blocks are the entries of each, in order |
| LogProperties.LinterOverrideEverywhere | src/components/parser/log.ts:326-329 | a supplied original path that needs no resolution is the file of every entry |
| LogProperties.LinterEntriesSingle | src/components/parser/log.ts:322-337 | one line yields its own entry when it matches and nothing otherwise; with `LinterEntriesConcat` this gives one entry per matching line, in order |
| LogProperties.ParseLinterOneLine | src/components/parser/log.ts:319-341 | a log of one line yields nothing when the line does not match. When it matches it yields exactly one entry: the type lower-cased, the text `code: message`, and the four numbers read from their digits |
| LogProperties.ParseLinterNextLine | src/components/parser/log.ts:319-341 | the first line of a log is read on its own, and its entry comes before the entries of the rest |
| LogPatterns.BoxHeadEnd | src/components/parser/log.ts:9-11 | the recognised prefix is an `Overfull`/`Underfull` `\hbox`/`\vbox` head with its parenthesised detail |
| LogPatterns.BoxHeadComplete | src/components/parser/log.ts:9-11 | every such head is recognised, with its full length, whatever follows it |
| LogPatterns.ParagraphTail | src/components/parser/log.ts:9 | the `in paragraph at lines A--B` tail yields two digit runs that rebuild it |
| LogPatterns.DetectedTail | src/components/parser/log.ts:10 | the `detected at line N` tail yields a digit run that rebuilds it |
| LogPatterns.MatchBadBox | src/components/parser/log.ts:9-10 | a bad-box match is well formed and rebuilds the whole line |
| LogPatterns.ParagraphTailComplete | src/components/parser/log.ts:9 | every paragraph tail is recognised with its two numbers |
| LogPatterns.DetectedTailComplete | src/components/parser/log.ts:10 | a detected-at tail is not taken for a paragraph tail and is recognised with its number |
| LogPatterns.BadBoxRoundTrip | src/components/parser/log.ts:9-10 | writing a well-formed bad box out and matching it gives it back |
| LogPatterns.MatchBoxOutput | src/components/parser/log.ts:11 | the line begins with a box head followed by the output-routine notice |
| LogPatterns.WarnTail | src/components/parser/log.ts:12 | the optional `on input line N` group and the terminator rebuild the tail, and a bare terminator is read as one |
| LogPatterns.WarnMessageEnd | src/components/parser/log.ts:12 | the lazy message group ends where the rest can be read as the tail |
| LogPatterns.WarnMessageEndLeast | src/components/parser/log.ts:12 | no shorter message leaves a readable tail, which is what laziness means |
| LogPatterns.WarnBody | src/components/parser/log.ts:12 | after the level, a whitespace gap, a message without line breaks and the tail rebuild the rest |
| LogPatterns.WarnSourceEnd | src/components/parser/log.ts:12 | the prefix read is `LaTeX`, or `Class`/`Package` with a non-blank name |
| LogPatterns.WarnLevel | src/components/parser/log.ts:12 | the level is `Warning`, `Info` or `Font Warning`, followed by a colon |
| LogPatterns.WarnAfterSource | src/components/parser/log.ts:12 | the text after the source is a space, the level, a colon and a body that rebuilds it |
| LogPatterns.MatchWarn | src/components/parser/log.ts:12 | a warning match has a valid source, level, gap, message and terminator, and rebuilds the line |
| LogPatterns.ExtraTail | src/components/parser/log.ts:13 | the optional spaces, `on input line N` and period rebuild the tail of a continuation line |
| LogPatterns.ExtraMessageEnd | src/components/parser/log.ts:13 | the lazy text group ends where the rest reads as the tail |
| LogPatterns.ExtraMessageEndLeast | src/components/parser/log.ts:13 | no shorter text leaves a readable tail |
| LogPatterns.ExtraBody | src/components/parser/log.ts:13 | a whitespace gap, the text and the tail rebuild what follows the parenthesised file |
| LogPatterns.ExtraClose | src/components/parser/log.ts:13 | the greedy file group closes at the last parenthesis that can close it |
| LogPatterns.MatchExtraLine | src/components/parser/log.ts:13 | a continuation match has a file and text without line breaks and a whitespace gap, and rebuilds the line |
| LogPatterns.QuotedKey | src/components/parser/log.ts:15 | the key is non-empty, holds no quote and is followed by one |
| LogPatterns.BiberStart | src/components/parser/log.ts:15 | the greedy `.*` puts the missing-entry notice at its last position on the line |
| LogPatterns.MatchBiber | src/components/parser/log.ts:15 | a Biber match has a non-empty key without quotes, and the line begins with the text it rebuilds |
| LogPatterns.EngineEnd | src/components/parser/log.ts:8 | the sub-engine group ends at the last ` Error: ` that leaves a message |
| LogPatterns.ErrorTail | src/components/parser/log.ts:8 | a tail is readable exactly when it begins with a space and holds no line break; the optional engine and the message rebuild it |
| LogPatterns.ErrorAfterFile | src/components/parser/log.ts:8 | after the file, a digit run, a colon and the tail rebuild the rest |
| LogPatterns.ErrorColon | src/components/parser/log.ts:8 | the greedy file group ends at the last colon that leaves a readable rest |
| LogPatterns.MatchError | src/components/parser/log.ts:8 | an error match rebuilds the line, has a non-empty message, and a location of a file and a line number when present |
| LogPatterns.BangErrorComplete | src/components/parser/log.ts:8 | a `! message` line is read as an error without location or engine |
| LogPatterns.MatchMessageLine | src/components/parser/log.ts:27 | an `l.<digits>` line is the digits, one whitespace character and the rest, which rebuild it |
| LogPatterns.MatchPath | src/components/parser/log.ts:298 | a path is found exactly when a rooted or relative head follows the optional quote; it is the longest run of path characters there |
| LogPatterns.LastExtension | src/components/parser/log.ts:299 | the greedy name ends at the last dot followed by three lower-case letters |
| LogPatterns.ExtensionSlice | src/components/parser/log.ts:299 | the name up to that dot and its lower-case run is a path-character run with an extension |
| LogPatterns.MatchBareName | src/components/parser/log.ts:299 | a bare name has an extension of at least three lower-case letters and sits right after the optional quote; none is found exactly when no such extension exists |
| LogPatterns.NumberColon | src/components/parser/log.ts:320 | a digit run and a colon rebuild the field |
| LogPatterns.CodeStart | src/components/parser/log.ts:320 | the lazy severity ends at the first place a code and message can follow |
| LogPatterns.SeverityAndCode | src/components/parser/log.ts:320 | severity, digit code and message rebuild the end of the line |
| LogPatterns.LinterLengthOn | src/components/parser/log.ts:320 | the length, severity, code and message fields rebuild the line's end |
| LogPatterns.LinterPositionOn | src/components/parser/log.ts:320 | line, column and the rest rebuild the text after the file |
| LogPatterns.LinterAfterFile | src/components/parser/log.ts:320 | a colon and the position fields rebuild the text after the file |
| LogPatterns.FileEnd | src/components/parser/log.ts:320 | the lazy file group ends at the first place the fields can follow |
| LogPatterns.LinterAt | src/components/parser/log.ts:320 | a match at a given file end rebuilds the line with four digit fields |
| LogPatterns.MatchLinterLine | src/components/parser/log.ts:320 | a linter match rebuilds the line, holds no line break, and its line, column, length and code are digit runs |
| LogProperties.SkipFlagSpent | src/components/parser/log.ts:152-155 | with the skip flag set, a line is dropped, the flag cleared and nothing else changes |
| LogProperties.ExcludeOutsideRecordsOnly | src/components/parser/log.ts:152-180 | while a record collects continuation lines, or a line is being skipped, the exclude patterns make no difference |
| LogProperties.ContinuationCloses | src/components/parser/log.ts:158-161 | a blank line, or a whitespace-led line in error mode, appends one line break, clears both flags and emits nothing |
| LogProperties.ContinuationAppends | src/components/parser/log.ts:162-174 | any other continuation line is appended after a line break, keeping the record's type, file and flags, and emits nothing |
| LogProperties.PackageContinuation | src/components/parser/log.ts:163-166 | a `(file) text on input line N.` line appends `(file)`, a tab, the text and the period, and moves the record to line N |
| LogProperties.ErrorContextLine | src/components/parser/log.ts:167-169 | in error mode an `l.<n> text` line contributes only the text |
| LogParser.ContinuationText | src/components/parser/log.ts:162-172 | outside error mode, a line that is not a package continuation is appended as it is. In error mode, an `l.<n>` line contributes a proper suffix of itself |
| LogProperties.BadBoxLine | src/components/parser/log.ts:181-199 | with bad boxes shown, a bad-box line emits the open record and opens a typesetting record at the first line of the range, in the current file, without touching the file stack |
| LogProperties.WarningLine | src/components/parser/log.ts:215-228 | a warning line emits the open record and opens a warning with message and terminator as its text, the optional line number, and collection of continuation lines |
| LogProperties.BiberLine | src/components/parser/log.ts:229-242 | a Biber line emits the open record, opens a `No bib entry found for '<key>'` warning without file at line 1, and reads the rest of the line again |
| LogProperties.BangErrorLine | src/components/parser/log.ts:245-258 | a `! message` line emits the open record and opens an error at line 1 of the current file, in error mode |
| LogProperties.LocatedErrorLine | src/components/parser/log.ts:245-258 | a `file:N: message` line opens an error on the named file, resolved against the root file's directory, at line N. Its text is the message, prefixed by the engine name unless that is `LaTeX`. The line is exactly file, number and message rebuilt. Error mode is on, and only the open record is emitted |
| TexSnippets.StripTeX | src/components/mathpreview.ts:165-176 | the result is a contiguous piece of the input, and equals it exactly when no delimiter pair encloses it; the copy at src/providers/preview/mathpreview.ts:174-185 is the same rule |
| TexSnippets.FirstEnclosing | src/components/mathpreview.ts:166-173 | the pair removed is the first in the order `$$`, `$`, `\(`, `\[` that encloses the text |
| TexSnippets.StripDisplayMath | src/components/mathpreview.ts:166-167 | display math loses exactly its `$$` pair |
| TexSnippets.StripInlineMath | src/components/mathpreview.ts:168-169 | inline math loses exactly its `$` pair when the body does not itself look enclosed |
| TexSnippets.StripLoneDollar | src/components/mathpreview.ts:168-169 | the overlapping delimiters of `$` leave the empty string |
| TexSnippets.StripParenMath | src/components/mathpreview.ts:170-171 | `\(…\)` loses exactly its delimiters |
| TexSnippets.StripBracketMath | src/components/mathpreview.ts:172-173 | `\[…\]` loses exactly its delimiters |
| TexSnippets.RemoveComment | src/components/mathpreview.ts:346-348 | the result is the line up to its first `%` that follows an even run of backslashes (or the whole line), and every `%` kept follows an odd run, so it is escaped |
| TexSnippets.CommentCutParity | src/components/mathpreview.ts:346-348 | the `(?:\\.\|[^%])*` scan only ever stands after an even run of backslashes, so it stops at the first such `%` and passes only `%`s after an odd run |
| TexSnippets.RemoveCommentDoubleBackslash | src/components/mathpreview.ts:346-348 | after two backslashes a `%` still cuts the line, because the pair is one escaped backslash |
| TexSnippets.RemoveCommentIdempotent | src/components/mathpreview.ts:346-348 | cutting a cut line changes nothing |
| TexSnippets.RemoveCommentExample | src/components/mathpreview.ts:346-348 | an escaped `\%` is kept and the first other `%` cuts the line |
| TexSnippets.SearchBack | src/components/mathpreview.ts:384-393 | a match found is on the nearest line, within the budget, that has one, and no line in between has one |
| TexSnippets.FindBeginPair | src/components/mathpreview.ts:375-395 | a match before the cursor on its own line wins; otherwise the result is the nearest earlier line with a match, at most `limit` lines back; nothing is found only when none of those lines has a match |
| TexSnippets.SearchForward | src/components/mathpreview.ts:361-368 | a match found is on the first later line that has one, and its column is the end of the match |
| TexSnippets.FindEndPair | src/components/mathpreview.ts:353-370 | a match on the current line after the start is reported with the start's column added; otherwise the first later line with a match; nothing is found only when no later line has one |
| TexSnippets.SearchForwardAgrees | src/components/mathpreview.ts:361-368 | the loop as written finds what the bounded search finds, and fails reading past the last line exactly when the bounded search finds nothing |
| TexSnippets.FindEndPairAsWrittenThrows | src/components/mathpreview.ts:353-370 | as written, the search never reports "not found": it finds what the corrected search finds, or fails exactly when that one finds nothing |
| TexSnippets.FindEndPairAsWritten | src/components/mathpreview.ts:353-370 | the search as written never ends with "not found"; a position it finds is on the start line or a later line of the document |
| TexSnippets.SearchForwardAsWritten | src/components/mathpreview.ts:361-368 | the loop as written, started within the document, never ends with "not found". It either finds a later line or fails |
| TexSnippets.FindEndPairThrowsOnMissingEnd | src/components/mathpreview.ts:362 | on a one-line document without the end marker, the loop as written reads a line that does not exist |
| TexSnippets.FindMathEnvFromBeginEnvname | src/components/mathpreview.ts:400-409 | the environment found starts at the `\begin`, keeps its name, ends with `\end{name}` past the begin tag, and is missing exactly when the end search fails. The range ends at the position the end search found, and the snippet is the document's text over that range |
| TexSnippets.GetText | src/components/mathpreview.ts:406 | a range within one line is that piece of the line. A range over several lines is the rest of its first line, every line in between and the head of its last line, joined by line breaks |
| TexSnippets.EndMarkerClosesText | src/components/mathpreview.ts:404-408 | the text from the start to the position found ends with the end marker |
| TexSnippets.InlineFrom | src/components/mathpreview.ts:430-447 | a match found contains the cursor column and lies after the scan base |
| TexSnippets.Spans | src/components/mathpreview.ts:430-447 | the spans the loop visits do not depend on the cursor. They lie after the scan base, inside the line, are non-empty, and each starts where the previous one ended or later |
| TexSnippets.FirstCovering | src/components/mathpreview.ts:433-436 | the index of the first span holding the column; none exactly when no span holds it |
| TexSnippets.InlineFromFirstCovering | src/components/mathpreview.ts:430-447 | the loop returns the first visited span holding the cursor's column, and nothing exactly when none holds it |
| TexSnippets.FindInlineMath | src/components/mathpreview.ts:425-448 | the inline math found is the first span of the scan that holds the cursor's column. It lies on the cursor's line and is exactly that piece of the line. Nothing is found exactly when no span holds the column |
| TexSnippets.FirstRemembered | src/components/mathpreview.ts:338-344 | the result is never empty: the first group when it is non-empty, otherwise `never return here` |
| TexSnippets.BeginEnvName | src/components/mathpreview.ts:278-281 | the name read from a begin tag is one of the math environments, or the fallback |
| TexSnippets.BeginTagUnique | src/components/mathpreview.ts:278 | at one position at most one alternative of the begin pattern matches |
| TexSnippets.BeginEnvNameRoundTrip | src/components/mathpreview.ts:278-281 | reading the name back from `\begin{name}` gives the name |
| TexSnippets.TagFor | src/components/mathpreview.ts:93-106 | without a reference label every label becomes its own tag; with one, that label becomes the given tag (or itself when the tag is empty) and every other label `\notag` |
| TexSnippets.ReplaceLabelsLabelFree | src/components/mathpreview.ts:93 | text without a `\label{` is unchanged |
| TexSnippets.ReplaceLabelsStep | src/components/mathpreview.ts:93-106 | the first label is replaced by its tag, the text before it is kept and the text after it is processed the same way |
| TexSnippets.ReplaceLabels | src/components/mathpreview.ts:93-106 | text without `\label{` is left unchanged; `TexSnippets.ReplaceLabelsStep` gives what happens to each label |
| TexSnippets.WrapForMathJax | src/components/mathpreview.ts:271-273 | the text is wrapped in `\begin{equation}…\end{equation}` exactly when the environment is one of the listed matrix-like ones, and is otherwise unchanged; the copy at src/providers/preview/mathpreview.ts:238-240 is the same rule |
| HoverPreview.AddDummyCodeBlock | src/providers/preview/mathpreview.ts:33-37 | the hover starts and ends with the dummy block and holds the markdown between them |
| HoverPreview.RemoveDummyCodeBlock | src/providers/preview/mathpreview.ts:33-37 | the inverse: what it takes out, wrapped again, gives the input back |
| HoverPreview.DummyCodeBlockRoundTrip | src/providers/preview/mathpreview.ts:33-37 | unwrapping a wrapped hover gives back the markdown |
| HoverPreview.AddDummyCodeBlockInjective | src/providers/preview/mathpreview.ts:33-37 | different markdown gives different hovers |
| HoverPreview.RefNumberMessage | src/providers/preview/mathpreview.ts:126-133 | there is a message exactly when a number from the last compilation exists, and it reads `numbered <n> at last compilation` |
| HoverPreview.MessageNumber | src/providers/preview/mathpreview.ts:126-133 | a number read back from a message rebuilds that message |
| HoverPreview.RefNumberMessageRoundTrip | src/providers/preview/mathpreview.ts:126-133 | the number read back from the message is the number it was made from |
| HoverPreview.TagChoice | src/providers/preview/mathpreview.ts:93-98 | the tag is the last compilation's number when there is one and numbering is on, and the label otherwise |
| HoverPreview.TagMatchesMessage | src/providers/preview/mathpreview.ts:82-98 | with numbering on, the tag shown in the preview is the number the hover message reports |
| HoverPreview.RemoveTagsTagFree | src/providers/preview/mathpreview.ts:136 | text without `\tag{` is unchanged |
| HoverPreview.RemoveTags | src/providers/preview/mathpreview.ts:136 | removing tags never lengthens the text |
| HoverPreview.RemoveTagsShortens | src/providers/preview/mathpreview.ts:136 | text with a tag gets strictly shorter |
| HoverPreview.RemoveTagsStep | src/providers/preview/mathpreview.ts:136 | the first plain `\tag{…}` disappears, the text before it is kept and the text after it is processed the same way |
| HoverPreview.RemoveTagsBraceGroup | src/providers/preview/mathpreview.ts:136 | a tag whose body is one brace group is removed whole |
| HoverPreview.RemoveTagsCanSplice | src/providers/preview/mathpreview.ts:136 | one pass can join the pieces around a removed tag into a new `\tag{` |
| HoverPreview.ReplaceLabelWithTag | src/providers/preview/mathpreview.ts:135-150 | on text without tags, the result is the label substitution alone |
| HoverPreview.ReplaceLabelWithTagDropsOldTag | src/providers/preview/mathpreview.ts:136-150 | an existing tag is dropped before labels are replaced |
| HoverPreview.RefPreviewShowsNumber | src/providers/preview/mathpreview.ts:93-145 | the referenced label is shown as a tag with the last compilation's number when numbering is on and the number is non-empty, and with its own name otherwise |
| HoverPreview.RefPreviewTex | src/providers/preview/mathpreview.ts:93-99 | an equation with neither a label nor a tag is shown unchanged |
| HoverPreview.RefPreviewHidesOthers | src/providers/preview/mathpreview.ts:137-146 | any other label in the previewed equation becomes `\notag` |
| HoverPreview.ColorOf | src/providers/preview/mathpreview.ts:187-194 | the colour is black exactly for a light theme and white otherwise |
| CursorRenderer.Splice | src/providers/preview/mathpreviewlib/cursorrenderer.ts:32 | within the line, the cursor sits at the column with the text before and after it kept; past the end it is appended |
| CursorRenderer.EraseSplice | src/providers/preview/mathpreviewlib/cursorrenderer.ts:32 | erasing the cursor where it was put gives the line back |
| CursorRenderer.InsertCursor | src/providers/preview/mathpreviewlib/cursorrenderer.ts:28-34 | the cursor can be inserted exactly when the cursor's line is one of the snippet's lines |
| CursorRenderer.InsertCursorLines | src/providers/preview/mathpreviewlib/cursorrenderer.ts:29-33 | the snippet keeps its number of lines; every line but the cursor's is unchanged; that one gets the splice |
| CursorRenderer.InsertCursorLineLength | src/providers/preview/mathpreviewlib/cursorrenderer.ts:32 | within the line, the changed line grows by exactly the cursor's length and keeps the text around it |
| CursorRenderer.InsertCursorErases | src/providers/preview/mathpreviewlib/cursorrenderer.ts:28-34 | erasing the cursor from the changed line and joining again gives the snippet back |
| CursorRenderer.CursorSymbol | src/providers/preview/mathpreviewlib/cursorrenderer.ts:48-50 | the symbol is coloured with the preview's colour when the setting is `auto`, else with the configured colour |
| CursorRenderer.RenderCursor | src/providers/preview/mathpreviewlib/cursorrenderer.ts:36-52 | the snippet is returned unchanged without a cursor, with the cursor outside or on either end, with the cursor off, or inside a TeX command; otherwise the coloured symbol is inserted |
| CursorRenderer.RenderCursorInside | src/providers/preview/mathpreviewlib/cursorrenderer.ts:36-52 | for a snippet matching its range, a cursor strictly inside it is always drawn and the line count is kept |
| EnvCompleter.BeginNames | src/providers/completer/environment.ts:110-117 | every name captured from `\begin{…}` holds no brace |
| EnvCompleter.BeginNamesFree | src/providers/completer/environment.ts:110-117 | text without `\begin` yields no name |
| EnvCompleter.BeginNamesStep | src/providers/completer/environment.ts:110-124 | the first `\begin{name}` yields its name first, and the scan continues after its brace |
| EnvCompleter.EnvsFromContent | src/providers/completer/environment.ts:109-126 | the names are pairwise distinct, are exactly the names begun in the text, and come in order of first occurrence |
| EnvCompleter.EnvsOfNode | src/providers/completer/environment.ts:81-94 | an environment node's own name comes before its descendants' |
| EnvCompleter.EnvsArePreorder | src/providers/completer/environment.ts:72-94 | the names collected are those of the environment nodes in pre-order |
| EnvCompleter.EnvsOfPackage | src/providers/completer/environment.ts:96-107 | memoised entries are kept; a missing data file returns nothing and caches nothing; with a memo consistent with the data, the result is the data file's list and the memo stays consistent |
| EnvCompleter.PackageMemoised | src/providers/completer/environment.ts:97-106 | after a successful lookup the package is memoised, and a second lookup returns the same without change |
| EnvCompleter.MissingPackageNotMemoised | src/providers/completer/environment.ts:100-103 | a missing data file leaves the package out of the memo |
| EnvCompleter.PackageEnvsTransparent | src/providers/completer/environment.ts:46-107 | with a consistent memo, the package environments are those read directly from the data files |
| EnvCompleter.Provide | src/providers/completer/environment.ts:24-62 | the list begins with the defaults in order and holds exactly the default, cached and (when enabled) package environments; with package IntelliSense off it is the defaults plus the new cached ones and the memo is untouched |
| EnvCompleter.ProvideAppendsFresh | src/providers/completer/environment.ts:26-60 | after the defaults come the new cached environments and then the new package environments, each appended once and none repeating a default |
| EnvCompleter.ProvideReadsData | src/providers/completer/environment.ts:24-62 | with a consistent memo, the merge gives the same list as reading every package file directly |
| Seqs.AppendNew | src/providers/completer/environment.ts:33-39 | appending only unseen items keeps the prefix, adds exactly the missing items, and keeps a duplicate-free list duplicate-free |
| Seqs.AppendNewIsFresh | src/providers/completer/environment.ts:33-39 | the appended part is the unseen items in first-occurrence order |
| Seqs.FreshIsNew | src/providers/completer/environment.ts:33-39 | the appended items are distinct and none was already present |
| Seqs.AppendNewTwice | src/providers/completer/environment.ts:26-60 | two merges in a row append the first list's new items and then the second's, all distinct and none present before |
| Seqs.Retain | src/providers/completer/reference.ts:50-54 | keeping only listed keys keeps exactly the keys in both |
| Seqs.RetainAppend | src/providers/completer/reference.ts:50-54 | filtering distributes over concatenation |
| RefCompleter.Assign | src/providers/completer/reference.ts:41-45 | assigning a label sets its entry and adds the key once, at the end, when it is new |
| RefCompleter.DeleteStale | src/providers/completer/reference.ts:50-54 | exactly the keys not collected are deleted, and the others keep their entries and order |
| RefCompleter.WithRange | src/providers/completer/reference.ts:37-40 | exactly the references of a file that have a range are kept, tagged with that file |
| RefCompleter.CollectedIff | src/providers/completer/reference.ts:32-40 | a reference is collected exactly when it has a range and belongs to a cached file's references |
| RefCompleter.LastWithLabel | src/providers/completer/reference.ts:41-45 | the index found is the last collected reference with the label, and there is none exactly when the label was not collected |
| RefCompleter.AssignAll | src/providers/completer/reference.ts:37-47 | after assigning every collected reference, the keys are the old keys plus the new labels, untouched keys keep their entries, and each label holds its last reference |
| RefCompleter.Provide | src/providers/completer/reference.ts:23-57 | the list returned is the map's entries in key order |
| RefCompleter.ProvideKeys | src/providers/completer/reference.ts:41-54 | after `provide` the keys are exactly the labels collected in this call |
| RefCompleter.ProvideLastWins | src/providers/completer/reference.ts:41-45 | a label defined several times maps to its last definition in iteration order |
| RefCompleter.Expected | src/providers/completer/reference.ts:32-54 | a reference map built directly from the collected references: its keys are the collected labels |
| RefCompleter.ProvideIsExpected | src/providers/completer/reference.ts:32-54 | the map after `provide` is the map built directly from this call's references |
| RefCompleter.ProvideForgetsPrevious | src/providers/completer/reference.ts:41-54 | the map after `provide` does not depend on the map before it |
| RefCompleter.ProvideClearsNumbers | src/providers/completer/reference.ts:41-45 | a rebuilt entry carries no number from an earlier compilation |
| RefCompleter.ProvideOrder | src/providers/completer/reference.ts:41-56 | surviving old keys keep their order, and new labels follow in first-occurrence order |
| RefCompleter.ClearNumbers | src/providers/completer/reference.ts:111-113 | every entry loses its number and nothing else changes |
| RefCompleter.ApplyNumbers | src/providers/completer/reference.ts:119-127 | numbering changes no key and nothing but the numbers |
| RefCompleter.LastNumber | src/providers/completer/reference.ts:119-127 | a label gets no number exactly when no `\newlabel` line names it |
| RefCompleter.SetNumbers | src/providers/completer/reference.ts:107-128 | the keys and everything but the numbers are kept, and without an aux file every number is cleared |
| RefCompleter.ApplyNumbersLastWins | src/providers/completer/reference.ts:119-127 | after clearing, a label's number comes from the last `\newlabel` line for it |
| RefCompleter.SetNumbersLastWins | src/providers/completer/reference.ts:107-128 | a known label's number is that of its last `\newlabel` line, or none without an aux file |
| RefCompleter.FirstGroup | src/providers/completer/reference.ts:82 | the group taken is among the arguments, and there is none exactly when no argument is a group |
| RefCompleter.LabelOf | src/providers/completer/reference.ts:80-89 | only a command or a text node yields a label |
| RefCompleter.DocumentationWindow | src/providers/completer/reference.ts:94 | the documentation window always holds the definition's own line |
| RefCompleter.DocumentationAsWritten | src/providers/completer/reference.ts:94 | from the second line on, the slice as written is the corrected window; only a definition on the first line differs |
| RefCompleter.RefAt | src/providers/completer/reference.ts:90-97 | the reference carries the label and the zero-based line and column of the node's start. Its documentation is the corrected window, which equals the slice as written from the second line on |
| RefCompleter.DocumentationFirstLineLost | src/providers/completer/reference.ts:94 | for a label on a document's first line, the slice as written documents nothing, while the window holds the label's line |
| RefCompleter.RefsOfNode | src/providers/completer/reference.ts:77-105 | every reference found has a name and a position; a command or text node yields at most one; every name is the text of a group in the node or in the following node |
| RefCompleter.RefsOfNodes | src/providers/completer/reference.ts:64-75 | every reference found in a node list has a name, a position, and a name taken from a group in the list |
| RefCompleter.LabelFromGroup | src/providers/completer/reference.ts:80-89 | a label is the text of a group of the node or of the next node |
| RefCompleter.CommandArgsNotSearched | src/providers/completer/reference.ts:80-104 | a command other than `\label` yields nothing, since its arguments are not searched |
| RefCompleter.LabelCommandYieldsOne | src/providers/completer/reference.ts:80-99 | `\label{x}` yields exactly one reference named x, positioned at the command's start, with the lines around it as documentation |

## Left out
- I/O and editor state. VS Code settings, the active editor, file reads, `fs.existsSync`, the logger and the debug parse in `cursorrenderer.ts:42` are not modelled. Their values are parameters, and the side effects are not modelled.
- `path.resolve`, `path.dirname` and `path.isAbsolute` are abstract functions, given as parameters.
- The exclude patterns (`message.latexlog.exclude`) are an arbitrary predicate on lines.
- Regular expressions are hand-written recognisers with the backtracking outcome worked out by hand. For the searches in `mathpreview.ts`, an abstract matcher returns the first match's index and length.
- The pattern deciding whether the cursor is inside a TeX command is a boolean parameter, because it depends on the editor's word range.
- `getWordRangeAtPosition` is not modelled. Neither is the choice among the `findMathEnv…` entry points that use it.
- The `^$` replace (`src/components/mathpreview.ts:107`, `src/providers/preview/mathpreview.ts:151`) is not modelled. It does nothing on a string.
- The environment reordering and starring regexes after label replacement (`src/components/mathpreview.ts:111-113`, `src/providers/preview/mathpreview.ts:155-157`) are not modelled.
- The comment and label stripping at the start of `mathjaxify` are not modelled. Only its environment wrapping is.
- MathJax typesetting, SVG and the hover objects are not modelled. The preview text is modelled up to what is handed to MathJax.
- `getColor` reads the theme's lightness, given here as a string. The luminance arithmetic of `src/components/mathpreview.ts:178-227` is floating point and is not modelled.
- The LaTeX parse (`latex-utensils`) is a node tree given as input. `stringify` is a function parameter, and the aux-file read is a list of parsed `\newlabel` triples.
- Completion items are reduced to their labels for environments. For references they are reduced to name, documentation, file, position and number. The other fields are not modelled.
- Object-key order in JavaScript puts integer-like keys first. The map is modelled with insertion order only.
- The line terminators U+2028 and U+2029 inside an editor line are not modelled.
- RefCompleter.RefAt: its documentation is the corrected window, not the slice at src/providers/completer/reference.ts:94. The two differ only for a definition on the first line (see "## Findings").
- RefCompleter.RefsOfNode: builds its references with `RefAt`, so a label on the first line gets the corrected documentation, not the empty or wrong slice the code produces.
- RefCompleter.RefsOfNodes: inherits the corrected documentation of `RefsOfNode`.
- RefCompleter.LabelCommandYieldsOne: states the corrected documentation, which for a label on the first line is not what the code produces.
- LogParser.FileStack: its own contract covers only lines without parentheses. Which file each `(` pushes is stated by `LogProperties.OpenPushesPath`, `LogProperties.OpenPushesBareName` and `LogProperties.OpenCountsOther`.
- LogParser.LinterEntryOf: `ToLower` maps only `A`-`Z`. JavaScript's `toLowerCase` folds all of Unicode; severities are ASCII words in practice.
- LogParser.LineOf: `DigitsValue` is the exact decimal value. `parseInt` yields a double, which is inexact above 2^53, far beyond any line or column number.
- TexSnippets.GetText: lines are joined with `"\n"`. VS Code's `getText` keeps the document's own end-of-line sequence, so for a CRLF document the snippet holds `"\r\n"`. Only LF documents are modelled.
- HoverPreview.RemoveTags: its contract only says the text does not grow. One pass of the tag-removing replace need not leave the text tag-free (`HoverPreview.RemoveTagsCanSplice`). What it does on plain tags is stated by `HoverPreview.RemoveTagsStep`.
- CursorRenderer.InsertCursor: `None` stands for the `TypeError` the source raises when the cursor's line is not in the snippet. The thrown error itself is not modelled.
- LogParser.ParseLine: the contract states only the emission rule and the flags. What each kind of line produces is stated by the `LogProperties` lemmas named in the table.
- LogParser.LinterFile: only the case without a root directory is stated. With a root directory, relative paths go through the abstract `resolve`.
- LogParser.LaTeXEntries: the contract states only the entry kinds. The contents are given by the line lemmas.
- TexSnippets.FindInlineMath: the matcher is abstract. It is only required to report non-empty matches at or after the scan position, which is what makes the scan terminate.
- TexSnippets.FindMathEnvFromBeginEnvname: it is built on the corrected `FindEndPair`. Where no later line holds `\end{name}`, the code as written throws from `lineAt(lineCount)` (src/components/mathpreview.ts:362), and the model returns None instead. `TexSnippets.FindEndPairAsWrittenThrows` shows that the as-written search fails in exactly those cases.
- TexSnippets.BeginEnvName: the begin pattern's alternatives are the list of math environment names. The longest-alternative subtleties of the regex engine are not modelled beyond uniqueness.
- RefCompleter.LabelOf: only the node kinds that can yield a label are stated. The value is described by `RefCompleter.LabelFromGroup` and `RefCompleter.LabelCommandYieldsOne`.

## Findings

| source | as written | input that shows it | evidently intended | confidence | as-written member | corrected member |
|---|---|---|---|---|---|---|
| src/components/mathpreview.ts:362 | the forward search loops while `lineNum <= document.lineCount` and reads line `lineNum` | a one-line document whose line lacks the end marker: the loop asks for line 1, which does not exist | stop before `lineCount` and report that nothing was found | medium, not executed (a VS Code `lineAt` past the end throws) | TexSnippets.FindEndPairThrowsOnMissingEnd | TexSnippets.FindEndPair |
| src/providers/completer/reference.ts:94 | documentation is `lines.slice(start.line - 2, end.line + 4)` | a `\label{a}` on line 1 of a seven-line file: the slice starts at -1, which counts from the end, and yields nothing | a window from the line before the definition, clipped at the first line | medium, not executed | RefCompleter.DocumentationFirstLineLost | RefCompleter.DocumentationWindow |

=== FILE: cursor.dfy ===
/** The cursor drawn into a math preview
    (src/providers/preview/mathpreviewlib/cursorrenderer.ts): the coloured
    symbol is spliced into the snippet's line under the cursor, and only when
    the cursor lies strictly inside the snippet, the setting is on and the
    cursor is not inside a TeX command. */
module CursorRenderer {
  import opened Wrappers
  import opened JsString
  import opened TexSnippets

  // ---------------------------------------------------------------------------
  // insertCursor (cursorrenderer.ts:28-34)
  // ---------------------------------------------------------------------------

  /** `line.substring(0, c) + cursor + line.substring(c, line.length)`: the
      cursor at column `c`, or at the end of a shorter line. */
  function Splice(line: string, c: nat, cursor: string): (r: string)
    ensures c <= |line| ==>
      && |r| == |line| + |cursor|
      && r[..c] == line[..c] && r[c..c + |cursor|] == cursor && r[c + |cursor|..] == line[c..]
    ensures c > |line| ==> r == line + cursor
  {
    var r := Substring(line, 0, c) + cursor + Substring(line, c, |line|);
    assert c <= |line| ==> r[..c] == line[..c] && r[c..c + |cursor|] == cursor && r[c + |cursor|..] == line[c..] by {
      if c <= |line| {
        assert Substring(line, 0, c) == line[..c];
      }
    }
    r
  }

  /** Deleting `n` characters at column `c`. */
  function Erase(line: string, c: nat, n: nat): (r: string)
    requires c + n <= |line|
    ensures |r| == |line| - n
  {
    line[..c] + line[c + n..]
  }

  /** Erasing the cursor where it was spliced in gives back the line. */
  lemma EraseSplice(line: string, c: nat, cursor: string)
    requires c <= |line|
    ensures Erase(Splice(line, c, cursor), c, |cursor|) == line
  {
    var r := Splice(line, c, cursor);
    assert line == line[..c] + line[c..];
  }

  /** The snippet's line under the cursor, counted from the snippet's first
      line. */
  function CursorLine(tex: TexMathEnv, pos: Pos): int {
    pos.line - tex.range.start.line
  }

  /** `insertCursor`: the snippet split at `\n`, the cursor spliced into the
      line under `pos`, and the lines joined again. `None` stands for the
      `TypeError` the source raises when that line does not exist. */
  function InsertCursor(tex: TexMathEnv, pos: Pos, cursor: string): (r: Option<string>)
    ensures r.Some? <==> 0 <= CursorLine(tex, pos) < |Split(tex.texString, '\n')|
  {
    var lines := Split(tex.texString, '\n');
    var k := CursorLine(tex, pos);
    if 0 <= k < |lines| then
      Some(Join(lines[k := Splice(lines[k], pos.character, cursor)], '\n'))
    else None
  }

  /** With a cursor free of line breaks, the result has the snippet's lines
      with only the one under the cursor changed, by the splice. */
  lemma InsertCursorLines(tex: TexMathEnv, pos: Pos, cursor: string)
    requires '\n' !in cursor
    requires InsertCursor(tex, pos, cursor).Some?
    ensures var lines := Split(tex.texString, '\n');
      var k := CursorLine(tex, pos);
      var out := Split(InsertCursor(tex, pos, cursor).value, '\n');
      && |out| == |lines|
      && (forall j :: 0 <= j < |lines| && j != k ==> out[j] == lines[j])
      && out[k] == Splice(lines[k], pos.character, cursor)
  {
    var lines := Split(tex.texString, '\n');
    var k := CursorLine(tex, pos);
    var spliced := Splice(lines[k], pos.character, cursor);
    var edited := lines[k := spliced];
    assert '\n' !in spliced by {
      if pos.character <= |lines[k]| {
        assert spliced == spliced[..pos.character] + spliced[pos.character..pos.character + |cursor|]
          + spliced[pos.character + |cursor|..];
      }
    }
    SplitJoin(edited, '\n');
  }

  /** The line under the cursor grows by exactly the cursor when the column is
      within the line, and the text before and after the column is kept. */
  lemma InsertCursorLineLength(tex: TexMathEnv, pos: Pos, cursor: string)
    requires '\n' !in cursor
    requires InsertCursor(tex, pos, cursor).Some?
    requires pos.character <= |Split(tex.texString, '\n')[CursorLine(tex, pos)]|
    ensures var lines := Split(tex.texString, '\n');
      var k := CursorLine(tex, pos);
      var out := Split(InsertCursor(tex, pos, cursor).value, '\n');
      && |out| == |lines|
      && |out[k]| == |lines[k]| + |cursor|
      && out[k][..pos.character] == lines[k][..pos.character]
      && out[k][pos.character + |cursor|..] == lines[k][pos.character..]
  {
    InsertCursorLines(tex, pos, cursor);
  }

  /** Erasing the cursor from the changed line and joining the lines again
      gives back the snippet. */
  lemma InsertCursorErases(tex: TexMathEnv, pos: Pos, cursor: string)
    requires '\n' !in cursor
    requires InsertCursor(tex, pos, cursor).Some?
    requires pos.character <= |Split(tex.texString, '\n')[CursorLine(tex, pos)]|
    ensures var lines := Split(tex.texString, '\n');
      var k := CursorLine(tex, pos);
      var out := Split(InsertCursor(tex, pos, cursor).value, '\n');
      && |out| == |lines| && |out[k]| == |lines[k]| + |cursor|
      && Join(out[k := Erase(out[k], pos.character, |cursor|)], '\n') == tex.texString
  {
    var lines := Split(tex.texString, '\n');
    var k := CursorLine(tex, pos);
    var out := Split(InsertCursor(tex, pos, cursor).value, '\n');
    InsertCursorLines(tex, pos, cursor);
    EraseSplice(lines[k], pos.character, cursor);
    assert out[k := Erase(out[k], pos.character, |cursor|)] == lines;
    JoinSplit(tex.texString, '\n');
  }

  // ---------------------------------------------------------------------------
  // renderCursor (cursorrenderer.ts:36-52)
  // ---------------------------------------------------------------------------

  /** `range.contains(p)`: the position lies between the ends, inclusive. */
  predicate Contains(range: Range, p: Pos) {
    NotAfter(range.start, p) && NotAfter(p, range.end)
  }

  /** The settings `renderCursor` reads: whether the cursor is shown, its
      symbol and its colour (`"auto"` for the preview's own colour). */
  datatype CursorSettings = CursorSettings(enabled: bool, symbol: string, color: string)

  /** The symbol in its colour: the preview's own colour when the setting is
      `"auto"`, the configured colour otherwise. */
  function CursorSymbol(settings: CursorSettings, thisColor: string): (r: string)
    ensures var c := if settings.color == "auto" then thisColor else settings.color;
      && StartsWith(r, "{\\color{" + c + "}") && EndsWith(r, settings.symbol + "}")
      && |r| == |"{\\color{" + c + "}"| + |settings.symbol + "}"|
  {
    var c := if settings.color == "auto" then thisColor else settings.color;
    var head := "{\\color{" + c + "}";
    var r := head + (settings.symbol + "}");
    assert r[..|head|] == head;
    assert r[|r| - |settings.symbol + "}"|..] == settings.symbol + "}";
    r
  }

  /** When the snippet is shown as it is: no cursor, a cursor outside the
      snippet or on one of its ends, the cursor switched off, or the cursor
      inside a TeX command. */
  predicate ShownPlain(tex: TexMathEnv, cursor: Option<Pos>, settings: CursorSettings, inCommand: bool) {
    || cursor.None?
    || !Contains(tex.range, cursor.value)
    || tex.range.start == cursor.value
    || tex.range.end == cursor.value
    || !settings.enabled
    || inCommand
  }

  /** `renderCursor`: the snippet with the coloured cursor symbol inserted,
      unless one of the early returns applies. Whether the cursor is inside a
      TeX command is decided by a regular expression over the editor's word
      range, given here as `inCommand`. `None` stands for `insertCursor`
      raising. */
  function RenderCursor(tex: TexMathEnv, cursor: Option<Pos>, settings: CursorSettings, inCommand: bool,
                        thisColor: string): (r: Option<string>)
    ensures ShownPlain(tex, cursor, settings, inCommand) ==> r == Some(tex.texString)
    ensures !ShownPlain(tex, cursor, settings, inCommand) ==>
      r == InsertCursor(tex, cursor.value, CursorSymbol(settings, thisColor))
  {
    if cursor.None? || !Contains(tex.range, cursor.value)
       || tex.range.start == cursor.value || tex.range.end == cursor.value then
      Some(tex.texString)
    else if !settings.enabled || inCommand then Some(tex.texString)
    else InsertCursor(tex, cursor.value, CursorSymbol(settings, thisColor))
  }

  /** A snippet whose lines match its range: as many lines as the range spans. */
  predicate Fits(tex: TexMathEnv) {
    tex.range.end.line - tex.range.start.line + 1 == |Split(tex.texString, '\n')|
  }

  /** On a snippet that matches its range, a cursor strictly inside it is
      always drawn, and the snippet keeps its number of lines. */
  lemma RenderCursorInside(tex: TexMathEnv, cursor: Pos, settings: CursorSettings, thisColor: string)
    requires Fits(tex) && Contains(tex.range, cursor)
    requires cursor != tex.range.start && cursor != tex.range.end
    requires settings.enabled
    requires '\n' !in settings.symbol && '\n' !in thisColor && '\n' !in settings.color
    ensures var r := RenderCursor(tex, Some(cursor), settings, false, thisColor);
      && r.Some?
      && |Split(r.value, '\n')| == |Split(tex.texString, '\n')|
  {
    var sym := CursorSymbol(settings, thisColor);
    var c := if settings.color == "auto" then thisColor else settings.color;
    assert '\n' !in sym by {
      var head := "{\\color{" + c + "}";
      assert sym == sym[..|head|] + sym[|head|..];
      assert sym[|head|..] == settings.symbol + "}";
    }
    InsertCursorLines(tex, cursor, sym);
  }
}

=== FILE: envcompleter.dfy ===
/** The environment completer: environments read from the syntax tree or from
    raw text, the per-package memo, and the de-duplicating merge of the
    default, cached and package environments
    (src/providers/completer/environment.ts). Completion items are modelled
    by their labels. */
module EnvCompleter {
  import opened Wrappers
  import opened JsString
  import opened Seqs

  // ---------------------------------------------------------------------------
  // getEnvFromContent (environment.ts:109-126)
  // ---------------------------------------------------------------------------

  const BeginWord := "\\begin"

  /** Where the name starts when `\begin\s?{` matches at the head: one
      whitespace character may stand between `\begin` and the brace. */
  function NameStart(s: string): (r: Option<nat>)
    ensures r.Some? ==> |BeginWord| < r.value <= |s| && s[r.value - 1] == '{'
    ensures r.Some? ==> StartsWith(s, BeginWord)
  {
    var p := |BeginWord|;
    if !StartsWith(s, BeginWord) then None
    else if p + 1 < |s| && IsWhitespace(s[p]) && s[p + 1] == '{' then Some(p + 2)
    else if p < |s| && s[p] == '{' then Some(p + 1)
    else None
  }

  /** `[^{}]*}` from `q`: the closing brace, provided no opening brace comes first. */
  function NameEnd(s: string, q: nat): (r: Option<nat>)
    decreases |s| - q
    ensures r.Some? ==> q <= r.value < |s| && s[r.value] == '}'
    ensures r.Some? ==> forall k :: q <= k < r.value ==> s[k] != '{' && s[k] != '}'
  {
    if q >= |s| then None
    else if s[q] == '}' then Some(q)
    else if s[q] == '{' then None
    else NameEnd(s, q + 1)
  }

  /** The match of `\begin\s?{([^{}]*)}` at the head: where the name starts
      and where its brace closes. */
  function BeginMatch(s: string): (r: Option<(nat, nat)>)
    ensures r.Some? ==> |BeginWord| < r.value.0 <= r.value.1 < |s| && s[r.value.1] == '}'
  {
    match NameStart(s)
    case None => None
    case Some(from) =>
      match NameEnd(s, from)
      case None => None
      case Some(close) => Some((from, close))
  }

  /** The names `envReg.exec` finds, left to right; each search resumes after
      the previous match. */
  function BeginNames(s: string): (r: seq<string>)
    decreases |s|
    ensures forall i :: 0 <= i < |r| ==> '{' !in r[i] && '}' !in r[i]
  {
    if |s| == 0 then []
    else
      match BeginMatch(s)
      case Some((from, close)) =>
        var name := s[from..close];
        assert forall k :: 0 <= k < |name| ==> name[k] == s[from + k];
        [name] + BeginNames(s[close + 1..])
      case None => BeginNames(s[1..])
  }

  /** `getEnvFromContent`: the names in order of first occurrence, each once. */
  function EnvsFromContent(s: string): (r: seq<string>)
    ensures Distinct(r)
    ensures forall e :: e in r <==> e in BeginNames(s)
    ensures r == Fresh([], BeginNames(s))
  {
    AppendNewIsFresh([], BeginNames(s));
    assert [] + Fresh([], BeginNames(s)) == Fresh([], BeginNames(s));
    Dedup(BeginNames(s))
  }

  /** No `\begin` anywhere in the text. */
  predicate BeginFree(s: string) {
    forall i :: 0 <= i <= |s| ==> !OccursAt(s, BeginWord, i)
  }

  /** A text without `\begin` does not start a match and stays without one
      after dropping its head. */
  lemma BeginFreeTail(s: string)
    requires BeginFree(s) && |s| > 0
    ensures BeginMatch(s).None? && BeginFree(s[1..])
  {
    assert !OccursAt(s, BeginWord, 0);
    assert |BeginWord| <= |s| ==> s[..|BeginWord|] == s[0..|BeginWord|];
    forall i | 0 <= i <= |s[1..]| ensures !OccursAt(s[1..], BeginWord, i) {
      assert !OccursAt(s, BeginWord, i + 1);
      if i + |BeginWord| <= |s[1..]| {
        assert s[1..][i..i + |BeginWord|] == s[i + 1..i + 1 + |BeginWord|];
      }
    }
  }

  /** Text without `\begin` names no environment. */
  lemma {:induction false} BeginNamesFree(s: string)
    requires BeginFree(s)
    decreases |s|
    ensures BeginNames(s) == []
  {
    if |s| > 0 {
      BeginFreeTail(s);
      BeginNamesFree(s[1..]);
    }
  }

  /** No `\begin` starts across the end of a `\begin`-free `a` into the
      `\begin` that follows it. */
  lemma BeginNotStraddling(a: string, rest: string)
    requires BeginFree(a) && |a| > 0
    ensures !StartsWith(a + (BeginWord + rest), BeginWord)
  {
    var s := a + (BeginWord + rest);
    assert s[|a|] == '\\';
    if |BeginWord| <= |a| {
      assert !OccursAt(a, BeginWord, 0);
      assert s[..|BeginWord|] == a[0..|BeginWord|];
    } else {
      var d := |a|;
      assert BeginWord[d] != '\\';
      assert |BeginWord| <= |s| ==> s[..|BeginWord|][d] == s[|a|];
    }
  }

  /** The brace closes where the name is written to end. */
  lemma NameEndAt(s: string, q: nat, name: string, b: string)
    requires q <= |s| && s[q..] == name + ['}'] + b
    requires '{' !in name && '}' !in name
    decreases |name|
    ensures NameEnd(s, q) == Some(q + |name|)
    ensures s[q..q + |name|] == name && s[q + |name| + 1..] == b
  {
    assert s[q..][..|name|] == name;
    assert s[q..q + |name|] == s[q..][..|name|];
    assert s[q + |name| + 1..] == s[q..][|name| + 1..];
    if |name| > 0 {
      assert s[q] == name[0];
      assert s[q + 1..] == name[1..] + ['}'] + b;
      NameEndAt(s, q + 1, name[1..], b);
    } else {
      assert s[q] == '}';
    }
  }

  /** The written `\begin{name}` at the head is matched as written. */
  lemma BeginMatchWritten(name: string, b: string)
    requires '{' !in name && '}' !in name
    ensures var s := BeginWord + ("{" + (name + ("}" + b)));
      var from := |BeginWord| + 1;
      && BeginMatch(s) == Some((from, from + |name|))
      && s[from..from + |name|] == name && s[from + |name| + 1..] == b
  {
    var s := BeginWord + ("{" + (name + ("}" + b)));
    var from := |BeginWord| + 1;
    assert s[..|BeginWord|] == BeginWord;
    assert s[|BeginWord|] == '{';
    assert s[from..] == name + ['}'] + b;
    NameEndAt(s, from, name, b);
  }

  /** Names are found one at a time, left to right: in `a \begin{name} b`
      with no `\begin` in `a`, the written name comes first and the search
      goes on in `b`. */
  lemma {:induction false} BeginNamesStep(a: string, name: string, b: string)
    requires BeginFree(a)
    requires '{' !in name && '}' !in name
    decreases |a|
    ensures BeginNames(a + (BeginWord + ("{" + (name + ("}" + b))))) == [name] + BeginNames(b)
  {
    var rest := BeginWord + ("{" + (name + ("}" + b)));
    if |a| == 0 {
      assert a + rest == rest;
      BeginMatchWritten(name, b);
    } else {
      var s := a + rest;
      BeginNotStraddling(a, "{" + (name + ("}" + b)));
      assert BeginMatch(s).None?;
      BeginFreeTail(a);
      assert s[1..] == a[1..] + rest;
      BeginNamesStep(a[1..], name, b);
    }
  }

  // ---------------------------------------------------------------------------
  // getEnvFromNode / getEnvFromNodeArray (environment.ts:72-94)
  // ---------------------------------------------------------------------------

  /** A syntax-tree node as the collector sees it: the name when it is an
      environment, and its content array (empty for nodes without one). */
  datatype Node = Node(envName: Option<string>, content: seq<Node>)

  /** `getEnvFromNode`: the node's own environment, then those inside it. */
  function EnvsOfNode(n: Node): (r: seq<string>)
    decreases n, 1
    ensures n.envName.Some? ==> |r| > 0 && r[0] == n.envName.value
  {
    (if n.envName.Some? then [n.envName.value] else []) + EnvsOfNodes(n.content)
  }

  /** `getEnvFromNodeArray`: each node's environments, in order. */
  function EnvsOfNodes(ns: seq<Node>): seq<string>
    decreases ns, 0
  {
    if |ns| == 0 then [] else EnvsOfNode(ns[0]) + EnvsOfNodes(ns[1..])
  }

  /** The nodes of a forest in pre-order: each node, then its content. */
  function Preorder(ns: seq<Node>): seq<Node>
    decreases ns
  {
    if |ns| == 0 then []
    else [ns[0]] + Preorder(ns[0].content) + Preorder(ns[1..])
  }

  /** The environment names of a list of nodes, in order. */
  function NamesOf(ns: seq<Node>): seq<string>
    decreases |ns|
  {
    if |ns| == 0 then []
    else (if ns[0].envName.Some? then [ns[0].envName.value] else []) + NamesOf(ns[1..])
  }

  /** Names of a concatenation. */
  lemma {:induction false} NamesOfAppend(a: seq<Node>, b: seq<Node>)
    decreases |a|
    ensures NamesOf(a + b) == NamesOf(a) + NamesOf(b)
  {
    if |a| == 0 {
      assert a + b == b;
    } else {
      assert (a + b)[0] == a[0];
      assert (a + b)[1..] == a[1..] + b;
      NamesOfAppend(a[1..], b);
    }
  }

  /** The collector lists exactly the environments of a pre-order walk, so
      an environment comes before every environment inside it. */
  lemma {:induction false} EnvsArePreorder(ns: seq<Node>)
    decreases ns
    ensures EnvsOfNodes(ns) == NamesOf(Preorder(ns))
  {
    if |ns| > 0 {
      var n := ns[0];
      EnvsArePreorder(n.content);
      EnvsArePreorder(ns[1..]);
      NamesOfAppend([n] + Preorder(n.content), Preorder(ns[1..]));
      NamesOfAppend([n], Preorder(n.content));
      assert NamesOf([n]) == (if n.envName.Some? then [n.envName.value] else []) by {
        assert [n][1..] == [];
      }
    }
  }

  // ---------------------------------------------------------------------------
  // getEnvFromPkg (environment.ts:96-107)
  // ---------------------------------------------------------------------------

  /** The packages' data files: the environment list of a package, or `None`
      when it has no file. */
  type PackageData = string -> Option<seq<string>>

  /** The memo agrees with the data files. */
  ghost predicate Consistent(memo: map<string, seq<string>>, data: PackageData) {
    forall p :: p in memo ==> data(p) == Some(memo[p])
  }

  /** `getEnvFromPkg`: the memoised list, else the file's list (now memoised),
      else nothing, and nothing is memoised. */
  function EnvsOfPackage(pkg: string, memo: map<string, seq<string>>, data: PackageData): (r: (seq<string>, map<string, seq<string>>))
    ensures memo.Keys <= r.1.Keys
    ensures forall p :: p in memo ==> r.1[p] == memo[p]
    ensures pkg !in memo && data(pkg).None? ==> r == ([], memo)
    ensures Consistent(memo, data) ==> Consistent(r.1, data) && r.0 == data(pkg).GetOr([])
  {
    if pkg in memo then (memo[pkg], memo)
    else
      match data(pkg)
      case None => ([], memo)
      case Some(envs) => (envs, memo[pkg := envs])
  }

  /** A successful lookup is remembered: asking again reads the memo. */
  lemma PackageMemoised(pkg: string, memo: map<string, seq<string>>, data: PackageData)
    requires data(pkg).Some?
    ensures var r := EnvsOfPackage(pkg, memo, data);
      pkg in r.1 && EnvsOfPackage(pkg, r.1, data) == (r.0, r.1)
  {
  }

  /** A missing file is asked for again next time. */
  lemma MissingPackageNotMemoised(pkg: string, memo: map<string, seq<string>>, data: PackageData)
    requires pkg !in memo && data(pkg).None?
    ensures pkg !in EnvsOfPackage(pkg, memo, data).1
  {
  }

  // ---------------------------------------------------------------------------
  // provide (environment.ts:24-62)
  // ---------------------------------------------------------------------------

  /** What the cache holds for one included file. */
  datatype FileCache = FileCache(environments: Option<seq<string>>, packages: Option<seq<string>>)

  /** The cached environments of the included files, in order. */
  function CachedEnvs(files: seq<FileCache>): seq<string>
    decreases |files|
  {
    if |files| == 0 then []
    else files[0].environments.GetOr([]) + CachedEnvs(files[1..])
  }

  /** The packages of the included files, in order. */
  function Packages(files: seq<FileCache>): seq<string>
    decreases |files|
  {
    if |files| == 0 then []
    else files[0].packages.GetOr([]) + Packages(files[1..])
  }

  /** The environments of the packages in order, looked up through the memo. */
  function PackageEnvs(pkgs: seq<string>, memo: map<string, seq<string>>, data: PackageData): (r: (seq<string>, map<string, seq<string>>))
    decreases |pkgs|
    ensures memo.Keys <= r.1.Keys
    ensures Consistent(memo, data) ==> Consistent(r.1, data)
  {
    if |pkgs| == 0 then ([], memo)
    else
      var (head, memo1) := EnvsOfPackage(pkgs[0], memo, data);
      var (tail, memo2) := PackageEnvs(pkgs[1..], memo1, data);
      (head + tail, memo2)
  }

  /** The same lists read straight from the data files. */
  function PackageEnvsDirect(pkgs: seq<string>, data: PackageData): seq<string>
    decreases |pkgs|
  {
    if |pkgs| == 0 then [] else data(pkgs[0]).GetOr([]) + PackageEnvsDirect(pkgs[1..], data)
  }

  /** With a consistent memo, memoisation changes nothing in what is listed. */
  lemma {:induction false} PackageEnvsTransparent(pkgs: seq<string>, memo: map<string, seq<string>>, data: PackageData)
    requires Consistent(memo, data)
    decreases |pkgs|
    ensures PackageEnvs(pkgs, memo, data).0 == PackageEnvsDirect(pkgs, data)
  {
    if |pkgs| > 0 {
      var memo1 := EnvsOfPackage(pkgs[0], memo, data).1;
      PackageEnvsTransparent(pkgs[1..], memo1, data);
    }
  }

  /** `provide`: the defaults as they are, then each cached environment not
      listed yet, then, when package IntelliSense is on, each package
      environment not listed yet; with the memo after the lookups. */
  function Provide(defaults: seq<string>, files: seq<FileCache>, packageEnabled: bool,
                   memo: map<string, seq<string>>, data: PackageData): (r: (seq<string>, map<string, seq<string>>))
    ensures |defaults| <= |r.0| && r.0[..|defaults|] == defaults
    ensures forall e :: e in r.0 <==> (e in defaults || e in CachedEnvs(files)
                                       || (packageEnabled && e in PackageEnvs(Packages(files), memo, data).0))
    ensures !packageEnabled ==> r == (AppendNew(defaults, CachedEnvs(files)), memo)
    ensures Consistent(memo, data) ==> Consistent(r.1, data)
  {
    var withCached := AppendNew(defaults, CachedEnvs(files));
    if !packageEnabled then (withCached, memo)
    else
      var (pkgEnvs, memo1) := PackageEnvs(Packages(files), memo, data);
      var r := AppendNew(withCached, pkgEnvs);
      assert r[..|defaults|] == r[..|withCached|][..|defaults|];
      (r, memo1)
  }

  /** Nothing after the defaults repeats an earlier label: the rest is the
      new cached environments, then the new package environments, each in
      order of first appearance. */
  lemma ProvideAppendsFresh(defaults: seq<string>, files: seq<FileCache>, packageEnabled: bool,
                            memo: map<string, seq<string>>, data: PackageData)
    ensures var r := Provide(defaults, files, packageEnabled, memo, data).0;
      var cached := Fresh(defaults, CachedEnvs(files));
      var pkgs := if packageEnabled then Fresh(defaults + cached, PackageEnvs(Packages(files), memo, data).0) else [];
      && r == defaults + (cached + pkgs)
      && Distinct(cached + pkgs)
      && forall e :: e in cached + pkgs ==> e !in defaults
  {
    var pkgEnvs := if packageEnabled then PackageEnvs(Packages(files), memo, data).0 else [];
    AppendNewTwice(defaults, CachedEnvs(files), pkgEnvs);
    assert Fresh(defaults + Fresh(defaults, CachedEnvs(files)), []) == [];
    assert AppendNew(AppendNew(defaults, CachedEnvs(files)), []) == AppendNew(defaults, CachedEnvs(files));
  }

  /** With a memo that agrees with the data files, the package part is the
      packages' lists as the files give them. */
  lemma ProvideReadsData(defaults: seq<string>, files: seq<FileCache>,
                         memo: map<string, seq<string>>, data: PackageData)
    requires Consistent(memo, data)
    ensures Provide(defaults, files, true, memo, data).0
      == AppendNew(AppendNew(defaults, CachedEnvs(files)), PackageEnvsDirect(Packages(files), data))
  {
    PackageEnvsTransparent(Packages(files), memo, data);
  }
}

=== FILE: hoverpreview.dfy ===
/** The string side of the hover preview for references and math
    (src/providers/preview/mathpreview.ts): the dummy code block that widens
    the hover, the reference-number message, the choice of tag for the
    referenced equation, the removal of existing `\tag{…}`s before labels are
    turned into tags, and the colour for the theme. The shared `stripTeX` and
    environment wrapping are those of `TexSnippets`. */
module HoverPreview {
  import opened Wrappers
  import opened JsString
  import opened TexSnippets
  import opened RefCompleter

  // ---------------------------------------------------------------------------
  // addDummyCodeBlock (mathpreview.ts:33-37)
  // ---------------------------------------------------------------------------

  const DummyCodeBlock := "```\n```"

  /** The block written before the markdown, and the one written after it. */
  const BlockHead := DummyCodeBlock + "\n"
  const BlockTail := "\n" + DummyCodeBlock

  /** `addDummyCodeBlock`: the markdown on its own lines between two empty
      code blocks. */
  function AddDummyCodeBlock(md: string): (r: string)
    ensures StartsWith(r, BlockHead) && EndsWith(r, BlockTail)
    ensures |r| == |BlockHead| + |md| + |BlockTail|
    ensures r[|BlockHead|..|r| - |BlockTail|] == md
  {
    var r := BlockHead + md + BlockTail;
    assert r[..|BlockHead|] == BlockHead;
    assert r[|r| - |BlockTail|..] == BlockTail;
    assert r[|BlockHead|..|r| - |BlockTail|] == md;
    r
  }

  /** The markdown inside a hover text written by `AddDummyCodeBlock`, if it
      is one. */
  function RemoveDummyCodeBlock(s: string): (r: Option<string>)
    ensures r.Some? ==> AddDummyCodeBlock(r.value) == s
  {
    if |BlockHead| + |BlockTail| <= |s| && StartsWith(s, BlockHead) && EndsWith(s, BlockTail) then
      var md := s[|BlockHead|..|s| - |BlockTail|];
      assert s == s[..|BlockHead|] + md + s[|s| - |BlockTail|..];
      Some(md)
    else None
  }

  /** The markdown is recovered from the hover text: the wrapping loses nothing. */
  lemma DummyCodeBlockRoundTrip(md: string)
    ensures RemoveDummyCodeBlock(AddDummyCodeBlock(md)) == Some(md)
  {
  }

  /** Different markdown gives different hover text. */
  lemma AddDummyCodeBlockInjective(a: string, b: string)
    requires AddDummyCodeBlock(a) == AddDummyCodeBlock(b)
    ensures a == b
  {
    DummyCodeBlockRoundTrip(a);
    DummyCodeBlockRoundTrip(b);
  }

  // ---------------------------------------------------------------------------
  // refNumberMessage (mathpreview.ts:126-133)
  // ---------------------------------------------------------------------------

  const NumberedPrefix := "numbered "
  const NumberedSuffix := " at last compilation"

  /** `refNumberMessage`: a message naming the number from the last
      compilation, and none when there is no number. */
  function RefNumberMessage(prev: Option<PrevIndex>): (r: Option<string>)
    ensures r.Some? <==> prev.Some?
    ensures r.Some? ==>
      && StartsWith(r.value, NumberedPrefix) && EndsWith(r.value, NumberedSuffix)
      && |r.value| == |NumberedPrefix| + |prev.value.refNumber| + |NumberedSuffix|
  {
    match prev
    case None => None
    case Some(p) =>
      var m := NumberedPrefix + p.refNumber + NumberedSuffix;
      assert m[..|NumberedPrefix|] == NumberedPrefix;
      assert m[|m| - |NumberedSuffix|..] == NumberedSuffix;
      Some(m)
  }

  /** The number a reference-number message names. */
  function MessageNumber(msg: string): (r: Option<string>)
    ensures r.Some? ==> RefNumberMessage(Some(PrevIndex(r.value, ""))) == Some(msg)
  {
    if |NumberedPrefix| + |NumberedSuffix| <= |msg| && StartsWith(msg, NumberedPrefix) && EndsWith(msg, NumberedSuffix) then
      var n := msg[|NumberedPrefix|..|msg| - |NumberedSuffix|];
      assert msg == msg[..|NumberedPrefix|] + n + msg[|msg| - |NumberedSuffix|..];
      Some(n)
    else None
  }

  /** The message names exactly the number it was given. */
  lemma RefNumberMessageRoundTrip(p: PrevIndex)
    ensures MessageNumber(RefNumberMessage(Some(p)).value) == Some(p.refNumber)
  {
    var m := RefNumberMessage(Some(p)).value;
    assert m == NumberedPrefix + p.refNumber + NumberedSuffix;
    assert m[|NumberedPrefix|..|m| - |NumberedSuffix|] == p.refNumber;
  }

  // ---------------------------------------------------------------------------
  // The tag in provideHoverPreviewOnRef (mathpreview.ts:93-98)
  // ---------------------------------------------------------------------------

  /** The tag shown for the referenced equation: its number from the last
      compilation when there is one and numbers are enabled, else its label. */
  function TagChoice(prev: Option<PrevIndex>, numberEnabled: bool, name: string): (r: string)
    ensures prev.Some? && numberEnabled ==> r == prev.value.refNumber
    ensures prev.None? || !numberEnabled ==> r == name
  {
    if prev.Some? && numberEnabled then prev.value.refNumber else name
  }

  /** With numbers enabled, the preview's tag and the plain hover's message
      name the same number. */
  lemma TagMatchesMessage(prev: Option<PrevIndex>, name: string)
    requires RefNumberMessage(prev).Some?
    ensures MessageNumber(RefNumberMessage(prev).value) == Some(TagChoice(prev, true, name))
  {
    RefNumberMessageRoundTrip(prev.value);
  }

  // ---------------------------------------------------------------------------
  // Removing \tag{…} in replaceLabelWithTag (mathpreview.ts:135-136)
  // ---------------------------------------------------------------------------

  const TagOpen := "\\tag{"

  /** The first brace at or after `q`. */
  function NextBrace(s: string, q: nat): (r: Option<nat>)
    requires q <= |s|
    decreases |s| - q
    ensures r.Some? ==> q <= r.value < |s| && (s[r.value] == '{' || s[r.value] == '}')
    ensures r.Some? ==> forall k :: q <= k < r.value ==> s[k] != '{' && s[k] != '}'
    ensures r.None? ==> forall k :: q <= k < |s| ==> s[k] != '{' && s[k] != '}'
  {
    if q == |s| then None
    else if s[q] == '{' || s[q] == '}' then Some(q)
    else NextBrace(s, q + 1)
  }

  /** Where `(\{[^{}]*?\}|.)*?\}` matched from `q` ends (just past its closing
      brace), tried in the regex engine's order: the lazy loop first tries to
      stop at a `}`; otherwise it takes one more item, a brace group before a
      single character, and backtracks to the character when the group leads
      nowhere. */
  function TagEnd(s: string, q: nat): (r: Option<nat>)
    requires q <= |s|
    decreases |s| - q
    ensures r.Some? ==> q < r.value <= |s| && s[r.value - 1] == '}'
  {
    if q == |s| then None
    else if s[q] == '}' then Some(q + 1)
    else
      var group :=
        if s[q] == '{' then
          match NextBrace(s, q + 1)
          case Some(c) => if s[c] == '}' then TagEnd(s, c + 1) else None
          case None => None
        else None;
      if group.Some? then group
      else if IsDot(s[q]) then TagEnd(s, q + 1)
      else None
  }

  /** A `\tag{…}` match at the head of the text. */
  predicate TagHere(s: string) {
    StartsWith(s, TagOpen) && TagEnd(s, |TagOpen|).Some?
  }

  /** No `\tag{` anywhere in the text. */
  predicate TagFree(s: string) {
    forall i :: 0 <= i <= |s| ==> !OccursAt(s, TagOpen, i)
  }

  /** `tex.replace(/\\tag\{(\{[^{}]*?\}|.)*?\}/g, '')`: scanning left to
      right, a match at the head is dropped and the scan resumes after it;
      otherwise the head character is kept. */
  function RemoveTags(s: string): (r: string)
    decreases |s|
    ensures |r| <= |s|
  {
    if |s| == 0 then ""
    else if TagHere(s) then RemoveTags(s[TagEnd(s, |TagOpen|).value..])
    else [s[0]] + RemoveTags(s[1..])
  }

  /** A text without `\tag{` neither starts one nor gains one by dropping its
      head. */
  lemma TagFreeTail(s: string)
    requires TagFree(s) && |s| > 0
    ensures !TagHere(s) && TagFree(s[1..])
  {
    assert !OccursAt(s, TagOpen, 0);
    assert |TagOpen| <= |s| ==> s[..|TagOpen|] == s[0..|TagOpen|];
    forall i | 0 <= i <= |s[1..]| ensures !OccursAt(s[1..], TagOpen, i) {
      assert !OccursAt(s, TagOpen, i + 1);
      if i + |TagOpen| <= |s[1..]| {
        assert s[1..][i..i + |TagOpen|] == s[i + 1..i + 1 + |TagOpen|];
      }
    }
  }

  /** Text without a tag is left as it is. */
  lemma {:induction false} RemoveTagsTagFree(s: string)
    requires TagFree(s)
    decreases |s|
    ensures RemoveTags(s) == s
  {
    if |s| > 0 {
      TagFreeTail(s);
      RemoveTagsTagFree(s[1..]);
      assert [s[0]] + s[1..] == s;
    }
  }

  /** A match anywhere in the text makes the scan remove something: only a
      text without matches comes back the same length. */
  lemma {:induction false} RemoveTagsShortens(s: string, i: nat)
    requires i < |s| && TagHere(s[i..])
    decreases |s|
    ensures |RemoveTags(s)| < |s|
  {
    if !TagHere(s) {
      assert i != 0 by { assert s[0..] == s; }
      assert s[1..][i - 1..] == s[i..];
      RemoveTagsShortens(s[1..], i - 1);
    }
  }

  /** A plain body, with no brace and no line break, closes at the first `}`. */
  lemma {:induction false} TagEndPlain(s: string, q: nat, body: string, b: string)
    requires q <= |s| && s[q..] == body + ['}'] + b
    requires AllDot(body) && '{' !in body && '}' !in body
    decreases |body|
    ensures TagEnd(s, q) == Some(q + |body| + 1)
    ensures s[q + |body| + 1..] == b
  {
    assert s[q + |body| + 1..] == s[q..][|body| + 1..];
    if |body| == 0 {
      assert s[q] == s[q..][0];
    } else {
      assert s[q] == body[0];
      assert IsDot(body[0]);
      assert s[q + 1..] == body[1..] + ['}'] + b;
      TagEndPlain(s, q + 1, body[1..], b);
    }
  }

  /** No `\tag{` starts across the end of a tag-free `a` into the `\tag{`
      that follows it. */
  lemma TagOpenNotStraddling(a: string, rest: string)
    requires TagFree(a) && |a| > 0
    ensures !StartsWith(a + (TagOpen + rest), TagOpen)
  {
    var s := a + (TagOpen + rest);
    assert s[|a|] == '\\';
    if |TagOpen| <= |a| {
      assert !OccursAt(a, TagOpen, 0);
      assert s[..|TagOpen|] == a[0..|TagOpen|];
    } else {
      var d := |a|;
      assert TagOpen[d] != '\\';
      assert |TagOpen| <= |s| ==> s[..|TagOpen|][d] == s[|a|];
    }
  }

  /** The scan keeps a head that starts no tag. */
  lemma RemoveTagsSkip(s: string)
    requires |s| > 0 && !TagHere(s)
    ensures RemoveTags(s) == [s[0]] + RemoveTags(s[1..])
  {
  }

  /** A written plain tag at the head is dropped and the scan resumes after it. */
  lemma RemoveTagsHead(body: string, b: string)
    requires AllDot(body) && '{' !in body && '}' !in body
    ensures RemoveTags(TagOpen + (body + ("}" + b))) == RemoveTags(b)
  {
    var s := TagOpen + (body + ("}" + b));
    assert s[..|TagOpen|] == TagOpen;
    assert s[|TagOpen|..] == body + ['}'] + b;
    TagEndPlain(s, |TagOpen|, body, b);
  }

  /** Before a tag, the head of a tag-free text is kept. */
  lemma RemoveTagsPastHead(a: string, x: string)
    requires TagFree(a) && |a| > 0
    ensures TagFree(a[1..])
    ensures RemoveTags(a + (TagOpen + x)) == [a[0]] + RemoveTags(a[1..] + (TagOpen + x))
  {
    var s := a + (TagOpen + x);
    TagOpenNotStraddling(a, x);
    RemoveTagsSkip(s);
    TagFreeTail(a);
    assert s[1..] == a[1..] + (TagOpen + x);
  }

  /** Tags are removed one at a time, left to right: in `a \tag{body} b` with
      no tag in `a`, `a` is kept, the tag goes and the rest is processed alone. */
  lemma {:induction false} RemoveTagsStep(a: string, body: string, b: string)
    requires TagFree(a)
    requires AllDot(body) && '{' !in body && '}' !in body
    decreases |a|
    ensures RemoveTags(a + (TagOpen + (body + ("}" + b)))) == a + RemoveTags(b)
  {
    var rest := TagOpen + (body + ("}" + b));
    if |a| == 0 {
      assert a + rest == rest;
      RemoveTagsHead(body, b);
    } else {
      RemoveTagsPastHead(a, body + ("}" + b));
      RemoveTagsStep(a[1..], body, b);
      assert [a[0]] + (a[1..] + RemoveTags(b)) == a + RemoveTags(b);
    }
  }

  /** A brace group inside the tag is part of it: `\tag{{1}}` goes whole. */
  lemma RemoveTagsBraceGroup(b: string)
    ensures RemoveTags(TagOpen + "{1}}" + b) == RemoveTags(b)
  {
    var s := TagOpen + "{1}}" + b;
    assert s[..|TagOpen|] == TagOpen;
    assert s[5] == '{' && s[6] == '1' && s[7] == '}' && s[8] == '}';
    assert NextBrace(s, 7) == Some(7);
    assert NextBrace(s, 6) == Some(7);
    assert TagEnd(s, 8) == Some(9);
    assert TagEnd(s, |TagOpen|) == Some(9);
    assert s[9..] == b;
  }

  /** One pass does not leave the text tag-free: dropping `\tag{x}` from
      `\ta\tag{x}g{y}` joins its neighbours into a new `\tag{y}`. */
  /** The two sides of the example hold no tag. */
  lemma SpliceExampleParts()
    ensures TagFree("\\ta") && TagFree("g{y}")
  {
    var a := "\\ta";
    var b := "g{y}";
    forall i | 0 <= i <= |a| ensures !OccursAt(a, TagOpen, i) { }
    forall i | 0 <= i <= |b| ensures !OccursAt(b, TagOpen, i) { }
  }

  lemma RemoveTagsCanSplice()
    ensures RemoveTags("\\ta" + TagOpen + "x}g{y}") == TagOpen + "y}"
    ensures TagHere(RemoveTags("\\ta" + TagOpen + "x}g{y}"))
  {
    var a := "\\ta";
    var b := "g{y}";
    SpliceExampleParts();
    assert AllDot("x");
    RemoveTagsStep(a, "x", b);
    assert a + (TagOpen + ("x" + ("}" + b))) == "\\ta" + TagOpen + "x}g{y}";
    RemoveTagsTagFree(b);
    assert a + b == TagOpen + "y}";
    TagHereExample();
  }

  /** The spliced text is a tag. */
  lemma TagHereExample()
    ensures TagHere(TagOpen + "y}")
  {
    var t := TagOpen + "y}";
    assert t[..|TagOpen|] == TagOpen;
    assert TagEnd(t, |TagOpen| + 1) == Some(|TagOpen| + 2);
  }

  // ---------------------------------------------------------------------------
  // replaceLabelWithTag (mathpreview.ts:135-150)
  // ---------------------------------------------------------------------------

  /** `replaceLabelWithTag` up to the reordering of tags after multi-line
      environments: existing tags removed, then labels turned into tags. */
  function ReplaceLabelWithTag(tex: string, refLabel: Option<string>, tag: Option<string>): (r: string)
    ensures TagFree(tex) ==> r == ReplaceLabels(tex, refLabel, tag)
  {
    var untagged := RemoveTags(tex);
    assert TagFree(tex) ==> untagged == tex by {
      if TagFree(tex) { RemoveTagsTagFree(tex); }
    }
    ReplaceLabels(untagged, refLabel, tag)
  }

  /** The hover text of a reference: the referenced label shows the chosen
      tag and every other label loses its number. */
  function RefPreviewTex(tex: string, name: string, prev: Option<PrevIndex>, numberEnabled: bool): (r: string)
    ensures TagFree(tex) && LabelFree(tex) ==> r == tex
  {
    ReplaceLabelWithTag(tex, Some(name), Some(TagChoice(prev, numberEnabled, name)))
  }

  /** In an equation whose only label is the referenced one, that label
      becomes its number from the last compilation when numbers are on and
      a non-empty number is known, else its own name; the text around it is
      kept. */
  lemma RefPreviewShowsNumber(a: string, name: string, b: string, prev: Option<PrevIndex>, numberEnabled: bool)
    requires name != "" && AllDot(name) && '}' !in name
    requires LabelFree(a) && LabelFree(b)
    requires TagFree(a + (LabelOpen + (name + ("}" + b))))
    ensures var shown :=
        if prev.Some? && numberEnabled && prev.value.refNumber != "" then prev.value.refNumber else name;
      RefPreviewTex(a + (LabelOpen + (name + ("}" + b))), name, prev, numberEnabled)
        == a + ("\\tag{" + shown + "}" + b)
  {
    var tex := a + (LabelOpen + (name + ("}" + b)));
    var tag := TagChoice(prev, numberEnabled, name);
    ReplaceLabelsStep(a, name, b, Some(name), Some(tag));
    ReplaceLabelsLabelFree(b, Some(name), Some(tag));
  }

  /** Any other label in the equation loses its number. */
  lemma RefPreviewHidesOthers(a: string, other: string, b: string, name: string, prev: Option<PrevIndex>, numberEnabled: bool)
    requires name != "" && other != name && AllDot(other) && '}' !in other
    requires LabelFree(a) && LabelFree(b)
    requires TagFree(a + (LabelOpen + (other + ("}" + b))))
    ensures RefPreviewTex(a + (LabelOpen + (other + ("}" + b))), name, prev, numberEnabled)
      == a + ("\\notag" + b)
  {
    var tag := TagChoice(prev, numberEnabled, name);
    ReplaceLabelsStep(a, other, b, Some(name), Some(tag));
    ReplaceLabelsLabelFree(b, Some(name), Some(tag));
  }

  /** An old tag before the label is dropped rather than shown twice. */
  lemma ReplaceLabelWithTagDropsOldTag(a: string, body: string, b: string, refLabel: Option<string>, tag: Option<string>)
    requires TagFree(a)
    requires AllDot(body) && '{' !in body && '}' !in body
    ensures ReplaceLabelWithTag(a + (TagOpen + (body + ("}" + b))), refLabel, tag)
      == ReplaceLabels(a + RemoveTags(b), refLabel, tag)
  {
    RemoveTagsStep(a, body, b);
  }

  // ---------------------------------------------------------------------------
  // getColor (mathpreview.ts:187-194)
  // ---------------------------------------------------------------------------

  const Black := "#000000"
  const White := "#ffffff"

  /** The colour of the preview for the theme's lightness: black on a light
      theme, white on any other. */
  function ColorOf(lightness: string): (r: string)
    ensures r == Black || r == White
    ensures r == Black <==> lightness == "light"
  {
    if lightness == "light" then Black else White
  }
}

=== FILE: logparser.dfy ===
/** The build-log and linter-log interpreter (src/components/parser/log.ts).
    The parser state of the source is an immutable record here, and every
    step returns the new state together with the log built so far. The
    editor configuration and path resolution come in as a `Config` value. */
module LogParser {
  import opened Wrappers
  import opened JsString
  import opened LogPatterns
  import opened Seqs

  // ---------------------------------------------------------------------------
  // Entries and parser state (log.ts:29-60)
  // ---------------------------------------------------------------------------

  /** `parseInt` of an optional digit capture: absent gives NaN. */
  datatype LineNum = Num(n: nat) | NaN

  /** One diagnostic. `kind` is the source's `type` field; `""` is its
      placeholder for "no message open yet". */
  datatype LogEntry = LogEntry(kind: string, file: string, text: string, line: LineNum)

  const Typesetting := "typesetting"
  const Warning := "warning"
  const Error := "error"

  /** The three kinds that have a diagnostic severity (log.ts:29-33). */
  predicate IsEntryKind(k: string) {
    k == Typesetting || k == Warning || k == Error
  }

  const NoEntry := LogEntry("", "", "", Num(1))

  datatype ParserState = ParserState(
    searchEmptyLine: bool,
    insideBoxWarn: bool,
    insideError: bool,
    current: LogEntry,
    nested: nat,
    rootFile: string,
    fileStack: seq<string>)

  function InitialState(rootFile: string): (st: ParserState)
    ensures Ready(st) && st.rootFile == rootFile
    ensures st.fileStack == [rootFile] && st.nested == 0
    ensures st.current.kind == "" && !st.searchEmptyLine && !st.insideBoxWarn
  {
    ParserState(false, false, false, NoEntry, 0, rootFile, [rootFile])
  }

  /** What every step keeps true: a file is open, the open record is the
      placeholder or a real diagnostic, and error text is only collected while
      continuation lines are being collected. */
  predicate Ready(st: ParserState) {
    && |st.fileStack| > 0
    && (st.current.kind == "" || IsEntryKind(st.current.kind))
    && (st.insideError ==> st.searchEmptyLine)
  }

  /** The settings `parseLine` reads, and `path.resolve(path.dirname(root), p)`
      written `resolve(root, p)`. `excluded` says whether one of the
      `message.latexlog.exclude` patterns matches a line. */
  datatype Config = Config(
    excluded: string -> bool,
    showBadBox: bool,
    resolve: (string, string) -> string)

  datatype Step = Step(state: ParserState, log: seq<LogEntry>)

  /** `out` is `log` followed by real diagnostics only. */
  predicate Extends(log: seq<LogEntry>, out: seq<LogEntry>) {
    && |log| <= |out| && out[..|log|] == log
    && forall k :: |log| <= k < |out| ==> IsEntryKind(out[k].kind)
  }

  lemma ExtendsTrans(a: seq<LogEntry>, b: seq<LogEntry>, c: seq<LogEntry>)
    requires Extends(a, b) && Extends(b, c)
    ensures Extends(a, c)
  {
    assert c[..|a|] == c[..|b|][..|a|];
  }

  /** Push the open record unless it is the placeholder. */
  function PushCurrent(st: ParserState, log: seq<LogEntry>): (out: seq<LogEntry>)
    requires Ready(st)
    ensures Extends(log, out)
    ensures |out| > |log| ==> out == log + [st.current]
    ensures |out| == |log| <==> st.current.kind == ""
  {
    if st.current.kind != "" then log + [st.current] else log
  }

  /** The file the message belongs to: the top of the stack, resolved against
      the root file's directory (log.ts:150). */
  function CurrentFile(cfg: Config, st: ParserState): string
    requires |st.fileStack| > 0
  {
    cfg.resolve(st.rootFile, st.fileStack[|st.fileStack| - 1])
  }

  function LineOf(digits: Option<string>): (n: LineNum)
    ensures n.NaN? <==> digits.None?
    ensures digits.Some? ==> n == Num(DigitsValue(digits.value))
  {
    match digits
    case Some(d) => Num(DigitsValue(d))
    case None => NaN
  }

  // ---------------------------------------------------------------------------
  // Continuation lines (log.ts:157-175)
  // ---------------------------------------------------------------------------

  /** True when a continuation line closes the open record: a blank line, or in
      error mode any line led by whitespace. */
  predicate EndsContinuation(line: string, insideError: bool) {
    Trim(line) == "" || (insideError && |line| > 0 && IsWhitespace(line[0]))
  }

  /** The text a continuation line adds after its newline: the `(file)\ttext.`
      form of a package warning, the line without its `l.<n> ` prefix in error
      mode, else the line itself. */
  function ContinuationText(line: string, insideError: bool): (r: string)
    ensures MatchExtraLine(line).None? && !(insideError && MatchMessageLine(line).Some?) ==> r == line
    ensures MatchExtraLine(line).None? && insideError && MatchMessageLine(line).Some? ==>
      |r| < |line| && r == line[|line| - |r|..]
  {
    match MatchExtraLine(line)
    case Some(x) => "(" + x.file + ")\t" + x.text + (if x.suffix.period then "." else "")
    case None =>
      if insideError then
        match MatchMessageLine(line)
        case Some(m) => m.rest
        case None => line
      else line
  }

  /** One line read while `searchEmptyLine` holds. */
  function Accumulate(line: string, st: ParserState): (r: ParserState)
    ensures r.current.kind == st.current.kind && r.current.file == st.current.file
    ensures StartsWith(r.current.text, st.current.text + "\n")
    ensures r.fileStack == st.fileStack && r.nested == st.nested
    ensures r.rootFile == st.rootFile && r.insideBoxWarn == st.insideBoxWarn
    ensures EndsContinuation(line, st.insideError) ==>
      && !r.searchEmptyLine && !r.insideError
      && r.current == st.current.(text := st.current.text + "\n")
    ensures !EndsContinuation(line, st.insideError) ==>
      && r.searchEmptyLine == st.searchEmptyLine && r.insideError == st.insideError
      && r.current.text == st.current.text + "\n" + ContinuationText(line, st.insideError)
    ensures r.current.line != st.current.line ==> MatchExtraLine(line).Some?
  {
    var cur := st.current;
    if EndsContinuation(line, st.insideError) then
      st.(current := cur.(text := cur.text + "\n"), searchEmptyLine := false, insideError := false)
    else
      var text := cur.text + "\n" + ContinuationText(line, st.insideError);
      assert StartsWith(text, cur.text + "\n") by {
        assert text == (cur.text + "\n") + ContinuationText(line, st.insideError);
      }
      match MatchExtraLine(line)
      case Some(x) => st.(current := cur.(text := text, line := LineOf(x.suffix.lineDigits)))
      case None => st.(current := cur.(text := text))
  }

  // ---------------------------------------------------------------------------
  // The file stack (log.ts:293-317)
  // ---------------------------------------------------------------------------

  predicate IsParen(c: char) {
    c == '(' || c == ')'
  }

  /** Index of the first parenthesis of either kind. */
  function FirstParen(s: string): (r: Option<nat>)
    ensures r.Some? ==> r.value < |s| && IsParen(s[r.value])
    ensures r.Some? ==> forall k :: 0 <= k < r.value ==> !IsParen(s[k])
    ensures r.None? ==> forall k :: 0 <= k < |s| ==> !IsParen(s[k])
  {
    var p := (k: nat) => k < |s| && IsParen(s[k]);
    assert forall k: nat :: p(k) == (k < |s| && IsParen(s[k]));
    FirstWhere(0, |s|, p)
  }

  /** `Array.prototype.pop`: a no-op on the empty stack. */
  function Pop(stack: seq<string>): (r: seq<string>)
    ensures |stack| > 0 ==> r == stack[..|stack| - 1]
    ensures |stack| == 0 ==> r == []
  {
    if |stack| > 0 then stack[..|stack| - 1] else stack
  }

  /** `parseLaTeXFileStack`: parentheses are read left to right. An opening one
      followed by a path pushes the trimmed path, one followed by a bare
      `name.ext` pushes `./name.ext`, any other counts as an unrelated
      parenthesis; a closing one cancels an unrelated parenthesis if there is
      one and pops the stack otherwise. */
  function FileStack(line: string, stack: seq<string>, nested: nat): (r: (seq<string>, nat))
    decreases |line|
    ensures (forall k :: 0 <= k < |line| ==> !IsParen(line[k])) ==> r == (stack, nested)
  {
    match FirstParen(line)
    case None => (stack, nested)
    case Some(i) =>
      var rest := line[i + 1..];
      if line[i] == '(' then
        (match MatchPath(rest)
         case Some(p) => FileStack(rest, stack + [Trim(p)], nested)
         case None =>
           match MatchBareName(rest)
           case Some(n) => FileStack(rest, stack + ["./" + Trim(n)], nested)
           case None => FileStack(rest, stack, nested + 1))
      else if nested > 0 then FileStack(rest, stack, nested - 1)
      else FileStack(rest, Pop(stack), nested)
  }

  /** The last branch of `parseLine`: track files, and reopen the root file if
      the stack ran empty (log.ts:260-263). */
  function TrackFiles(line: string, st: ParserState): (r: ParserState)
    ensures |r.fileStack| > 0
    ensures r == st.(fileStack := r.fileStack, nested := r.nested)
    ensures |FileStack(line, st.fileStack, st.nested).0| == 0 ==> r.fileStack == [st.rootFile]
    ensures |FileStack(line, st.fileStack, st.nested).0| > 0 ==> r.fileStack == FileStack(line, st.fileStack, st.nested).0
  {
    var (stack, nested) := FileStack(line, st.fileStack, st.nested);
    st.(fileStack := if |stack| == 0 then [st.rootFile] else stack, nested := nested)
  }

  // ---------------------------------------------------------------------------
  // One line (log.ts:146-264)
  // ---------------------------------------------------------------------------

  /** The record an error line opens (log.ts:250-255). */
  function ErrorEntry(cfg: Config, st: ParserState, e: ErrorMatch): (r: LogEntry)
    requires |st.fileStack| > 0
    ensures r.kind == Error
    ensures e.engine.Some? && e.engine.value != "LaTeX" ==> r.text == e.engine.value + ": " + e.message
    ensures e.engine.None? || e.engine.value == "LaTeX" ==> r.text == e.message
    ensures e.location.None? ==> r.file == CurrentFile(cfg, st) && r.line == Num(1)
    ensures e.location.Some? ==> r.line == Num(DigitsValue(e.location.value.1))
    ensures e.location.Some? && e.location.value.0 != "" ==> r.file == cfg.resolve(st.rootFile, e.location.value.0)
    ensures e.location.Some? && e.location.value.0 == "" ==> r.file == CurrentFile(cfg, st)
  {
    var text := if e.engine.Some? && e.engine.value != "LaTeX" then e.engine.value + ": " + e.message else e.message;
    match e.location
    case Some((f, d)) =>
      LogEntry(Error, if f != "" then cfg.resolve(st.rootFile, f) else CurrentFile(cfg, st), text, Num(DigitsValue(d)))
    case None => LogEntry(Error, CurrentFile(cfg, st), text, Num(1))
  }

  const BibEntryMissing := "No bib entry found for '"

  /** `parseLine`. A bad-box line is re-read from the end of its match, which
      is the empty remainder, so that call only clears `insideBoxWarn` again. */
  function ParseLine(cfg: Config, line: string, st: ParserState, log: seq<LogEntry>): (r: Step)
    requires Ready(st)
    decreases |line|, 4
    ensures Ready(r.state) && r.state.rootFile == st.rootFile
    ensures !r.state.insideBoxWarn
    ensures Extends(log, r.log)
    ensures |r.log| > |log| && st.current.kind != "" ==> r.log[|log|] == st.current
    ensures st.searchEmptyLine || st.insideBoxWarn ==> r.log == log
  {
    if st.insideBoxWarn then Step(st.(insideBoxWarn := false), log)
    else if st.searchEmptyLine then Step(Accumulate(line, st), log)
    else if cfg.excluded(line) then Step(st, log)
    else ClassifyBox(cfg, line, st, log)
  }

  /** What each classifier below promises. */
  predicate StepOk(st: ParserState, log: seq<LogEntry>, r: Step) {
    && Ready(r.state) && r.state.rootFile == st.rootFile
    && !r.state.insideBoxWarn
    && Extends(log, r.log)
    && (|r.log| > |log| && st.current.kind != "" ==> r.log[|log|] == st.current)
  }

  /** The state in which `parseLine` gets past its flags to the classifiers. */
  predicate Classifying(st: ParserState) {
    Ready(st) && !st.searchEmptyLine && !st.insideBoxWarn
  }

  /** Opening `cur` and re-reading `rest` keeps every promise of a step. */
  lemma OpenThenStep(st: ParserState, log: seq<LogEntry>, st1: ParserState, r: Step)
    requires Ready(st) && Ready(st1) && st1.rootFile == st.rootFile
    requires StepOk(st1, PushCurrent(st, log), r)
    ensures StepOk(st, log, r)
  {
    ExtendsTrans(log, PushCurrent(st, log), r.log);
    if |r.log| > |log| && st.current.kind != "" {
      assert r.log[..|log| + 1] == PushCurrent(st, log);
    }
  }

  /** The two bad-box classifiers, consulted only when bad boxes are shown. */
  function ClassifyBox(cfg: Config, line: string, st: ParserState, log: seq<LogEntry>): (r: Step)
    requires Classifying(st)
    decreases |line|, 3
    ensures StepOk(st, log, r)
  {
    if cfg.showBadBox && MatchBadBox(line).Some? then
      var b := MatchBadBox(line).value;
      var cur := LogEntry(Typesetting, CurrentFile(cfg, st), b.head, Num(DigitsValue(b.lineDigits)));
      assert |line| >= |b.head| > 0;
      var st1 := st.(current := cur, searchEmptyLine := false, insideBoxWarn := true);
      var r := ParseLine(cfg, line[|line|..], st1, PushCurrent(st, log));
      OpenThenStep(st, log, st1, r);
      r
    else if cfg.showBadBox && MatchBoxOutput(line).Some? then
      var h := MatchBoxOutput(line).value;
      var cur := LogEntry(Typesetting, CurrentFile(cfg, st), h, Num(1));
      var st1 := st.(current := cur, searchEmptyLine := false);
      var r := ParseLine(cfg, line[|h + OutputActive|..], st1, PushCurrent(st, log));
      OpenThenStep(st, log, st1, r);
      r
    else ClassifyWarn(cfg, line, st, log)
  }

  /** `latexWarn`: the record waits for continuation lines. */
  function ClassifyWarn(cfg: Config, line: string, st: ParserState, log: seq<LogEntry>): (r: Step)
    requires Classifying(st)
    decreases |line|, 2
    ensures StepOk(st, log, r)
  {
    match MatchWarn(line)
    case Some(w) =>
      var cur := LogEntry(Warning, CurrentFile(cfg, st), w.message + w.terminator, LineOf(w.lineDigits));
      var r := Step(st.(current := cur, searchEmptyLine := true), PushCurrent(st, log));
      OpenThenStep(st, log, r.state, Step(r.state, r.log));
      r
    case None => ClassifyBiber(cfg, line, st, log)
  }

  /** `biberWarn`: the rest of the line after the match is read again. */
  function ClassifyBiber(cfg: Config, line: string, st: ParserState, log: seq<LogEntry>): (r: Step)
    requires Classifying(st)
    decreases |line|, 1
    ensures StepOk(st, log, r)
  {
    match MatchBiber(line)
    case Some(m) =>
      var cur := LogEntry(Warning, "", BibEntryMissing + m.key + "'", Num(1));
      var st1 := st.(current := cur, searchEmptyLine := false);
      var r := ParseLine(cfg, line[|BiberText(m)|..], st1, PushCurrent(st, log));
      OpenThenStep(st, log, st1, r);
      r
    case None => ClassifyError(cfg, line, st, log)
  }

  /** `latexError`, and otherwise the file stack. */
  function ClassifyError(cfg: Config, line: string, st: ParserState, log: seq<LogEntry>): (r: Step)
    requires Classifying(st)
    ensures StepOk(st, log, r)
  {
    match MatchError(line)
    case Some(e) =>
      var st1 := st.(current := ErrorEntry(cfg, st, e), searchEmptyLine := true, insideError := true);
      var r := Step(st1, PushCurrent(st, log));
      OpenThenStep(st, log, st1, Step(st1, r.log));
      r
    case None => Step(TrackFiles(line, st), log)
  }

  // ---------------------------------------------------------------------------
  // The whole log (log.ts:267-291)
  // ---------------------------------------------------------------------------

  /** The `for` loop of `parseLaTeX`. */
  function ParseLines(cfg: Config, lines: seq<string>, st: ParserState, log: seq<LogEntry>): (r: Step)
    requires Ready(st)
    decreases |lines|
    ensures Ready(r.state) && r.state.rootFile == st.rootFile
    ensures Extends(log, r.log)
    ensures |lines| > 0 ==> !r.state.insideBoxWarn
  {
    if |lines| == 0 then Step(st, log)
    else
      var s := ParseLine(cfg, lines[0], st, log);
      var r := ParseLines(cfg, lines[1..], s.state, s.log);
      ExtendsTrans(log, s.log, r.log);
      r
  }

  /** The final push: the open record, unless it is the placeholder or an
      empty-bibliography notice (log.ts:286-288). */
  function Flush(st: ParserState, log: seq<LogEntry>): (out: seq<LogEntry>)
    requires Ready(st)
    ensures Extends(log, out)
    ensures |out| > |log| <==> st.current.kind != "" && !StartsWith(st.current.text, BibEmptyHead)
    ensures |out| > |log| ==> out == log + [st.current]
  {
    if st.current.kind != "" && !StartsWith(st.current.text, BibEmptyHead) then log + [st.current] else log
  }

  /** The fields of a `LogParser` object. */
  datatype Parser = Parser(isLaTeXmkSkipped: bool, buildLog: seq<LogEntry>, buildLogRaw: string)

  /** The entries of a whole log read from `rootFile`. */
  function LaTeXEntries(cfg: Config, log: string, rootFile: string): (entries: seq<LogEntry>)
    ensures forall k :: 0 <= k < |entries| ==> IsEntryKind(entries[k].kind)
  {
    var r := ParseLines(cfg, Split(log, '\n'), InitialState(rootFile), []);
    var out := Flush(r.state, r.log);
    ExtendsTrans([], r.log, out);
    out
  }

  /** `parseLaTeX`: without a root file nothing changes and nothing is returned;
      otherwise the raw log and the fresh entries are stored and returned. */
  function ParseLaTeX(p: Parser, cfg: Config, log: string, rootFile: Option<string>, managerRoot: Option<string>)
    : (r: (Parser, Option<seq<LogEntry>>))
    ensures rootFile.None? && managerRoot.None? <==> r.1.None?
    ensures r.1.None? ==> r.0 == p
    ensures r.1.Some? ==> r.0 == p.(buildLog := r.1.value, buildLogRaw := log)
    ensures r.1.Some? ==> forall k :: 0 <= k < |r.1.value| ==> IsEntryKind(r.1.value[k].kind)
  {
    var root := if rootFile.Some? then rootFile else managerRoot;
    match root
    case None => (p, None)
    case Some(rf) =>
      var entries := LaTeXEntries(cfg, log, rf);
      (p.(buildLog := entries, buildLogRaw := log), Some(entries))
  }

  // ---------------------------------------------------------------------------
  // Line endings (log.ts:75)
  // ---------------------------------------------------------------------------

  /** `log.replace(/(\r\n)|\r/g, '\n')`. */
  function Normalise(s: string): (r: string)
    decreases |s|
    ensures '\r' !in r
    ensures |r| <= |s|
  {
    if |s| == 0 then ""
    else if s[0] == '\r' then "\n" + Normalise(if |s| > 1 && s[1] == '\n' then s[2..] else s[1..])
    else [s[0]] + Normalise(s[1..])
  }

  // ---------------------------------------------------------------------------
  // Wrapper trimming (log.ts:94-136)
  // ---------------------------------------------------------------------------

  predicate LatexmkStart(line: string) {
    LatexmkLatexRuleAt(line, 0)
  }

  predicate LatexmkStep(line: string) {
    LatexmkRuleAt(line, 0)
  }

  predicate TexifyStart(line: string) {
    TexifyLatexAt(line, 0)
  }

  predicate TexifyStep(line: string) {
    TexifyStepAt(line, 0)
  }

  /** Index of the last line satisfying `p`, or -1. */
  function LastIndex(lines: seq<string>, p: string -> bool): (r: int)
    ensures -1 <= r < |lines|
    ensures r >= 0 ==> p(lines[r])
    ensures forall k :: r < k < |lines| ==> !p(lines[k])
  {
    if |lines| == 0 then -1
    else if p(lines[|lines| - 1]) then |lines| - 1
    else LastIndex(lines[..|lines| - 1], p)
  }

  /** The lines kept: from the last engine start, up to the last wrapper step
      when that comes later, else to the end. `slice` with -1 counts from the end. */
  function TrimLines(lines: seq<string>, isStart: string -> bool, isStep: string -> bool): (r: seq<string>)
    ensures LastIndex(lines, isStart) >= 0 ==>
      && |r| > 0 && r[0] == lines[LastIndex(lines, isStart)]
      && isStart(r[0]) && forall k :: 0 < k < |r| ==> !isStart(r[k])
    ensures exists a, b :: 0 <= a <= b <= |lines| && r == lines[a..b]
    ensures var s := LastIndex(lines, isStart); var f := LastIndex(lines, isStep);
      && (s >= 0 && f > s ==> r == lines[s..f])
      && (s >= 0 && f <= s ==> r == lines[s..])
      && (s < 0 <= f ==> r == [])
      && (s < 0 && f < 0 && |lines| > 0 ==> r == lines[|lines| - 1..])
  {
    var s := LastIndex(lines, isStart);
    var f := LastIndex(lines, isStep);
    var from := RelativeIndex(s, |lines|);
    var to := if f <= s then |lines| else if from < RelativeIndex(f, |lines|) then RelativeIndex(f, |lines|) else from;
    var r := if f <= s then SliceFrom(lines, s) else Slice(lines, s, f);
    assert r == lines[from..to];
    assert s >= 0 ==> forall k :: 0 < k < |r| ==> r[k] == lines[s + k];
    r
  }

  function TrimmedLog(log: string, isStart: string -> bool, isStep: string -> bool): (r: string)
    ensures LastIndex(Split(log, '\n'), isStart) >= 0 ==> Split(r, '\n') == TrimLines(Split(log, '\n'), isStart, isStep)
    ensures var lines := Split(log, '\n'); var s := LastIndex(lines, isStart); var f := LastIndex(lines, isStep);
      && (s < 0 <= f ==> r == "")
      && (s < 0 && f < 0 ==> r == lines[|lines| - 1])
  {
    var lines := Split(log, '\n');
    var t := TrimLines(lines, isStart, isStep);
    SliceLinesUnbroken(lines, t);
    assert |t| >= 1 ==> Split(Join(t, '\n'), '\n') == t by {
      if |t| >= 1 {
        SplitJoin(t, '\n');
      }
    }
    Join(t, '\n')
  }

  /** Trimming keeps out any character the log lacks, other than the line break. */
  lemma TrimmedLogKeepsAbsent(log: string, c: char, isStart: string -> bool, isStep: string -> bool)
    requires c != '\n' && c !in log
    ensures c !in TrimmedLog(log, isStart, isStep)
  {
    var lines := Split(log, '\n');
    SplitKeepsAbsent(log, '\n', c);
    var t := TrimLines(lines, isStart, isStep);
    var a, b :| 0 <= a <= b <= |lines| && t == lines[a..b];
    assert forall k :: 0 <= k < |t| ==> t[k] == lines[a + k];
    JoinKeepsAbsent(t, '\n', c);
  }

  /** A run of lines of a split text holds no line break. */
  lemma SliceLinesUnbroken(lines: seq<string>, t: seq<string>)
    requires forall k :: 0 <= k < |lines| ==> '\n' !in lines[k]
    requires exists a, b :: 0 <= a <= b <= |lines| && t == lines[a..b]
    ensures forall k :: 0 <= k < |t| ==> '\n' !in t[k]
  {
    var a, b :| 0 <= a <= b <= |lines| && t == lines[a..b];
    assert forall k :: 0 <= k < |t| ==> t[k] == lines[a + k];
  }

  /** The index loop shared by `trimLaTeXmk` and `trimTexify`. */
  method TrimWrapper(log: string, isStart: string -> bool, isStep: string -> bool) returns (r: string)
    ensures r == TrimmedLog(log, isStart, isStep)
  {
    var lines := Split(log, '\n');
    var startLine := -1;
    var finalLine := -1;
    var index := 0;
    while index < |lines|
      invariant 0 <= index <= |lines|
      invariant startLine == LastIndex(lines[..index], isStart)
      invariant finalLine == LastIndex(lines[..index], isStep)
    {
      assert lines[..index + 1][..index] == lines[..index];
      if isStart(lines[index]) {
        startLine := index;
      }
      if isStep(lines[index]) {
        finalLine := index;
      }
      index := index + 1;
    }
    assert lines[..index] == lines;
    if finalLine <= startLine {
      r := Join(SliceFrom(lines, startLine), '\n');
    } else {
      r := Join(Slice(lines, startLine, finalLine), '\n');
    }
  }

  method TrimLaTeXmk(log: string) returns (r: string)
    ensures r == TrimmedLog(log, LatexmkStart, LatexmkStep)
  {
    r := TrimWrapper(log, LatexmkStart, LatexmkStep);
  }

  method TrimTexify(log: string) returns (r: string)
    ensures r == TrimmedLog(log, TexifyStart, TexifyStep)
  {
    r := TrimWrapper(log, TexifyStart, TexifyStep);
  }

  // ---------------------------------------------------------------------------
  // parse (log.ts:72-92, 138-144)
  // ---------------------------------------------------------------------------

  /** The log as `parse` hands it on: line endings unified, then cut down to
      the last engine run when a latexmk or texify wrapper wrote it. */
  function Prepared(log: string): (r: string)
    ensures '\r' !in r
  {
    var text := Normalise(log);
    TrimmedLogKeepsAbsent(text, '\r', LatexmkStart, LatexmkStep);
    TrimmedLogKeepsAbsent(text, '\r', TexifyStart, TexifyStep);
    if HasLatexmkSignature(text) then TrimmedLog(text, LatexmkStart, LatexmkStep)
    else if HasTexifySignature(text) then TrimmedLog(text, TexifyStart, TexifyStep)
    else text
  }

  /** `latexmkSkipped`: the first line says latexmk had nothing to do. */
  predicate LatexmkSkipped(log: string) {
    IsUpToDateLine(Split(log, '\n')[0])
  }

  /** Which way `parse` goes with a prepared log. */
  datatype Route = ReadLog | Skipped | Nothing

  function RouteOf(text: string): (r: Route)
    ensures r == ReadLog <==> HasOutputMarker(text)
    ensures r == Skipped <==> !HasOutputMarker(text) && LatexmkSkipped(text)
  {
    if HasOutputMarker(text) then ReadLog
    else if LatexmkSkipped(text) then Skipped
    else Nothing
  }

  /** `parse`. */
  function Parse(p: Parser, cfg: Config, log: string, rootFile: Option<string>, managerRoot: Option<string>)
    : (r: (Parser, Option<seq<LogEntry>>))
    ensures r.0.isLaTeXmkSkipped <==> RouteOf(Prepared(log)) == Skipped
    ensures r.0.isLaTeXmkSkipped ==> r.1 == Some(p.buildLog) && r.0.buildLog == p.buildLog
    ensures r.1.None? ==> r.0.buildLog == p.buildLog && r.0.buildLogRaw == p.buildLogRaw
    ensures r.1.Some? && !r.0.isLaTeXmkSkipped ==>
      && RouteOf(Prepared(log)) == ReadLog && r.0.buildLog == r.1.value && r.0.buildLogRaw == Prepared(log)
      && forall k :: 0 <= k < |r.1.value| ==> IsEntryKind(r.1.value[k].kind)
  {
    var cleared := p.(isLaTeXmkSkipped := false);
    var text := Prepared(log);
    match RouteOf(text)
    case ReadLog => ParseLaTeX(cleared, cfg, text, rootFile, managerRoot)
    case Skipped => (p.(isLaTeXmkSkipped := true), Some(p.buildLog))
    case Nothing => (cleared, None)
  }

  // ---------------------------------------------------------------------------
  // parseLinter (log.ts:319-341)
  // ---------------------------------------------------------------------------

  datatype LinterEntry = LinterEntry(file: string, line: nat, position: nat, length: nat,
                                     kind: string, code: nat, text: string)

  /** `singleFileOriginalPath`, `manager.rootDir`, `path.isAbsolute` and
      `path.resolve(dir, p)`. */
  datatype LinterPaths = LinterPaths(
    override: Option<string>,
    rootDir: Option<string>,
    isAbsolute: string -> bool,
    resolve: (string, string) -> string)

  /** Index of the first line terminator. */
  function FirstTerminator(s: string): (r: Option<nat>)
    ensures r.Some? ==> r.value < |s| && IsLineTerminator(s[r.value]) && AllDot(s[..r.value])
    ensures r.None? <==> AllDot(s)
  {
    var p := (k: nat) => k < |s| && IsLineTerminator(s[k]);
    assert forall k: nat :: p(k) == (k < |s| && IsLineTerminator(s[k]));
    var r := FirstWhere(0, |s|, p);
    if r.Some? then
      assert forall k :: 0 <= k < r.value ==> s[..r.value][k] == s[k];
      r
    else r
  }

  /** The lines `^…$` sees in multi-line mode: pieces between line terminators. */
  function SplitLines(s: string): (r: seq<string>)
    decreases |s|
    ensures |r| >= 1
    ensures forall k :: 0 <= k < |r| ==> AllDot(r[k])
  {
    match FirstTerminator(s)
    case None => [s]
    case Some(i) => [s[..i]] + SplitLines(s[i + 1..])
  }

  /** The file an entry reports: the override when one is given (a non-empty
      string), else the captured name; resolved against the root directory
      only when it is relative and a root directory is known. */
  function LinterFile(paths: LinterPaths, captured: string): (f: string)
    ensures paths.rootDir.None? ==> f == (if paths.override.Some? && paths.override.value != "" then paths.override.value else captured)
  {
    var named := if paths.override.Some? && paths.override.value != "" then paths.override.value else captured;
    if !paths.isAbsolute(named) && paths.rootDir.Some? then paths.resolve(paths.rootDir.value, named) else named
  }

  predicate NoUpper(s: string) {
    forall i :: 0 <= i < |s| ==> !('A' <= s[i] <= 'Z')
  }

  function LinterEntryOf(paths: LinterPaths, m: LinterMatch): (e: LinterEntry)
    ensures NoUpper(e.kind) && e.kind == ToLower(m.severity)
    ensures e.file == LinterFile(paths, m.file)
    ensures e.line == DigitsValue(m.line) && e.position == DigitsValue(m.column)
    ensures e.length == DigitsValue(m.length) && e.code == DigitsValue(m.code)
    ensures StartsWith(e.text, m.code + ": ") && e.text[|m.code| + 2..] == m.message
  {
    var text := m.code + ": " + m.message;
    assert text[..|m.code| + 2] == m.code + ": ";
    LinterEntry(LinterFile(paths, m.file), DigitsValue(m.line), DigitsValue(m.column), DigitsValue(m.length),
                ToLower(m.severity), DigitsValue(m.code), text)
  }

  /** The entry of one line, if it matches. */
  function LineEntry(paths: LinterPaths, line: string): (r: seq<LinterEntry>)
    ensures |r| <= 1 && (|r| == 1 <==> MatchLinterLine(line).Some?)
    ensures |r| == 1 ==> r[0] == LinterEntryOf(paths, MatchLinterLine(line).value)
  {
    match MatchLinterLine(line)
    case Some(m) => [LinterEntryOf(paths, m)]
    case None => []
  }

  /** The per-line step, as a value. */
  function EntryOfLine(paths: LinterPaths): (f: string -> seq<LinterEntry>)
    ensures forall line :: f(line) == LineEntry(paths, line)
  {
    (line: string) => LineEntry(paths, line)
  }

  /** One entry per matching line, in order. */
  function LinterEntries(paths: LinterPaths, lines: seq<string>): (r: seq<LinterEntry>)
    ensures |r| <= |lines|
    ensures forall k :: 0 <= k < |r| ==> NoUpper(r[k].kind)
  {
    var f := EntryOfLine(paths);
    ConcatMapKeeps(f, lines, (e: LinterEntry) => NoUpper(e.kind));
    ConcatMap(f, lines)
  }

  /** `parseLinter`. */
  function ParseLinter(log: string, paths: LinterPaths): (r: seq<LinterEntry>)
    ensures |r| <= |SplitLines(log)|
    ensures forall k :: 0 <= k < |r| ==> NoUpper(r[k].kind)
  {
    LinterEntries(paths, SplitLines(log))
  }
}

=== FILE: logpatterns.dfy ===
/** Recognisers for the regular expressions of the build-log and linter-log
    parser (src/components/parser/log.ts:6-27, 298-299, 320), written out by hand.
    Each returns the pieces the ECMAScript engine would report. A greedy
    quantifier that must backtrack picks the LAST workable split and a lazy one
    the FIRST; a run of digits followed by a literal is always maximal. Each
    match record also keeps the uncaptured separators, so that a `...Text`
    function can put the line back together: every recogniser promises that the
    pieces it returns reassemble the line it was given. */
module LogPatterns {
  import opened Wrappers
  import opened JsString

  predicate IsNumberField(d: string) {
    |d| > 0 && AllDigits(d)
  }

  // ---------------------------------------------------------------------------
  // Bad boxes: latexBox, latexBoxAlt, latexBoxOutput (log.ts:9-11)
  // ---------------------------------------------------------------------------

  /** Length of `(?:Over|Under)full \\[vh]box \(` at the start of `s`, or 0. */
  function BoxOpenerLength(s: string): (n: nat)
    ensures n == 0 || (n <= |s| && (n == 16 || n == 17))
  {
    if StartsWith(s, "Overfull \\vbox (") || StartsWith(s, "Overfull \\hbox (") then 16
    else if StartsWith(s, "Underfull \\vbox (") || StartsWith(s, "Underfull \\hbox (") then 17
    else 0
  }

  /** Capture 1 of the bad-box patterns: an opener, then everything up to and
      including the first `)`. */
  predicate IsBoxHead(h: string) {
    var k := BoxOpenerLength(h);
    0 < k < |h| && h[|h| - 1] == ')' && ')' !in h[k..|h| - 1]
  }

  lemma OpenerOfPrefix(s: string, e: nat)
    requires 17 <= e <= |s|
    ensures BoxOpenerLength(s[..e]) == BoxOpenerLength(s)
  {
    assert s[..e][..16] == s[..16];
    assert s[..e][..17] == s[..17];
  }

  /** Length of the bad-box head at the start of `line`. */
  function BoxHeadEnd(line: string): (r: Option<nat>)
    ensures r.Some? ==> r.value <= |line| && IsBoxHead(line[..r.value])
  {
    var k := BoxOpenerLength(line);
    if k == 0 then None
    else
      match IndexOf(line[k..], ')')
      case None => None
      case Some(c) =>
        var e := k + c + 1;
        OpenerOfPrefix(line, e);
        assert line[..e][k..e - 1] == line[k..e - 1];
        assert line[k..][..c] == line[k..e - 1];
        Some(e)
  }

  /** A line that starts with a bad-box head has exactly that head recognised. */
  lemma BoxHeadComplete(h: string, rest: string)
    requires IsBoxHead(h)
    ensures BoxHeadEnd(h + rest) == Some(|h|)
  {
    var line := h + rest;
    assert line[..|h|] == h;
    OpenerOfPrefix(line, |h|);
    var k := BoxOpenerLength(h);
    var c := |h| - 1 - k;
    assert line[k..][c] == ')';
    assert line[k..][..c] == h[k..|h| - 1];
  }

  const InParagraph := " in paragraph at lines "
  const DetectedAt := " detected at line "
  const OutputActive := " has occurred while \\output is active"

  /** A bad-box notice: the head and the line numbers that follow it. */
  datatype BadBox =
    | Paragraph(head: string, lineDigits: string, lastDigits: string)
    | Detected(head: string, lineDigits: string)

  predicate BadBoxWellFormed(b: BadBox) {
    IsBoxHead(b.head) && IsNumberField(b.lineDigits) && (b.Paragraph? ==> IsNumberField(b.lastDigits))
  }

  function BadBoxText(b: BadBox): string {
    match b
    case Paragraph(h, d1, d2) => h + (InParagraph + (d1 + ("--" + d2)))
    case Detected(h, d) => h + (DetectedAt + d)
  }

  /** ` in paragraph at lines (\d+)--(\d+)$`. */
  function ParagraphTail(s: string): (r: Option<(string, string)>)
    ensures r.Some? ==> IsNumberField(r.value.0) && IsNumberField(r.value.1)
    ensures r.Some? ==> s == InParagraph + (r.value.0 + ("--" + r.value.1))
  {
    if StartsWith(s, InParagraph) then
      var t := s[|InParagraph|..];
      var d1 := DigitRun(t, 0);
      var u := t[d1..];
      if d1 > 0 && StartsWith(u, "--") && IsNumberField(u[2..]) then
        SplitPrefix(s, InParagraph);
        assert t == t[..d1] + u;
        SplitPrefix(u, "--");
        Some((t[..d1], u[2..]))
      else None
    else None
  }

  /** ` detected at line (\d+)$`. */
  function DetectedTail(s: string): (r: Option<string>)
    ensures r.Some? ==> IsNumberField(r.value) && s == DetectedAt + r.value
  {
    if StartsWith(s, DetectedAt) && IsNumberField(s[|DetectedAt|..]) then
      SplitPrefix(s, DetectedAt);
      Some(s[|DetectedAt|..])
    else None
  }

  /** `latexBox`, and `latexBoxAlt` when the first does not match (log.ts:181-184). */
  function MatchBadBox(line: string): (r: Option<BadBox>)
    ensures r.Some? ==> BadBoxWellFormed(r.value) && BadBoxText(r.value) == line
  {
    match BoxHeadEnd(line)
    case None => None
    case Some(e) =>
      assert line == line[..e] + line[e..];
      match ParagraphTail(line[e..])
      case Some((d1, d2)) => Some(Paragraph(line[..e], d1, d2))
      case None =>
        match DetectedTail(line[e..])
        case Some(d) => Some(Detected(line[..e], d))
        case None => None
  }

  lemma ParagraphTailComplete(d1: string, d2: string)
    requires IsNumberField(d1) && IsNumberField(d2)
    ensures ParagraphTail(InParagraph + (d1 + ("--" + d2))) == Some((d1, d2))
  {
    var s := InParagraph + (d1 + ("--" + d2));
    assert s[..|InParagraph|] == InParagraph;
    var t := s[|InParagraph|..];
    assert t == d1 + ("--" + d2);
    DigitRunConcat(d1, "--" + d2, 0);
    assert t[|d1|..] == "--" + d2;
    assert ("--" + d2)[2..] == d2;
  }

  lemma DetectedTailComplete(d: string)
    requires IsNumberField(d)
    ensures ParagraphTail(DetectedAt + d) == None
    ensures DetectedTail(DetectedAt + d) == Some(d)
  {
    var s := DetectedAt + d;
    assert !StartsWith(s, InParagraph) by {
      if |s| >= |InParagraph| {
        assert s[..|InParagraph|][1] != InParagraph[1];
      }
    }
    assert s[..|DetectedAt|] == DetectedAt;
    assert s[|DetectedAt|..] == d;
  }

  /** Every well-formed notice is recognised with exactly its own pieces. */
  lemma BadBoxRoundTrip(b: BadBox)
    requires BadBoxWellFormed(b)
    ensures MatchBadBox(BadBoxText(b)) == Some(b)
  {
    var line := BadBoxText(b);
    var h := b.head;
    var rest := line[|h|..];
    assert line == h + rest;
    BoxHeadComplete(h, rest);
    assert line[..|h|] == h;
    match b
    case Paragraph(_, d1, d2) =>
      assert rest == InParagraph + (d1 + ("--" + d2));
      ParagraphTailComplete(d1, d2);
    case Detected(_, d) =>
      assert rest == DetectedAt + d;
      DetectedTailComplete(d);
  }

  /** `latexBoxOutput` (log.ts:11): a prefix match whose capture 1 is the head. */
  function MatchBoxOutput(line: string): (r: Option<string>)
    ensures r.Some? ==> IsBoxHead(r.value) && StartsWith(line, r.value + OutputActive)
  {
    match BoxHeadEnd(line)
    case None => None
    case Some(e) =>
      if StartsWith(line[e..], OutputActive) then
        CutAt(line, e);
        StartsWithAfter(line, line[..e], line[e..], OutputActive);
        Some(line[..e])
      else None
  }

  // ---------------------------------------------------------------------------
  // Package, class and LaTeX warnings: latexWarn (log.ts:12)
  // ---------------------------------------------------------------------------

  const OnInputLine := " on input line "

  /** `$1 $2:$gap$3` followed by the optional ` on input line $4` and `$5`. */
  datatype WarnMatch = WarnMatch(source: string, level: string, gap: string, message: string,
                                 lineDigits: Option<string>, terminator: string)

  predicate IsTerminator(t: string) {
    t == "" || t == "." || t == "?"
  }

  function WarnTailText(digits: Option<string>, term: string): string {
    if digits.Some? then OnInputLine + (digits.value + term) else term
  }

  function WarnBodyText(gap: string, message: string, digits: Option<string>, term: string): string {
    gap + (message + WarnTailText(digits, term))
  }

  function WarnText(m: WarnMatch): string {
    m.source + (" " + (m.level + (":" + WarnBodyText(m.gap, m.message, m.lineDigits, m.terminator))))
  }

  /** What may follow the lazy message, the line-number form tried first. */
  function WarnTail(t: string): (r: Option<(Option<string>, string)>)
    ensures r.Some? ==> IsTerminator(r.value.1) && (r.value.0.Some? ==> IsNumberField(r.value.0.value))
    ensures r.Some? ==> t == WarnTailText(r.value.0, r.value.1)
    ensures IsTerminator(t) ==> r == Some((None, t))
  {
    if StartsWith(t, OnInputLine) then
      var u := t[|OnInputLine|..];
      var d := DigitRun(u, 0);
      if d > 0 && IsTerminator(u[d..]) then
        SplitPrefix(t, OnInputLine);
        assert u == u[..d] + u[d..];
        Some((Some(u[..d]), u[d..]))
      else None
    else if IsTerminator(t) then Some((None, t))
    else None
  }

  predicate WarnTailAt(R: string, k: nat) {
    k <= |R| && WarnTail(R[k..]).Some?
  }

  /** The lazy message: the shortest prefix of `R` that leaves a valid tail. */
  function WarnMessageEnd(R: string): (k: nat)
    ensures k <= |R| && WarnTailAt(R, k)
  {
    assert WarnTailAt(R, |R|) by { assert R[|R|..] == ""; }
    var p := (k: nat) => WarnTailAt(R, k);
    assert forall j: nat :: p(j) == WarnTailAt(R, j);
    FirstWhere(0, |R| + 1, p).value
  }

  /** The message is as short as possible: no earlier end leaves a valid tail. */
  lemma WarnMessageEndLeast(R: string, j: nat)
    requires j < WarnMessageEnd(R)
    ensures !WarnTailAt(R, j)
  {
    var p := (k: nat) => WarnTailAt(R, k);
    assert forall i: nat :: p(i) == WarnTailAt(R, i);
    assert WarnMessageEnd(R) == FirstWhere(0, |R| + 1, p).value;
  }

  /** `\s+(.*?)(?: on input line (\d+))?(\.|\?|)$`: the whitespace run is maximal,
      since every character `.` refuses is itself whitespace. */
  function WarnBody(s: string): (r: Option<(string, string, Option<string>, string)>)
    ensures r.Some? ==> |r.value.0| > 0 && AllWhitespace(r.value.0) && AllDot(r.value.1)
    ensures r.Some? ==> IsTerminator(r.value.3) && (r.value.2.Some? ==> IsNumberField(r.value.2.value))
    ensures r.Some? ==> s == WarnBodyText(r.value.0, r.value.1, r.value.2, r.value.3)
  {
    var w := WhitespaceRun(s, 0);
    if w > 0 && AllDot(s[w..]) then
      var k := WarnMessageEnd(s[w..]);
      assert AllDot(s[w..][..k]);
      WarnSplit(s, w, k)
    else None
  }

  /** The gap, the message, the line number and the terminator, for a message
      of length `k` after a gap of length `w`. */
  function WarnSplit(s: string, w: nat, k: nat): (r: Option<(string, string, Option<string>, string)>)
    requires w + k <= |s|
    ensures r.Some? ==> r.value.0 == s[..w] && r.value.1 == s[w..][..k]
    ensures r.Some? ==> IsTerminator(r.value.3) && (r.value.2.Some? ==> IsNumberField(r.value.2.value))
    ensures r.Some? ==> s == WarnBodyText(r.value.0, r.value.1, r.value.2, r.value.3)
  {
    match WarnTail(s[w + k..])
    case None => None
    case Some(t) =>
      Split3(s, w, w + k);
      Some((s[..w], s[w..][..k], t.0, t.1))
  }

  /** Capture 1 of `latexWarn`: `LaTeX`, or `Class`/`Package`, a space and a
      word without whitespace. */
  predicate IsWarnSource(s: string) {
    || s == "LaTeX"
    || (StartsWith(s, "Class ") && forall k :: 6 <= k < |s| ==> !IsWhitespace(s[k]))
    || (StartsWith(s, "Package ") && forall k :: 8 <= k < |s| ==> !IsWhitespace(s[k]))
  }

  /** End of capture 1 of `latexWarn`: `(?:Class|Package) \S*` or `LaTeX`. */
  function WarnSourceEnd(line: string): (r: Option<nat>)
    ensures r.Some? ==> r.value <= |line| && IsWarnSource(line[..r.value])
  {
    if StartsWith(line, "Class ") then Some(6 + NonWhitespaceRun(line, 6))
    else if StartsWith(line, "Package ") then Some(8 + NonWhitespaceRun(line, 8))
    else if StartsWith(line, "LaTeX") then Some(5)
    else None
  }

  /** Capture 2 of `latexWarn`, tried in the pattern's order. */
  function WarnLevel(s: string): (r: Option<string>)
    ensures r.Some? ==> r.value in {"Warning", "Info", "Font Warning"}
    ensures r.Some? ==> StartsWith(s, r.value) && |s| > |r.value| && s[|r.value|] == ':'
  {
    if StartsWith(s, "Warning:") then Some("Warning")
    else if StartsWith(s, "Info:") then Some("Info")
    else if StartsWith(s, "Font Warning:") then Some("Font Warning")
    else None
  }

  /** After the source: a space, the level, a colon and the body. */
  function WarnAfterSource(s: string): (r: Option<(string, string, string, Option<string>, string)>)
    ensures r.Some? ==> r.value.0 in {"Warning", "Info", "Font Warning"}
    ensures r.Some? ==> |r.value.1| > 0 && AllWhitespace(r.value.1) && AllDot(r.value.2)
    ensures r.Some? ==> IsTerminator(r.value.4) && (r.value.3.Some? ==> IsNumberField(r.value.3.value))
    ensures r.Some? ==> s == " " + (r.value.0 + (":" + WarnBodyText(r.value.1, r.value.2, r.value.3, r.value.4)))
  {
    if |s| > 0 && s[0] == ' ' then
      match WarnLevel(s[1..])
      case None => None
      case Some(level) =>
        match WarnBody(s[|level| + 2..])
        case None => None
        case Some(b) =>
          SplitPrefix(s, " ");
          SplitPrefix(s[1..], level);
          SplitPrefix(s[1..][|level|..], ":");
          assert s[1..][|level|..][1..] == s[|level| + 2..];
          Some((level, b.0, b.1, b.2, b.3))
    else None
  }

  /** `latexWarn` (log.ts:12). */
  function MatchWarn(line: string): (r: Option<WarnMatch>)
    ensures r.Some? ==> r.value.level in {"Warning", "Info", "Font Warning"}
    ensures r.Some? ==> |r.value.gap| > 0 && AllWhitespace(r.value.gap) && AllDot(r.value.message)
    ensures r.Some? ==> IsTerminator(r.value.terminator)
    ensures r.Some? && r.value.lineDigits.Some? ==> IsNumberField(r.value.lineDigits.value)
    ensures r.Some? ==> line == WarnText(r.value) && IsWarnSource(r.value.source)
  {
    match WarnSourceEnd(line)
    case None => None
    case Some(e1) =>
      match WarnAfterSource(line[e1..])
      case None => None
      case Some(a) =>
        CutAt(line, e1);
        Some(WarnMatch(line[..e1], a.0, a.1, a.2, a.3, a.4))
  }

  // ---------------------------------------------------------------------------
  // Continuation line of a package warning: latexPackageWarningExtraLines (log.ts:13)
  // ---------------------------------------------------------------------------

  const OnInputLineBare := "on input line "

  /** `(?: +on input line (\d+))?(\.)?$`: the spaces are kept in `lead`. */
  datatype ExtraSuffix = ExtraSuffix(lead: string, lineDigits: Option<string>, period: bool)

  function ExtraSuffixText(x: ExtraSuffix): string {
    var dot := if x.period then "." else "";
    if x.lineDigits.Some? then x.lead + (OnInputLineBare + (x.lineDigits.value + dot)) else dot
  }

  predicate AllSpaces(s: string) {
    forall i :: 0 <= i < |s| ==> s[i] == ' '
  }

  function SpaceRun(s: string, i: nat): (n: nat)
    requires i <= |s|
    decreases |s| - i
    ensures i + n <= |s| && AllSpaces(s[i..i + n])
  {
    if i < |s| && s[i] == ' ' then
      var m := SpaceRun(s, i + 1);
      assert s[i..i + 1 + m] == [s[i]] + s[i + 1..i + 1 + m];
      1 + m
    else 0
  }

  function ExtraTail(t: string): (r: Option<ExtraSuffix>)
    ensures r.Some? && r.value.lineDigits.Some? ==>
      |r.value.lead| > 0 && AllSpaces(r.value.lead) && IsNumberField(r.value.lineDigits.value)
    ensures r.Some? ==> t == ExtraSuffixText(r.value)
    ensures t == "" || t == "." ==> r == Some(ExtraSuffix("", None, t == "."))
  {
    var sp := SpaceRun(t, 0);
    var u := t[sp..];
    if sp > 0 && StartsWith(u, OnInputLineBare) then
      var v := u[|OnInputLineBare|..];
      var d := DigitRun(v, 0);
      if d > 0 && (v[d..] == "" || v[d..] == ".") then
        assert t == t[..sp] + u;
        SplitPrefix(u, OnInputLineBare);
        assert v == v[..d] + v[d..];
        Some(ExtraSuffix(t[..sp], Some(v[..d]), v[d..] == "."))
      else None
    else if t == "." then Some(ExtraSuffix("", None, true))
    else if t == "" then Some(ExtraSuffix("", None, false))
    else None
  }

  predicate ExtraTailAt(R: string, k: nat) {
    k <= |R| && ExtraTail(R[k..]).Some?
  }

  function ExtraMessageEnd(R: string): (k: nat)
    ensures k <= |R| && ExtraTailAt(R, k)
  {
    assert ExtraTailAt(R, |R|) by { assert R[|R|..] == ""; }
    var p := (k: nat) => ExtraTailAt(R, k);
    assert forall j: nat :: p(j) == ExtraTailAt(R, j);
    FirstWhere(0, |R| + 1, p).value
  }

  /** The message is as short as possible: no earlier end leaves a valid tail. */
  lemma ExtraMessageEndLeast(R: string, j: nat)
    requires j < ExtraMessageEnd(R)
    ensures !ExtraTailAt(R, j)
  {
    var p := (k: nat) => ExtraTailAt(R, k);
    assert forall i: nat :: p(i) == ExtraTailAt(R, i);
    assert ExtraMessageEnd(R) == FirstWhere(0, |R| + 1, p).value;
  }

  /** `\s+(.*?)` and the suffix, after the closing parenthesis. */
  function ExtraBody(s: string): (r: Option<(string, string, ExtraSuffix)>)
    ensures r.Some? ==> |r.value.0| > 0 && AllWhitespace(r.value.0) && AllDot(r.value.1)
    ensures r.Some? ==> s == r.value.0 + (r.value.1 + ExtraSuffixText(r.value.2))
  {
    var w := WhitespaceRun(s, 0);
    if w > 0 && AllDot(s[w..]) then
      var k := ExtraMessageEnd(s[w..]);
      assert AllDot(s[w..][..k]);
      ExtraSplit(s, w, k)
    else None
  }

  /** The gap, the message and the suffix, for a message of length `k` after
      a gap of length `w`. */
  function ExtraSplit(s: string, w: nat, k: nat): (r: Option<(string, string, ExtraSuffix)>)
    requires w + k <= |s|
    ensures r.Some? ==> r.value.0 == s[..w] && r.value.1 == s[w..][..k]
    ensures r.Some? ==> s == r.value.0 + (r.value.1 + ExtraSuffixText(r.value.2))
  {
    match ExtraTail(s[w + k..])
    case None => None
    case Some(x) =>
      Split3(s, w, w + k);
      Some((s[..w], s[w..][..k], x))
  }

  /** `(file) text` followed by the optional line number and period. */
  datatype ExtraMatch = ExtraMatch(file: string, gap: string, text: string, suffix: ExtraSuffix)

  function ExtraText(m: ExtraMatch): string {
    "(" + (m.file + (")" + (m.gap + (m.text + ExtraSuffixText(m.suffix)))))
  }

  /** Whether `)` at `i` can close capture 1. */
  predicate ExtraCloseAt(line: string, i: nat) {
    1 <= i < |line| && line[i] == ')' && AllDot(line[1..i]) && ExtraBody(line[i + 1..]).Some?
  }

  /** The greedy file name of `latexPackageWarningExtraLines` ends at the last workable `)`. */
  function ExtraClose(line: string): (r: Option<nat>)
    ensures r.Some? ==> ExtraCloseAt(line, r.value)
    ensures r.Some? ==> forall j :: r.value < j < |line| ==> !ExtraCloseAt(line, j)
  {
    var p := (i: nat) => ExtraCloseAt(line, i);
    assert forall i: nat :: p(i) == ExtraCloseAt(line, i);
    LastWhere(1, |line|, p)
  }

  lemma ParenthesisedSplit(line: string, i: nat)
    requires 1 <= i < |line| && line[0] == '(' && line[i] == ')'
    ensures line == "(" + (line[1..i] + (")" + line[i + 1..]))
  {
    assert line[i..] == ")" + line[i + 1..];
    assert line[1..] == line[1..i] + line[i..];
    SplitPrefix(line, "(");
  }

  /** `latexPackageWarningExtraLines` (log.ts:13). */
  function MatchExtraLine(line: string): (r: Option<ExtraMatch>)
    ensures r.Some? ==> AllDot(r.value.file) && AllDot(r.value.text)
    ensures r.Some? ==> |r.value.gap| > 0 && AllWhitespace(r.value.gap)
    ensures r.Some? ==> line == ExtraText(r.value)
  {
    if |line| > 0 && line[0] == '(' then
      match ExtraClose(line)
      case None => None
      case Some(i) =>
        match ExtraBody(line[i + 1..])
        case None => None
        case Some(b) =>
          ParenthesisedSplit(line, i);
          Some(ExtraMatch(line[1..i], b.0, b.1, b.2))
    else None
  }

  // ---------------------------------------------------------------------------
  // Biber warning: biberWarn (log.ts:15)
  // ---------------------------------------------------------------------------

  const BiberPrefix := "Biber warning:"
  const BiberMissing := "WARN - I didn't find a database entry for '"

  /** The text `.*` skips and capture 1; the match is `BiberText` of it. */
  datatype BiberMatch = BiberMatch(skipped: string, key: string)

  function BiberText(m: BiberMatch): string {
    BiberPrefix + (m.skipped + (BiberMissing + (m.key + "'")))
  }

  /** `([^']+)'` at the start of `s`. */
  function QuotedKey(s: string): (r: Option<string>)
    ensures r.Some? ==> |r.value| > 0 && '\'' !in r.value && StartsWith(s, r.value + "'")
  {
    match IndexOf(s, '\'')
    case None => None
    case Some(q) =>
      if q > 0 then
        assert s[..q + 1] == s[..q] + "'";
        Some(s[..q])
      else None
  }

  /** Whether the missing-entry notice can start at `j`, after the greedy `.*`. */
  predicate BiberAt(line: string, j: nat) {
    && |BiberPrefix| <= j <= |line| && AllDot(line[|BiberPrefix|..j])
    && StartsWith(line[j..], BiberMissing) && QuotedKey(line[j + |BiberMissing|..]).Some?
  }

  function BiberStart(line: string): (r: Option<nat>)
    ensures r.Some? ==> BiberAt(line, r.value)
    ensures r.Some? ==> forall j :: r.value < j <= |line| ==> !BiberAt(line, j)
    ensures r.None? ==> forall j :: 0 <= j <= |line| ==> !BiberAt(line, j)
  {
    var p := (j: nat) => BiberAt(line, j);
    assert forall j: nat :: p(j) == BiberAt(line, j);
    LastWhere(|BiberPrefix|, |line| + 1, p)
  }

  lemma BiberReassemble(line: string, j: nat, key: string)
    requires StartsWith(line, BiberPrefix) && |BiberPrefix| <= j <= |line|
    requires StartsWith(line[j..], BiberMissing)
    requires StartsWith(line[j + |BiberMissing|..], key + "'")
    ensures StartsWith(line, BiberText(BiberMatch(line[|BiberPrefix|..j], key)))
  {
    var q := j + |BiberMissing|;
    var skipped := line[|BiberPrefix|..j];
    SplitPrefix(line[j..], BiberMissing);
    assert line[j..][|BiberMissing|..] == line[q..];
    StartsWithAfter(line[j..], BiberMissing, line[q..], key + "'");
    assert line[|BiberPrefix|..] == skipped + line[j..];
    StartsWithAfter(line[|BiberPrefix|..], skipped, line[j..], BiberMissing + (key + "'"));
    SplitPrefix(line, BiberPrefix);
    StartsWithAfter(line, BiberPrefix, line[|BiberPrefix|..], skipped + (BiberMissing + (key + "'")));
  }

  /** `biberWarn` (log.ts:15): a prefix match; the notice found is the last one on the line. */
  function MatchBiber(line: string): (r: Option<BiberMatch>)
    ensures r.Some? ==> AllDot(r.value.skipped) && |r.value.key| > 0 && '\'' !in r.value.key
    ensures r.Some? ==> StartsWith(line, BiberText(r.value))
  {
    if StartsWith(line, BiberPrefix) then
      match BiberStart(line)
      case None => None
      case Some(j) =>
        match QuotedKey(line[j + |BiberMissing|..])
        case None => None
        case Some(key) =>
          BiberReassemble(line, j, key);
          Some(BiberMatch(line[|BiberPrefix|..j], key))
    else None
  }

  // ---------------------------------------------------------------------------
  // Errors: latexError (log.ts:8)
  // ---------------------------------------------------------------------------

  const ErrorWord := " Error: "

  /** Captures 1-4 of `latexError`: `file:line:` (absent in the `!` form), the
      optional sub-engine name and the message. */
  datatype ErrorMatch = ErrorMatch(location: Option<(string, string)>, engine: Option<string>, message: string)

  function ErrorTailText(engine: Option<string>, message: string): string {
    if engine.Some? then " " + (engine.value + (ErrorWord + message)) else " " + message
  }

  function ErrorText(m: ErrorMatch): string {
    match m.location
    case Some((f, d)) => f + (":" + (d + (":" + ErrorTailText(m.engine, m.message))))
    case None => "!" + ErrorTailText(m.engine, m.message)
  }

  predicate EngineSplit(T: string, j: nat) {
    2 <= j && j + |ErrorWord| < |T| && T[j..j + |ErrorWord|] == ErrorWord
  }

  /** The greedy engine name ends at the last ` Error: ` that leaves a message. */
  function EngineEnd(T: string): (r: Option<nat>)
    ensures r.Some? ==> EngineSplit(T, r.value)
    ensures r.Some? ==> forall j :: r.value < j < |T| ==> !EngineSplit(T, j)
    ensures r.None? ==> forall j :: 0 <= j < |T| ==> !EngineSplit(T, j)
  {
    var p := (j: nat) => EngineSplit(T, j);
    assert forall j: nat :: p(j) == EngineSplit(T, j);
    LastWhere(2, |T|, p)
  }

  /** `(?: (.+) Error:)? (.+?)$` */
  function ErrorTail(T: string): (r: Option<(Option<string>, string)>)
    ensures r.Some? <==> |T| >= 2 && T[0] == ' ' && AllDot(T)
    ensures r.Some? ==> |r.value.1| > 0 && AllDot(r.value.1)
    ensures r.Some? && r.value.0.Some? ==> |r.value.0.value| > 0 && AllDot(r.value.0.value)
    ensures r.Some? ==> T == ErrorTailText(r.value.0, r.value.1)
  {
    if |T| >= 2 && T[0] == ' ' && AllDot(T) then
      SplitPrefix(T, " ");
      match EngineEnd(T)
      case Some(j) =>
        Split3(T, 1, j);
        assert T[1..] == T[1..j] + T[j..];
        SplitPrefix(T[j..], ErrorWord);
        assert T[j..][|ErrorWord|..] == T[j + |ErrorWord|..];
        Some((Some(T[1..j]), T[j + |ErrorWord|..]))
      case None => Some((None, T[1..]))
    else None
  }

  /** `(\d+):` and the tail, after the file name. */
  function ErrorAfterFile(s: string): (r: Option<(string, Option<string>, string)>)
    ensures r.Some? ==> IsNumberField(r.value.0) && |r.value.2| > 0 && AllDot(r.value.2)
    ensures r.Some? ==> s == r.value.0 + (":" + ErrorTailText(r.value.1, r.value.2))
  {
    match NumberColon(s)
    case None => None
    case Some((d, rest)) =>
      match ErrorTail(rest)
      case None => None
      case Some((engine, message)) => Some((d, engine, message))
  }

  predicate ErrorColonAt(line: string, i: nat) {
    i < |line| && line[i] == ':' && AllDot(line[..i]) && ErrorAfterFile(line[i + 1..]).Some?
  }

  /** The greedy file name ends at the last workable `:`. */
  function ErrorColon(line: string): (r: Option<nat>)
    ensures r.Some? ==> ErrorColonAt(line, r.value)
    ensures r.Some? ==> forall j :: r.value < j < |line| ==> !ErrorColonAt(line, j)
    ensures r.None? ==> forall j :: 0 <= j < |line| ==> !ErrorColonAt(line, j)
  {
    var p := (i: nat) => ErrorColonAt(line, i);
    assert forall i: nat :: p(i) == ErrorColonAt(line, i);
    LastWhere(0, |line|, p)
  }

  /** `latexError` (log.ts:8): the `file:line:` form first, else the `!` form. */
  function MatchError(line: string): (r: Option<ErrorMatch>)
    ensures r.Some? ==> line == ErrorText(r.value)
    ensures r.Some? ==> |r.value.message| > 0 && AllDot(r.value.message)
    ensures r.Some? && r.value.location.Some? ==>
      AllDot(r.value.location.value.0) && IsNumberField(r.value.location.value.1)
  {
    match ErrorColon(line)
    case Some(i) =>
      (match ErrorAfterFile(line[i + 1..])
       case None => None
       case Some((d, engine, message)) =>
         ColonSplit(line, i);
         Some(ErrorMatch(Some((line[..i], d)), engine, message)))
    case None =>
      if |line| > 0 && line[0] == '!' then
        match ErrorTail(line[1..])
        case None => None
        case Some((engine, message)) =>
          SplitPrefix(line, "!");
          Some(ErrorMatch(None, engine, message))
      else None
  }

  /** A `!` line whose message holds no colon and no ` Error: ` is recognised
      with exactly that message and no engine. */
  lemma BangErrorComplete(message: string)
    requires |message| > 0 && AllDot(message) && ':' !in message
    requires forall j :: 0 <= j <= |message| ==> !OccursAt(message, ErrorWord, j)
    ensures MatchError("!" + (" " + message)) == Some(ErrorMatch(None, None, message))
  {
    var line := "!" + (" " + message);
    forall i | 0 <= i < |line| ensures !ErrorColonAt(line, i) {
      if i >= 2 { assert line[i] == message[i - 2]; }
    }
    var T := line[1..];
    assert T == " " + message;
    assert AllDot(T);
    forall j | 0 <= j < |T| ensures !EngineSplit(T, j) {
      if EngineSplit(T, j) {
        assert T[j..j + |ErrorWord|] == message[j - 1..j - 1 + |ErrorWord|];
        assert OccursAt(message, ErrorWord, j - 1);
      }
    }
    assert T[1..] == message;
  }

  /** `l.<digits><whitespace>rest`. */
  datatype MessageLine = MessageLine(digits: string, sep: char, rest: string)

  function MessageLineText(m: MessageLine): string {
    "l." + (m.digits + ([m.sep] + m.rest))
  }

  /** `messageLine` (log.ts:27). */
  function MatchMessageLine(line: string): (r: Option<MessageLine>)
    ensures r.Some? ==> line == MessageLineText(r.value)
    ensures r.Some? ==> IsNumberField(r.value.digits) && IsWhitespace(r.value.sep) && AllDot(r.value.rest)
  {
    if StartsWith(line, "l.") then
      var t := line[2..];
      var d := DigitRun(t, 0);
      if 0 < d < |t| && IsWhitespace(t[d]) && AllDot(t[d + 1..]) then
        SplitPrefix(line, "l.");
        CharSplit(t, d);
        Some(MessageLine(t[..d], t[d], t[d + 1..]))
      else None
    else None
  }

  // ---------------------------------------------------------------------------
  // File names after an opening parenthesis (log.ts:298-299)
  // ---------------------------------------------------------------------------

  /** Characters `[^"()[\]]` admits. */
  predicate PathChar(c: char) {
    c != '"' && c != '(' && c != ')' && c != '[' && c != ']'
  }

  predicate AllPathChars(s: string) {
    forall k :: 0 <= k < |s| ==> PathChar(s[k])
  }

  function PathRun(s: string, i: nat): (n: nat)
    requires i <= |s|
    decreases |s| - i
    ensures i + n <= |s|
    ensures forall k :: i <= k < i + n ==> PathChar(s[k])
    ensures i + n == |s| || !PathChar(s[i + n])
  {
    if i < |s| && PathChar(s[i]) then 1 + PathRun(s, i + 1) else 0
  }

  function LowerRun(s: string, i: nat): (n: nat)
    requires i <= |s|
    decreases |s| - i
    ensures i + n <= |s|
    ensures forall k :: i <= k < i + n ==> IsLower(s[k])
    ensures i + n == |s| || !IsLower(s[i + n])
  {
    if i < |s| && IsLower(s[i]) then 1 + LowerRun(s, i + 1) else 0
  }

  predicate IsSep(c: char) {
    c == '/' || c == '\\'
  }

  /** `(?:[a-zA-Z]:|\.|\/)?(?:\/|\\\\?)` can match at `q`. */
  predicate PathHeadAt(s: string, q: nat) {
    || (q < |s| && IsSep(s[q]))
    || (q + 1 < |s| && s[q] == '.' && IsSep(s[q + 1]))
    || (q + 2 < |s| && IsLetter(s[q]) && s[q + 1] == ':' && IsSep(s[q + 2]))
  }

  /** Skips the optional opening quote `"?`. */
  function QuoteSkip(s: string): (q: nat)
    ensures q <= |s| && q <= 1
    ensures q == 1 <==> (|s| > 0 && s[0] == '"')
  {
    if |s| > 0 && s[0] == '"' then 1 else 0
  }

  /** Capture 1 of the path pattern (log.ts:298): a rooted or relative path,
      up to the first quote, parenthesis or bracket. */
  function MatchPath(s: string): (r: Option<string>)
    ensures r.Some? <==> PathHeadAt(s, QuoteSkip(s))
    ensures r.Some? ==> |r.value| > 0 && AllPathChars(r.value) && OccursAt(s, r.value, QuoteSkip(s))
    ensures r.Some? ==> var e := QuoteSkip(s) + |r.value|; e == |s| || !PathChar(s[e])
  {
    var q := QuoteSkip(s);
    if PathHeadAt(s, q) then
      var n := PathRun(s, q);
      assert PathChar(s[q]);
      Some(s[q..q + n])
    else None
  }

  /** A dot followed by at least three lower-case letters. */
  predicate ExtensionAt(s: string, d: nat) {
    d < |s| && s[d] == '.' && LowerRun(s, d + 1) >= 3
  }

  function LastExtension(s: string, q: nat, n: nat): (r: Option<nat>)
    requires q + n <= |s|
    ensures r.Some? ==> q <= r.value < q + n && ExtensionAt(s, r.value)
    ensures r.Some? ==> forall d :: r.value < d < q + n ==> !ExtensionAt(s, d)
    ensures r.None? ==> forall d :: q <= d < q + n ==> !ExtensionAt(s, d)
  {
    var p := (d: nat) => ExtensionAt(s, d);
    assert forall d: nat :: p(d) == ExtensionAt(s, d);
    LastWhere(q, q + n, p)
  }

  /** A name that ends with a dot and at least three lower-case letters. */
  predicate HasExtension(r: string) {
    exists d :: 0 <= d < |r| - 3 && r[d] == '.' && forall k :: d < k < |r| ==> IsLower(r[k])
  }

  lemma ExtensionSlice(s: string, q: nat, d: nat)
    requires q <= d && ExtensionAt(s, d)
    requires d < q + PathRun(s, q)
    ensures var r := s[q..d + 1 + LowerRun(s, d + 1)];
      |r| >= 4 && AllPathChars(r) && HasExtension(r) && OccursAt(s, r, q)
  {
    assert forall k :: q <= k <= d ==> PathChar(s[k]);
    var e := d + 1 + LowerRun(s, d + 1);
    var r := s[q..e];
    forall k | 0 <= k < |r| ensures PathChar(r[k]) {
      assert r[k] == s[q + k];
      if q + k > d { assert IsLower(s[q + k]); }
    }
    forall k | d - q < k < |r| ensures IsLower(r[k]) {
      assert r[k] == s[q + k];
    }
    assert r[d - q] == '.';
  }

  /** Capture 1 of the bare-name pattern (log.ts:299): the name ends with the
      lower-case extension after the last workable dot. */
  function MatchBareName(s: string): (r: Option<string>)
    ensures r.None? ==> forall d :: QuoteSkip(s) <= d < QuoteSkip(s) + PathRun(s, QuoteSkip(s)) ==> !ExtensionAt(s, d)
    ensures r.Some? ==> |r.value| >= 4 && AllPathChars(r.value) && HasExtension(r.value)
    ensures r.Some? ==> OccursAt(s, r.value, QuoteSkip(s))
  {
    var q := QuoteSkip(s);
    var n := PathRun(s, q);
    match LastExtension(s, q, n)
    case None => None
    case Some(d) =>
      ExtensionSlice(s, q, d);
      Some(s[q..d + 1 + LowerRun(s, d + 1)])
  }

  // ---------------------------------------------------------------------------
  // Wrapper signatures (log.ts:17-24) and whole-log markers (log.ts:6-7, 14, 20)
  // ---------------------------------------------------------------------------

  /** `^Latexmk:\sapplying\srule` at position `p`. */
  predicate LatexmkRuleAt(s: string, p: nat) {
    && OccursAt(s, "Latexmk:", p) && p + 8 < |s| && IsWhitespace(s[p + 8])
    && OccursAt(s, "applying", p + 9) && p + 17 < |s| && IsWhitespace(s[p + 17])
    && OccursAt(s, "rule", p + 18)
  }

  /** `(pdf|lua|xe)?latex` at position `p`. */
  predicate EngineNameAt(s: string, p: nat) {
    OccursAt(s, "latex", p) || OccursAt(s, "pdflatex", p) || OccursAt(s, "lualatex", p) || OccursAt(s, "xelatex", p)
  }

  /** `^Latexmk:\sapplying\srule\s'(pdf|lua|xe)?latex'` at position `p`. */
  predicate LatexmkLatexRuleAt(s: string, p: nat) {
    && LatexmkRuleAt(s, p) && p + 22 < |s| && IsWhitespace(s[p + 22])
    && (OccursAt(s, "'latex'", p + 23) || OccursAt(s, "'pdflatex'", p + 23)
        || OccursAt(s, "'lualatex'", p + 23) || OccursAt(s, "'xelatex'", p + 23))
  }

  /** `^running\s(pdf|lua|xe)?latex` at position `p`. */
  predicate TexifyLatexAt(s: string, p: nat) {
    OccursAt(s, "running", p) && p + 7 < |s| && IsWhitespace(s[p + 7]) && EngineNameAt(s, p + 8)
  }

  /** `^running\s((pdf|lua|xe)?latex|miktex-bibtex)` at position `p`. */
  predicate TexifyStepAt(s: string, p: nat) {
    OccursAt(s, "running", p) && p + 7 < |s| && IsWhitespace(s[p + 7])
    && (EngineNameAt(s, p + 8) || OccursAt(s, "miktex-bibtex", p + 8))
  }

  /** Where `^` may match in multi-line mode. */
  predicate LineStart(s: string, p: nat) {
    p <= |s| && (p == 0 || IsLineTerminator(s[p - 1]))
  }

  /** `log.match(latexmkPattern)` (log.ts:17, 77). */
  predicate HasLatexmkSignature(log: string) {
    exists p :: 0 <= p <= |log| && LineStart(log, p) && LatexmkRuleAt(log, p)
  }

  /** `log.match(texifyPattern)` (log.ts:22, 79). */
  predicate HasTexifySignature(log: string) {
    exists p :: 0 <= p <= |log| && LineStart(log, p) && TexifyLatexAt(log, p)
  }

  /** `^Output\swritten\son\s(.*)\s\(.*\)\.$` in multi-line mode, starting at `p`. */
  predicate OutputWrittenAt(log: string, p: nat) {
    && OccursAt(log, "Output", p) && p + 6 < |log| && IsWhitespace(log[p + 6])
    && OccursAt(log, "written", p + 7) && p + 14 < |log| && IsWhitespace(log[p + 14])
    && OccursAt(log, "on", p + 15) && p + 17 < |log| && IsWhitespace(log[p + 17])
    && exists a, b :: (p + 18 <= a && a + 2 <= b && b + 1 < |log|
         && AllDot(log[p + 18..a]) && IsWhitespace(log[a]) && log[a + 1] == '('
         && AllDot(log[a + 2..b]) && log[b] == ')' && log[b + 1] == '.'
         && (b + 2 == |log| || IsLineTerminator(log[b + 2])))
  }

  const FatalMarker := "Fatal error occurred, no output PDF file produced!"

  /** `log.match(latexPattern) || log.match(latexFatalPattern)` (log.ts:82). */
  predicate HasOutputMarker(log: string) {
    || (exists p :: 0 <= p <= |log| && LineStart(log, p) && OutputWrittenAt(log, p))
    || FindLiteral(log, FatalMarker).Some?
  }

  const UpToDateHead := "Latexmk: All targets ("
  const UpToDateTail := ") are up-to-date"

  /** `latexmkUpToDate` (log.ts:20) on one line. */
  predicate IsUpToDateLine(line: string) {
    && StartsWith(line, UpToDateHead)
    && exists c :: (|UpToDateHead| <= c <= |line| && AllDot(line[|UpToDateHead|..c]) && OccursAt(line, UpToDateTail, c))
  }

  const BibEmptyHead := "Empty `thebibliography' environment"

  // ---------------------------------------------------------------------------
  // Linter lines (log.ts:320)
  // ---------------------------------------------------------------------------

  /** The seven captures of `^(.*?):(\d+):(\d+):(\d+):(.*?):(\d+):(.*?)$`. */
  datatype LinterMatch = LinterMatch(file: string, line: string, column: string, length: string,
                                     severity: string, code: string, message: string)

  /** The text after the column field's colon. */
  function LengthText(length: string, severity: string, code: string, message: string): string {
    length + (":" + (severity + (":" + (code + (":" + message)))))
  }

  /** The text after the file name's colon. */
  function PositionText(line: string, column: string, rest: string): string {
    line + (":" + (column + (":" + rest)))
  }

  function LinterText(m: LinterMatch): string {
    m.file + (":" + PositionText(m.line, m.column, LengthText(m.length, m.severity, m.code, m.message)))
  }

  /** `(\d+):` at the start of `s`: the digits and what follows the colon. */
  function NumberColon(s: string): (r: Option<(string, string)>)
    ensures r.Some? ==> IsNumberField(r.value.0)
    ensures r.Some? ==> s == r.value.0 + (":" + r.value.1)
  {
    var d := DigitRun(s, 0);
    if 0 < d < |s| && s[d] == ':' then
      ColonSplit(s, d);
      Some((s[..d], s[d + 1..]))
    else None
  }

  predicate CodeAt(t: string, m: nat) {
    m < |t| && t[m] == ':' && NumberColon(t[m + 1..]).Some?
  }

  function CodeStart(t: string): (r: Option<nat>)
    ensures r.Some? ==> CodeAt(t, r.value)
    ensures r.Some? ==> forall m :: 0 <= m < r.value ==> !CodeAt(t, m)
    ensures r.None? ==> forall m :: 0 <= m < |t| ==> !CodeAt(t, m)
  {
    var p := (m: nat) => CodeAt(t, m);
    assert forall m: nat :: p(m) == CodeAt(t, m);
    FirstWhere(0, |t|, p)
  }

  /** `(.*?):(\d+):(.*?)$`: the severity is as short as possible. */
  function SeverityAndCode(t: string): (r: Option<(string, string, string)>)
    ensures r.Some? ==> IsNumberField(r.value.1)
    ensures r.Some? ==> t == r.value.0 + (":" + (r.value.1 + (":" + r.value.2)))
  {
    match CodeStart(t)
    case None => None
    case Some(m) =>
      match NumberColon(t[m + 1..])
      case None => None
      case Some((code, message)) =>
        ColonSplit(t, m);
        Some((t[..m], code, message))
  }

  /** `(\d+):(.*?):(\d+):(.*?)$`: the length field, the severity, the code and the message. */
  function LinterLengthOn(s: string): (r: Option<(string, string, string, string)>)
    ensures r.Some? ==> IsNumberField(r.value.0) && IsNumberField(r.value.2)
    ensures r.Some? ==> s == LengthText(r.value.0, r.value.1, r.value.2, r.value.3)
  {
    match NumberColon(s)
    case None => None
    case Some((n, rest)) =>
      match SeverityAndCode(rest)
      case None => None
      case Some((severity, code, message)) => Some((n, severity, code, message))
  }

  /** The line and column fields, then the rest. */
  function LinterPositionOn(s: string): (r: Option<(string, string, string, string, string, string)>)
    ensures r.Some? ==> IsNumberField(r.value.0) && IsNumberField(r.value.1)
    ensures r.Some? ==> IsNumberField(r.value.2) && IsNumberField(r.value.4)
    ensures r.Some? ==> s == PositionText(r.value.0, r.value.1, LengthText(r.value.2, r.value.3, r.value.4, r.value.5))
  {
    match NumberColon(s)
    case None => None
    case Some((l, s2)) =>
      match NumberColon(s2)
      case None => None
      case Some((c, s3)) =>
        match LinterLengthOn(s3)
        case None => None
        case Some((n, severity, code, message)) => Some((l, c, n, severity, code, message))
  }

  /** `:(\d+):(\d+):(\d+):` and the rest, after the file name. */
  function LinterAfterFile(s: string): (r: Option<(string, string, string, string, string, string)>)
    ensures r.Some? ==> IsNumberField(r.value.0) && IsNumberField(r.value.1)
    ensures r.Some? ==> IsNumberField(r.value.2) && IsNumberField(r.value.4)
    ensures r.Some? ==> s == ":" + PositionText(r.value.0, r.value.1, LengthText(r.value.2, r.value.3, r.value.4, r.value.5))
  {
    if |s| > 0 && s[0] == ':' then
      match LinterPositionOn(s[1..])
      case None => None
      case Some(x) =>
        SplitPrefix(s, ":");
        Some(x)
    else None
  }

  predicate FileSplitAt(s: string, k: nat) {
    k <= |s| && LinterAfterFile(s[k..]).Some?
  }

  function FileEnd(s: string): (r: Option<nat>)
    ensures r.Some? ==> FileSplitAt(s, r.value)
    ensures r.Some? ==> forall k :: 0 <= k < r.value ==> !FileSplitAt(s, k)
    ensures r.None? ==> forall k :: 0 <= k <= |s| ==> !FileSplitAt(s, k)
  {
    var p := (k: nat) => FileSplitAt(s, k);
    assert forall k: nat :: p(k) == FileSplitAt(s, k);
    FirstWhere(0, |s| + 1, p)
  }

  /** The linter pattern with the file name ending at `k`. */
  function LinterAt(s: string, k: nat): (r: Option<LinterMatch>)
    requires k <= |s|
    ensures r.Some? ==> s == LinterText(r.value)
    ensures r.Some? ==> IsNumberField(r.value.line) && IsNumberField(r.value.column)
    ensures r.Some? ==> IsNumberField(r.value.length) && IsNumberField(r.value.code)
  {
    match LinterAfterFile(s[k..])
    case None => None
    case Some(x) =>
      CutAt(s, k);
      Some(LinterMatch(s[..k], x.0, x.1, x.2, x.3, x.4, x.5))
  }

  /** The linter pattern on one line (log.ts:320), the file name as short as possible. */
  function MatchLinterLine(s: string): (r: Option<LinterMatch>)
    ensures r.Some? ==> s == LinterText(r.value) && AllDot(s)
    ensures r.Some? ==> IsNumberField(r.value.line) && IsNumberField(r.value.column)
    ensures r.Some? ==> IsNumberField(r.value.length) && IsNumberField(r.value.code)
  {
    if AllDot(s) then
      match FileEnd(s)
      case None => None
      case Some(k) => LinterAt(s, k)
    else None
  }
}

=== FILE: logproperties.dfy ===
/** Properties of the build-log and linter-log interpreter
    (src/components/parser/log.ts): the file-stack depth, what each classifier
    of `parseLine` does with a line it recognises, continuation lines, the
    fold over a log, line endings, wrapper trimming and the linter. */
module LogProperties {
  import opened Wrappers
  import opened JsString
  import opened LogPatterns
  import opened LogParser
  import opened Seqs

  // ---------------------------------------------------------------------------
  // The file stack (log.ts:293-317)
  // ---------------------------------------------------------------------------

  function CountChar(s: string, c: char): (n: nat)
    ensures n <= |s|
  {
    if |s| == 0 then 0 else (if s[0] == c then 1 else 0) + CountChar(s[1..], c)
  }

  lemma {:induction false} CountCharConcat(a: string, b: string, c: char)
    decreases |a|
    ensures CountChar(a + b, c) == CountChar(a, c) + CountChar(b, c)
  {
    if |a| == 0 {
      assert a + b == b;
    } else {
      assert (a + b)[1..] == a[1..] + b;
      CountCharConcat(a[1..], b, c);
    }
  }

  lemma {:induction false} CountCharAbsent(s: string, c: char)
    requires forall k :: 0 <= k < |s| ==> s[k] != c
    decreases |s|
    ensures CountChar(s, c) == 0
  {
    if |s| > 0 {
      CountCharAbsent(s[1..], c);
    }
  }

  /** Counting around the first parenthesis of a line. */
  lemma CountAtParen(line: string, i: nat, c: char)
    requires i < |line| && IsParen(c)
    requires forall k :: 0 <= k < i ==> !IsParen(line[k])
    ensures CountChar(line, c) == CountChar(line[i + 1..], c) + (if line[i] == c then 1 else 0)
  {
    assert line == line[..i] + ([line[i]] + line[i + 1..]);
    CountCharConcat(line[..i], [line[i]] + line[i + 1..], c);
    CountCharConcat([line[i]], line[i + 1..], c);
    CountCharAbsent(line[..i], c);
  }

  /** Every `(` adds one level, a file or an unrelated parenthesis, and every
      `)` removes one, as long as the open levels can absorb the `)`s: the
      counter never goes below zero and the stack is popped only when no
      unrelated parenthesis is open. */
  lemma {:induction false} FileStackDepth(line: string, stack: seq<string>, nested: nat)
    requires |stack| + nested >= CountChar(line, ')')
    decreases |line|
    ensures var r := FileStack(line, stack, nested);
      |r.0| + r.1 == |stack| + nested + CountChar(line, '(') - CountChar(line, ')')
  {
    match FirstParen(line)
    case None =>
      CountCharAbsent(line, '(');
      CountCharAbsent(line, ')');
    case Some(i) =>
      var rest := line[i + 1..];
      CountAtParen(line, i, '(');
      CountAtParen(line, i, ')');
      if line[i] == '(' {
        match MatchPath(rest)
        case Some(p) =>
          FileStackDepth(rest, stack + [Trim(p)], nested);
        case None =>
          match MatchBareName(rest)
          case Some(n) => FileStackDepth(rest, stack + ["./" + Trim(n)], nested);
          case None => FileStackDepth(rest, stack, nested + 1);
      } else if nested > 0 {
        FileStackDepth(rest, stack, nested - 1);
      } else {
        FileStackDepth(rest, Pop(stack), nested);
      }
  }

  /** `a - b`, stopping at zero. */
  function Monus(a: nat, b: nat): nat {
    if b <= a then a - b else 0
  }

  /** The stack and the unrelated-parenthesis count after `c` closing
      parentheses: the count absorbs them first, and each one left over pops
      a file while there is one. */
  function Closed(stack: seq<string>, nested: nat, c: nat): (seq<string>, nat) {
    if c <= nested then (stack, nested - c) else (stack[..Monus(|stack|, c - nested)], 0)
  }

  lemma ClosedStep(stack: seq<string>, nested: nat, c: nat)
    requires 1 <= c
    ensures Closed(stack, nested, c)
      == if nested > 0 then Closed(stack, nested - 1, c - 1) else Closed(Pop(stack), 0, c - 1)
  {
    if nested == 0 && |stack| > 0 {
      assert Pop(stack)[..Monus(|stack| - 1, c - 1)] == stack[..Monus(|stack|, c)];
    }
  }

  /** A line that only closes: its `)`s first cancel the unrelated open
      parentheses, and only the ones left over pop files, never more files
      than there are. */
  lemma {:induction false} FileStackOnlyCloses(line: string, stack: seq<string>, nested: nat)
    requires '(' !in line
    decreases |line|
    ensures FileStack(line, stack, nested) == Closed(stack, nested, CountChar(line, ')'))
  {
    match FirstParen(line)
    case None =>
      CountCharAbsent(line, ')');
    case Some(i) =>
      var rest := line[i + 1..];
      assert line[i] == ')';
      assert '(' !in rest by {
        assert forall k :: 0 <= k < |rest| ==> rest[k] == line[i + 1 + k];
      }
      CountAtParen(line, i, ')');
      FileStackAtClose(line, i, stack, nested);
      ClosedStep(stack, nested, CountChar(line, ')'));
      if nested > 0 {
        FileStackOnlyCloses(rest, stack, nested - 1);
      } else {
        FileStackOnlyCloses(rest, Pop(stack), 0);
      }
  }

  /** One step at a closing parenthesis. */
  lemma FileStackAtClose(line: string, i: nat, stack: seq<string>, nested: nat)
    requires FirstParen(line) == Some(i) && line[i] == ')'
    ensures FileStack(line, stack, nested)
      == if nested > 0 then FileStack(line[i + 1..], stack, nested - 1) else FileStack(line[i + 1..], Pop(stack), nested)
  {
  }

  /** A line that only opens: the stack is only extended, and every `(`
      either opens a file or counts as an unrelated parenthesis. */
  lemma {:induction false} FileStackOnlyOpens(line: string, stack: seq<string>, nested: nat)
    requires ')' !in line
    decreases |line|
    ensures var r := FileStack(line, stack, nested);
      && |stack| <= |r.0| && r.0[..|stack|] == stack && nested <= r.1
      && (|r.0| - |stack|) + (r.1 - nested) == CountChar(line, '(')
  {
    match FirstParen(line)
    case None =>
      CountCharAbsent(line, '(');
    case Some(i) =>
      var rest := line[i + 1..];
      assert line[i] == '(';
      assert ')' !in rest by {
        assert forall k :: 0 <= k < |rest| ==> rest[k] == line[i + 1 + k];
      }
      CountAtParen(line, i, '(');
      match MatchPath(rest)
      case Some(p) =>
        FileStackOnlyOpens(rest, stack + [Trim(p)], nested);
        PrefixOfPrefix(FileStack(rest, stack + [Trim(p)], nested).0, stack, Trim(p));
      case None =>
        match MatchBareName(rest)
        case Some(n) =>
          FileStackOnlyOpens(rest, stack + ["./" + Trim(n)], nested);
          PrefixOfPrefix(FileStack(rest, stack + ["./" + Trim(n)], nested).0, stack, "./" + Trim(n));
        case None =>
          FileStackOnlyOpens(rest, stack, nested + 1);
  }

  /** A sequence that begins with `stack + [x]` begins with `stack`. */
  lemma PrefixOfPrefix(r: seq<string>, stack: seq<string>, x: string)
    requires |stack| + 1 <= |r| && r[..|stack| + 1] == stack + [x]
    ensures r[..|stack|] == stack
  {
    assert r[..|stack|] == r[..|stack| + 1][..|stack|];
  }

  /** Popping undoes a push. */
  lemma PopPush(stack: seq<string>, x: string)
    ensures Pop(stack + [x]) == stack
  {
    assert (stack + [x])[..|stack|] == stack;
  }

  /** A line without parentheses after its first `(` reaches that `(` first. */
  lemma OpenFirst(rest: string)
    requires forall k :: 0 <= k < |rest| ==> !IsParen(rest[k])
    ensures FirstParen("(" + rest) == Some(0) && ("(" + rest)[1..] == rest
  {
    assert IsParen(("(" + rest)[0]);
  }

  /** `(` followed by a path pushes the path, trimmed (log.ts:298-300). */
  lemma OpenPushesPath(rest: string, p: string, stack: seq<string>, nested: nat)
    requires forall k :: 0 <= k < |rest| ==> !IsParen(rest[k])
    requires MatchPath(rest) == Some(p)
    ensures FileStack("(" + rest, stack, nested) == (stack + [Trim(p)], nested)
  {
    OpenFirst(rest);
  }

  /** `(` followed by no path but a bare `name.ext` pushes `./name.ext`,
      trimmed (log.ts:301-303). */
  lemma OpenPushesBareName(rest: string, n: string, stack: seq<string>, nested: nat)
    requires forall k :: 0 <= k < |rest| ==> !IsParen(rest[k])
    requires MatchPath(rest).None? && MatchBareName(rest) == Some(n)
    ensures FileStack("(" + rest, stack, nested) == (stack + ["./" + Trim(n)], nested)
  {
    OpenFirst(rest);
  }

  /** Any other `(` leaves the stack alone and counts one unrelated
      parenthesis (log.ts:304-306). */
  lemma OpenCountsOther(rest: string, stack: seq<string>, nested: nat)
    requires forall k :: 0 <= k < |rest| ==> !IsParen(rest[k])
    requires MatchPath(rest).None? && MatchBareName(rest).None?
    ensures FileStack("(" + rest, stack, nested) == (stack, nested + 1)
  {
    OpenFirst(rest);
  }

  // ---------------------------------------------------------------------------
  // Which classifier a line reaches (log.ts:176-259)
  // ---------------------------------------------------------------------------

  predicate IsBoxLead(c: char) {
    c == 'O' || c == 'U'
  }

  predicate IsWarnLead(c: char) {
    c == 'L' || c == 'C' || c == 'P'
  }

  lemma BoxHeadLead(h: string, line: string)
    requires IsBoxHead(h) && StartsWith(line, h)
    ensures |line| > 0 && IsBoxLead(line[0])
  {
    assert line[0] == h[0];
  }

  lemma BadBoxTextLead(b: BadBox)
    requires IsBoxHead(b.head)
    ensures var t := BadBoxText(b); |t| > 0 && IsBoxLead(t[0])
  {
    assert StartsWith(BadBoxText(b), b.head);
    BoxHeadLead(b.head, BadBoxText(b));
  }

  /** Bad-box lines begin with `Overfull` or `Underfull`. */
  lemma BadBoxLead(line: string)
    requires MatchBadBox(line).Some?
    ensures |line| > 0 && IsBoxLead(line[0])
  {
    BadBoxTextLead(MatchBadBox(line).value);
  }

  lemma BoxOutputLead(line: string)
    requires MatchBoxOutput(line).Some?
    ensures |line| > 0 && IsBoxLead(line[0])
  {
    var h := MatchBoxOutput(line).value;
    assert StartsWith(line, h) by {
      assert line[..|h|] == (h + OutputActive)[..|h|];
    }
    BoxHeadLead(h, line);
  }

  lemma WarnTextLead(w: WarnMatch)
    requires IsWarnSource(w.source)
    ensures var t := WarnText(w); |t| > 0 && IsWarnLead(t[0])
  {
    assert StartsWith(WarnText(w), w.source);
  }

  /** Warning lines begin with `LaTeX`, `Class` or `Package`. */
  lemma WarnLineLead(line: string)
    requires MatchWarn(line).Some?
    ensures |line| > 0 && IsWarnLead(line[0])
  {
    WarnTextLead(MatchWarn(line).value);
  }

  /** A line led by neither bad-box word passes both bad-box classifiers. */
  lemma BiberLineLead(line: string)
    requires MatchBiber(line).Some?
    ensures |line| > 0 && line[0] == 'B'
  {
    assert line[..|BiberPrefix|][0] == 'B';
  }

  lemma NotBoxLine(line: string)
    requires |line| > 0 && !IsBoxLead(line[0])
    ensures MatchBadBox(line).None? && MatchBoxOutput(line).None?
  {
    if MatchBadBox(line).Some? {
      BadBoxLead(line);
    }
    if MatchBoxOutput(line).Some? {
      BoxOutputLead(line);
    }
  }

  // The order in which `parseLine` consults its classifiers, one link at a time.

  /** Outside a record, a line that no exclude pattern matches goes to the
      classifiers (log.ts:176-180). */
  lemma ToClassifiers(cfg: Config, line: string, st: ParserState, log: seq<LogEntry>)
    requires Classifying(st) && !cfg.excluded(line)
    ensures ParseLine(cfg, line, st, log) == ClassifyBox(cfg, line, st, log)
  {
  }

  /** The skip flag set by a bad box is spent on the next call, whatever its
      line, and nothing else changes (log.ts:152-155). */
  lemma SkipFlagSpent(cfg: Config, line: string, st: ParserState, log: seq<LogEntry>)
    requires Ready(st) && st.insideBoxWarn
    ensures ParseLine(cfg, line, st, log) == Step(st.(insideBoxWarn := false), log)
  {
  }

  /** With bad boxes hidden, or on a line no bad-box pattern matches, the line
      goes on to the warning classifier (log.ts:185, 201). */
  lemma PastBoxes(cfg: Config, line: string, st: ParserState, log: seq<LogEntry>)
    requires Classifying(st)
    requires !cfg.showBadBox || (MatchBadBox(line).None? && MatchBoxOutput(line).None?)
    ensures ClassifyBox(cfg, line, st, log) == ClassifyWarn(cfg, line, st, log)
  {
  }

  lemma PastWarn(cfg: Config, line: string, st: ParserState, log: seq<LogEntry>)
    requires Classifying(st) && MatchWarn(line).None?
    ensures ClassifyWarn(cfg, line, st, log) == ClassifyBiber(cfg, line, st, log)
  {
  }

  lemma PastBiber(cfg: Config, line: string, st: ParserState, log: seq<LogEntry>)
    requires Classifying(st) && MatchBiber(line).None?
    ensures ClassifyBiber(cfg, line, st, log) == ClassifyError(cfg, line, st, log)
  {
  }

  /** A bad-box line with bad boxes shown opens a typesetting record on the
      stack's file at the first line of the range; the skip flag it sets is
      spent on the empty rest of the same line, so the next physical line is
      read normally (log.ts:181-199). */
  lemma BadBoxLine(cfg: Config, b: BadBox, st: ParserState, log: seq<LogEntry>)
    requires Classifying(st) && cfg.showBadBox && BadBoxWellFormed(b) && !cfg.excluded(BadBoxText(b))
    ensures var r := ParseLine(cfg, BadBoxText(b), st, log);
      && r.state.current == LogEntry(Typesetting, CurrentFile(cfg, st), b.head, Num(DigitsValue(b.lineDigits)))
      && Classifying(r.state)
      && r.state.fileStack == st.fileStack
      && r.log == PushCurrent(st, log)
  {
    var line := BadBoxText(b);
    BadBoxRoundTrip(b);
    ToClassifiers(cfg, line, st, log);
    var cur := LogEntry(Typesetting, CurrentFile(cfg, st), b.head, Num(DigitsValue(b.lineDigits)));
    var st1 := st.(current := cur, searchEmptyLine := false, insideBoxWarn := true);
    assert ClassifyBox(cfg, line, st, log) == ParseLine(cfg, line[|line|..], st1, PushCurrent(st, log));
    SkipFlagSpent(cfg, line[|line|..], st1, PushCurrent(st, log));
  }

  /** A warning line opens a warning record on the stack's file, with the
      message and its terminator as text and the `on input line` number (NaN
      when absent), and waits for continuation lines (log.ts:215-227). */
  lemma WarningLine(cfg: Config, line: string, st: ParserState, log: seq<LogEntry>, w: WarnMatch)
    requires Classifying(st) && !cfg.excluded(line) && MatchWarn(line) == Some(w)
    ensures var r := ParseLine(cfg, line, st, log);
      && r.state.current == LogEntry(Warning, CurrentFile(cfg, st), w.message + w.terminator, LineOf(w.lineDigits))
      && r.state.searchEmptyLine && !r.state.insideError
      && r.state.fileStack == st.fileStack
      && r.log == PushCurrent(st, log)
  {
    WarnReachesClassifier(cfg, line, st, log);
    WarnClassified(cfg, line, st, log, w);
  }

  /** A warning line is led by neither bad-box word, so it reaches `latexWarn`. */
  lemma WarnReachesClassifier(cfg: Config, line: string, st: ParserState, log: seq<LogEntry>)
    requires Classifying(st) && !cfg.excluded(line) && MatchWarn(line).Some?
    ensures ParseLine(cfg, line, st, log) == ClassifyWarn(cfg, line, st, log)
  {
    WarnLineLead(line);
    NotBoxLine(line);
    ToClassifiers(cfg, line, st, log);
    PastBoxes(cfg, line, st, log);
  }

  lemma WarnClassified(cfg: Config, line: string, st: ParserState, log: seq<LogEntry>, w: WarnMatch)
    requires Classifying(st) && MatchWarn(line) == Some(w)
    ensures ClassifyWarn(cfg, line, st, log)
      == Step(st.(current := LogEntry(Warning, CurrentFile(cfg, st), w.message + w.terminator, LineOf(w.lineDigits)),
                  searchEmptyLine := true),
              PushCurrent(st, log))
  {
  }

  /** A Biber line opens a file-less warning at line 1 naming the missing key,
      and the rest of the line after the match is read again (log.ts:229-242). */
  lemma BiberLine(cfg: Config, line: string, st: ParserState, log: seq<LogEntry>, m: BiberMatch)
    requires Classifying(st) && !cfg.excluded(line) && MatchBiber(line) == Some(m)
    ensures ParseLine(cfg, line, st, log)
      == ParseLine(cfg, line[|BiberText(m)|..],
                   st.(current := LogEntry(Warning, "", BibEntryMissing + m.key + "'", Num(1)), searchEmptyLine := false),
                   PushCurrent(st, log))
  {
    assert line[0] == 'B' by {
      assert line[..|BiberText(m)|][0] == BiberPrefix[0];
    }
    if MatchWarn(line).Some? {
      WarnLineLead(line);
    }
    NotBoxLine(line);
    ToClassifiers(cfg, line, st, log);
    PastBoxes(cfg, line, st, log);
    PastWarn(cfg, line, st, log);
  }

  /** A `! message` line opens an error record on the stack's file at line 1
      with the message as text, and starts collecting continuation lines in
      error mode (log.ts:245-258). */
  lemma BangErrorLine(cfg: Config, message: string, st: ParserState, log: seq<LogEntry>)
    requires Classifying(st) && !cfg.excluded("!" + (" " + message))
    requires |message| > 0 && AllDot(message) && ':' !in message
    requires forall j :: 0 <= j <= |message| ==> !OccursAt(message, ErrorWord, j)
    ensures var r := ParseLine(cfg, "!" + (" " + message), st, log);
      && r.state.current == LogEntry(Error, CurrentFile(cfg, st), message, Num(1))
      && r.state.searchEmptyLine && r.state.insideError
      && r.log == PushCurrent(st, log)
  {
    var line := "!" + (" " + message);
    BangErrorComplete(message);
    if MatchWarn(line).Some? {
      WarnLineLead(line);
    }
    NotBoxLine(line);
    if MatchBiber(line).Some? {
      BiberLineLead(line);
    }
    ToClassifiers(cfg, line, st, log);
    PastBoxes(cfg, line, st, log);
    PastWarn(cfg, line, st, log);
    PastBiber(cfg, line, st, log);
  }

  /** A located error line `file:N: message` (the `-file-line-error` form)
      whose file does not begin like a bad box, a warning or a Biber notice
      opens an error record on that file, resolved against the root file's
      directory, at line N, and collects continuation lines in error mode
      (log.ts:245-258). */
  lemma LocatedErrorLine(cfg: Config, line: string, st: ParserState, log: seq<LogEntry>,
                         e: ErrorMatch, f: string, d: string)
    requires Classifying(st) && !cfg.excluded(line)
    requires |line| > 0 && !IsBoxLead(line[0]) && !IsWarnLead(line[0]) && line[0] != 'B'
    requires MatchError(line) == Some(e) && e.location == Some((f, d)) && f != ""
    ensures var r := ParseLine(cfg, line, st, log);
      && r.state.current.kind == Error
      && r.state.current.file == cfg.resolve(st.rootFile, f)
      && r.state.current.line == Num(DigitsValue(d))
      && r.state.current.text == (if e.engine.Some? && e.engine.value != "LaTeX" then e.engine.value + ": " + e.message else e.message)
      && line == f + (":" + (d + (":" + ErrorTailText(e.engine, e.message))))
      && r.state.searchEmptyLine && r.state.insideError
      && r.state.fileStack == st.fileStack
      && r.log == PushCurrent(st, log)
  {
    if MatchWarn(line).Some? {
      WarnLineLead(line);
    }
    NotBoxLine(line);
    if MatchBiber(line).Some? {
      BiberLineLead(line);
    }
    ToClassifiers(cfg, line, st, log);
    PastBoxes(cfg, line, st, log);
    PastWarn(cfg, line, st, log);
    PastBiber(cfg, line, st, log);
  }

  // ---------------------------------------------------------------------------
  // Continuation lines (log.ts:157-175)
  // ---------------------------------------------------------------------------

  /** A blank line, or in error mode a line led by whitespace, closes the
      record with a newline, clears both flags and emits nothing. */
  lemma ContinuationCloses(cfg: Config, line: string, st: ParserState, log: seq<LogEntry>)
    requires Ready(st) && st.searchEmptyLine && !st.insideBoxWarn
    requires AllWhitespace(line) || (st.insideError && |line| > 0 && IsWhitespace(line[0]))
    ensures var r := ParseLine(cfg, line, st, log);
      && r.log == log && !r.state.searchEmptyLine && !r.state.insideError
      && r.state.current == st.current.(text := st.current.text + "\n")
  {
    TrimEmptyIffBlank(line);
  }

  /** Any other line stays with the open record: its text grows by a newline
      and the line's contribution, and nothing is emitted. */
  lemma ContinuationAppends(cfg: Config, line: string, st: ParserState, log: seq<LogEntry>)
    requires Ready(st) && st.searchEmptyLine && !st.insideBoxWarn
    requires !AllWhitespace(line) && !(st.insideError && |line| > 0 && IsWhitespace(line[0]))
    ensures var r := ParseLine(cfg, line, st, log);
      && r.log == log && r.state.searchEmptyLine && r.state.insideError == st.insideError
      && r.state.current.kind == st.current.kind && r.state.current.file == st.current.file
      && r.state.current.text == st.current.text + "\n" + ContinuationText(line, st.insideError)
  {
    TrimEmptyIffBlank(line);
  }

  /** A package continuation line never closes the record. */
  lemma ExtraLineContinues(line: string, insideError: bool)
    requires MatchExtraLine(line).Some?
    ensures !EndsContinuation(line, insideError)
  {
    assert line[0] == '(';
    assert !AllWhitespace(line);
    TrimEmptyIffBlank(line);
  }

  /** A `(file) text on input line N.` continuation adds `(file)\ttext.` and
      moves the record to line N (log.ts:163-166). */
  lemma PackageContinuation(cfg: Config, line: string, st: ParserState, log: seq<LogEntry>, x: ExtraMatch)
    requires Ready(st) && st.searchEmptyLine && !st.insideBoxWarn && MatchExtraLine(line) == Some(x)
    ensures var r := ParseLine(cfg, line, st, log);
      && r.log == log && r.state.searchEmptyLine
      && r.state.current.line == LineOf(x.suffix.lineDigits)
      && r.state.current.text == st.current.text + "\n" + ("(" + x.file + ")\t" + x.text + (if x.suffix.period then "." else ""))
  {
    ExtraLineContinues(line, st.insideError);
  }

  /** In error mode an `l.<n> text` line contributes only `text` (log.ts:167-169). */
  lemma ErrorContextLine(cfg: Config, line: string, st: ParserState, log: seq<LogEntry>, m: MessageLine)
    requires Ready(st) && st.searchEmptyLine && st.insideError && !st.insideBoxWarn
    requires MatchMessageLine(line) == Some(m) && MatchExtraLine(line).None?
    ensures var r := ParseLine(cfg, line, st, log);
      && r.log == log && r.state.searchEmptyLine && r.state.insideError
      && r.state.current.text == st.current.text + "\n" + m.rest
  {
    assert line[0] == 'l';
    assert !AllWhitespace(line);
    TrimEmptyIffBlank(line);
  }

  /** The exclude patterns are consulted only between records: while
      continuation lines are collected they change nothing (log.ts:157-180). */
  lemma ExcludeOutsideRecordsOnly(cfg: Config, other: string -> bool, line: string, st: ParserState, log: seq<LogEntry>)
    requires Ready(st) && (st.searchEmptyLine || st.insideBoxWarn)
    ensures ParseLine(cfg, line, st, log) == ParseLine(cfg.(excluded := other), line, st, log)
  {
  }

  // ---------------------------------------------------------------------------
  // The whole log (log.ts:267-291)
  // ---------------------------------------------------------------------------

  /** Reading a log in two parts is reading it whole: the state and the
      entries carry over from one line to the next and nothing else does. */
  lemma {:induction false} ParseLinesConcat(cfg: Config, a: seq<string>, b: seq<string>, st: ParserState, log: seq<LogEntry>)
    requires Ready(st)
    decreases |a|
    ensures var m := ParseLines(cfg, a, st, log);
      ParseLines(cfg, a + b, st, log) == ParseLines(cfg, b, m.state, m.log)
  {
    if |a| == 0 {
      assert a + b == b;
    } else {
      assert (a + b)[0] == a[0];
      assert (a + b)[1..] == a[1..] + b;
      var s := ParseLine(cfg, a[0], st, log);
      ParseLinesConcat(cfg, a[1..], b, s.state, s.log);
    }
  }

  /** Only the first line decides whether latexmk reports that it had nothing
      to do; whatever follows it is never looked at (log.ts:138-144). */
  lemma LatexmkSkippedFirstLine(first: string, rest: string)
    requires '\n' !in first
    ensures LatexmkSkipped(first + "\n" + rest) <==> IsUpToDateLine(first)
  {
    IndexOfAfterPiece(first, rest, '\n');
    var s := first + "\n" + rest;
    assert s[..|first|] == first;
  }

  // ---------------------------------------------------------------------------
  // Line endings (log.ts:75)
  // ---------------------------------------------------------------------------

  /** Text without carriage returns is left alone. */
  lemma {:induction false} NormaliseKeepsPlainText(s: string)
    requires '\r' !in s
    decreases |s|
    ensures Normalise(s) == s
  {
    if |s| > 0 {
      assert s == [s[0]] + s[1..];
      NormaliseKeepsPlainText(s[1..]);
    }
  }

  lemma NormaliseIdempotent(s: string)
    ensures Normalise(Normalise(s)) == Normalise(s)
  {
    NormaliseKeepsPlainText(Normalise(s));
  }

  /** `\r\n` and a lone `\r` both become one `\n`. */
  lemma NormaliseExample()
    ensures Normalise("a\r\nb\rc\n") == "a\nb\nc\n"
  {
    var s := "a\r\nb\rc\n";
    assert s[1..][2..] == "b\rc\n";
    assert s[1..][2..][1..] == "\rc\n";
    assert s[1..][2..][1..][1..] == "c\n";
    assert Normalise("c\n") == "c\n" by {
      assert "c\n"[1..] == "\n";
      assert "\n"[1..] == "";
    }
    assert Normalise("\rc\n") == "\nc\n";
    assert Normalise("b\rc\n") == "b\nc\n";
    assert Normalise("\r\nb\rc\n") == "\nb\nc\n";
  }

  // ---------------------------------------------------------------------------
  // Wrapper trimming (log.ts:94-136)
  // ---------------------------------------------------------------------------

  /** The last index is the only index with its defining property. */
  lemma LastIndexUnique(lines: seq<string>, p: string -> bool, r: int)
    requires -1 <= r < |lines| && (r >= 0 ==> p(lines[r]))
    requires forall k :: r < k < |lines| ==> !p(lines[k])
    ensures LastIndex(lines, p) == r
  {
  }

  /** When no wrapper step follows the last engine run, trimming keeps the lines
      from that run on, and trimming again changes nothing: every run start is
      also a wrapper step. */
  lemma TrimLinesIdempotent(lines: seq<string>, isStart: string -> bool, isStep: string -> bool)
    requires forall l :: isStart(l) ==> isStep(l)
    requires LastIndex(lines, isStart) >= 0 && LastIndex(lines, isStep) <= LastIndex(lines, isStart)
    ensures TrimLines(lines, isStart, isStep) == lines[LastIndex(lines, isStart)..]
    ensures TrimLines(TrimLines(lines, isStart, isStep), isStart, isStep) == TrimLines(lines, isStart, isStep)
  {
    var s := LastIndex(lines, isStart);
    var t := lines[s..];
    assert TrimLines(lines, isStart, isStep) == t;
    forall k | 0 < k < |t| ensures !isStart(t[k]) && !isStep(t[k]) {
      assert t[k] == lines[s + k];
    }
    LastIndexUnique(t, isStart, 0);
    LastIndexUnique(t, isStep, 0);
  }

  /** The same for the log text: split, trimmed and joined again. */
  lemma TrimmedLogIdempotent(log: string, isStart: string -> bool, isStep: string -> bool)
    requires forall l :: isStart(l) ==> isStep(l)
    requires var lines := Split(log, '\n');
      LastIndex(lines, isStart) >= 0 && LastIndex(lines, isStep) <= LastIndex(lines, isStart)
    ensures TrimmedLog(TrimmedLog(log, isStart, isStep), isStart, isStep) == TrimmedLog(log, isStart, isStep)
  {
    var lines := Split(log, '\n');
    TrimLinesIdempotent(lines, isStart, isStep);
    var s := LastIndex(lines, isStart);
    var t := TrimLines(lines, isStart, isStep);
    assert t == lines[s..];
    forall k | 0 <= k < |t| ensures '\n' !in t[k] {
      assert t[k] == lines[s + k];
    }
    SplitJoin(t, '\n');
    calc {
      TrimmedLog(TrimmedLog(log, isStart, isStep), isStart, isStep);
    ==
      Join(TrimLines(Split(Join(t, '\n'), '\n'), isStart, isStep), '\n');
    ==
      Join(TrimLines(t, isStart, isStep), '\n');
    ==
      Join(t, '\n');
    }
  }

  /** Both wrappers' run starts are also wrapper steps. */
  lemma StartsAreSteps()
    ensures forall l :: LatexmkStart(l) ==> LatexmkStep(l)
    ensures forall l :: TexifyStart(l) ==> TexifyStep(l)
  {
  }

  /** When a wrapper step follows the last engine run, trimming twice can cut
      more than trimming once: the kept lines may end with another step. */
  lemma TrimLinesNotIdempotent()
    ensures var isStart := (l: string) => l == "run";
      var isStep := (l: string) => l == "run" || l == "step";
      var lines := ["run", "step", "step"];
      && TrimLines(lines, isStart, isStep) == ["run", "step"]
      && TrimLines(TrimLines(lines, isStart, isStep), isStart, isStep) == ["run"]
  {
    var isStart := (l: string) => l == "run";
    var isStep := (l: string) => l == "run" || l == "step";
    var lines := ["run", "step", "step"];
    LastIndexUnique(lines, isStart, 0);
    LastIndexUnique(lines, isStep, 2);
    var once := TrimLines(lines, isStart, isStep);
    assert once == lines[0..2];
    LastIndexUnique(once, isStart, 0);
    LastIndexUnique(once, isStep, 1);
    assert TrimLines(once, isStart, isStep) == once[0..1];
  }

  // ---------------------------------------------------------------------------
  // parseLinter (log.ts:319-341)
  // ---------------------------------------------------------------------------

  /** Lines are read independently: the entries of two pieces of a log are
      the entries of each, in order. */
  lemma LinterEntriesConcat(paths: LinterPaths, a: seq<string>, b: seq<string>)
    ensures LinterEntries(paths, a + b) == LinterEntries(paths, a) + LinterEntries(paths, b)
  {
    ConcatMapAppend(EntryOfLine(paths), a, b);
  }

  /** A supplied file path is reported on every entry when it needs no
      resolving. */
  lemma LinterOverrideEverywhere(paths: LinterPaths, lines: seq<string>)
    requires paths.override.Some? && paths.override.value != ""
    requires paths.isAbsolute(paths.override.value) || paths.rootDir.None?
    ensures forall k :: 0 <= k < |LinterEntries(paths, lines)| ==> LinterEntries(paths, lines)[k].file == paths.override.value
  {
    ConcatMapKeeps(EntryOfLine(paths), lines, (e: LinterEntry) => e.file == paths.override.value);
  }

  /** A single line gives its own entry, if it matches (log.ts:326-336);
      with LinterEntriesConcat this fixes the entries of any list of lines. */
  lemma LinterEntriesSingle(paths: LinterPaths, line: string)
    ensures LinterEntries(paths, [line]) == LineEntry(paths, line)
  {
    assert [line][1..] == [];
    assert ConcatMap(EntryOfLine(paths), [line]) == EntryOfLine(paths)(line) + ConcatMap(EntryOfLine(paths), []);
  }

  /** A log of one line gives one entry exactly when the line matches: the
      type lower-cased, the text `code: message`, the four numbers read from
      their digits. */
  lemma ParseLinterOneLine(log: string, paths: LinterPaths)
    requires AllDot(log)
    ensures MatchLinterLine(log).None? ==> ParseLinter(log, paths) == []
    ensures MatchLinterLine(log).Some? ==> var m := MatchLinterLine(log).value;
      ParseLinter(log, paths) == [LinterEntry(LinterFile(paths, m.file), DigitsValue(m.line), DigitsValue(m.column),
                                              DigitsValue(m.length), ToLower(m.severity), DigitsValue(m.code),
                                              m.code + ": " + m.message)]
  {
    assert SplitLines(log) == [log];
    LinterEntriesSingle(paths, log);
  }

  /** The first line of a log is read on its own, before the rest. */
  lemma ParseLinterNextLine(first: string, rest: string, paths: LinterPaths)
    requires AllDot(first)
    ensures ParseLinter(first + "\n" + rest, paths) == LineEntry(paths, first) + ParseLinter(rest, paths)
  {
    var s := first + "\n" + rest;
    assert forall k :: 0 <= k < |first| ==> s[k] == first[k];
    assert s[|first|] == '\n';
    assert s[..|first|] == first && s[|first| + 1..] == rest;
    assert SplitLines(s) == [first] + SplitLines(rest);
    LinterEntriesConcat(paths, [first], SplitLines(rest));
    LinterEntriesSingle(paths, first);
  }
}

=== FILE: refcompleter.dfy ===
/** The reference completer: label extraction from the LaTeX syntax tree, the
    label-keyed suggestion object kept in sync with the cache, and the numbers
    read back from `\newlabel` lines of the aux file
    (src/providers/completer/reference.ts). */
module RefCompleter {
  import opened Wrappers
  import opened JsString
  import opened Seqs
  import opened TexSnippets

  // ---------------------------------------------------------------------------
  // Entities
  // ---------------------------------------------------------------------------

  /** The number and page a label had at the last compilation. */
  datatype PrevIndex = PrevIndex(refNumber: string, pageNumber: string)

  /** A reference as the cache holds it. `position` is the start of its range
      and is absent exactly when the range is. */
  datatype CachedRef = CachedRef(name: string, documentation: string, position: Option<Pos>)

  /** A reference together with the cached file it was read from. */
  datatype Located = Located(file: string, ref: CachedRef)

  /** One suggestion: the reference, where it is defined and, once numbers have
      been read, its number at the last compilation. */
  datatype Suggestion = Suggestion(name: string, documentation: string, file: string, position: Pos,
                                   prevIndex: Option<PrevIndex>)

  /** The plain object keyed by label: its keys in insertion order and its entries. */
  datatype Suggestions = Suggestions(keys: seq<string>, entries: map<string, Suggestion>)

  /** The keys are listed once each and are exactly the entries' keys. */
  predicate Valid(o: Suggestions) {
    Distinct(o.keys) && o.entries.Keys == set k | k in o.keys
  }

  // ---------------------------------------------------------------------------
  // Object assignment and deletion
  // ---------------------------------------------------------------------------

  /** `o[k] = v`: a new key goes to the end, an existing one keeps its place. */
  function Assign(o: Suggestions, k: string, v: Suggestion): (r: Suggestions)
    ensures Valid(o) ==> Valid(r)
    ensures r.entries == o.entries[k := v]
    ensures Valid(o) ==> r.keys == AppendNew(o.keys, [k])
  {
    var r := Suggestions(if k in o.keys then o.keys else o.keys + [k], o.entries[k := v]);
    assert Valid(o) ==> Distinct(r.keys) by {
      if Valid(o) && k !in o.keys {
        assert forall i :: 0 <= i < |o.keys| ==> r.keys[i] == o.keys[i];
      }
    }
    assert AppendNew(o.keys, [k]) == AppendNew(if k in o.keys then o.keys else o.keys + [k], []);
    r
  }

  /** Deleting every key that `keep` does not hold, keeping the others in order. */
  function DeleteStale(o: Suggestions, keep: seq<string>): (r: Suggestions)
    ensures Valid(o) ==> Valid(r)
    ensures r.keys == Retain(o.keys, keep)
    ensures forall k :: k in r.entries <==> k in o.entries && k in keep
    ensures forall k :: k in r.entries ==> r.entries[k] == o.entries[k]
  {
    var r := Suggestions(Retain(o.keys, keep), map k | k in o.entries && k in keep :: o.entries[k]);
    assert Valid(o) ==> Distinct(r.keys) by {
      if Valid(o) { RetainDistinct(o.keys, keep); }
    }
    r
  }

  /** Filtering keeps elements distinct. */
  lemma {:induction false} RetainDistinct(xs: seq<string>, keep: seq<string>)
    requires Distinct(xs)
    decreases |xs|
    ensures Distinct(Retain(xs, keep))
  {
    if |xs| > 0 {
      assert Distinct(xs[1..]);
      RetainDistinct(xs[1..], keep);
      assert xs[0] !in xs[1..];
      var rest := Retain(xs[1..], keep);
      var head: seq<string> := if xs[0] in keep then [xs[0]] else [];
      assert forall i :: 0 <= i < |rest| ==> (head + rest)[|head| + i] == rest[i];
    }
  }

  // ---------------------------------------------------------------------------
  // provide (reference.ts:30-56)
  // ---------------------------------------------------------------------------

  /** The references of one cached file that have a range, with their file. */
  function WithRange(file: string, refs: seq<CachedRef>): (r: seq<Located>)
    decreases |refs|
    ensures forall i :: 0 <= i < |r| ==> r[i].file == file && r[i].ref.position.Some?
    ensures forall x :: x in r <==> x.file == file && x.ref in refs && x.ref.position.Some?
  {
    if |refs| == 0 then []
    else
      var rest := WithRange(file, refs[1..]);
      assert forall c :: c in refs <==> c == refs[0] || c in refs[1..];
      (if refs[0].position.Some? then [Located(file, refs[0])] else []) + rest
  }

  /** What one cache entry contributes: nothing when it has no references. */
  function EntryRefs(entry: (string, Option<seq<CachedRef>>)): seq<Located> {
    match entry.1
    case None => []
    case Some(refs) => WithRange(entry.0, refs)
  }

  /** The loop over the cached files and their references, in order, skipping
      references without a range. */
  function Collected(cache: seq<(string, Option<seq<CachedRef>>)>): (r: seq<Located>)
    ensures forall i :: 0 <= i < |r| ==> r[i].ref.position.Some?
  {
    var f := (entry: (string, Option<seq<CachedRef>>)) => EntryRefs(entry);
    ConcatMapKeeps(f, cache, (x: Located) => x.ref.position.Some?);
    ConcatMap(f, cache)
  }

  /** The labels pushed to `refList`, in order. */
  function LabelsOf(items: seq<Located>): (r: seq<string>)
    ensures |r| == |items|
    ensures forall i :: 0 <= i < |items| ==> r[i] == items[i].ref.name
  {
    seq(|items|, i requires 0 <= i < |items| => items[i].ref.name)
  }

  /** The object spread: the cached reference with its file and position, and
      no number (the new object has no `prevIndex`). */
  function SuggestionOf(x: Located): (s: Suggestion)
    requires x.ref.position.Some?
    ensures s.name == x.ref.name && s.file == x.file && s.prevIndex.None?
  {
    Suggestion(x.ref.name, x.ref.documentation, x.file, x.ref.position.value, None)
  }

  /** The index of the last item with label `k`. */
  function LastWithLabel(items: seq<Located>, k: string): (r: Option<nat>)
    ensures r.Some? ==> r.value < |items| && items[r.value].ref.name == k
    ensures r.Some? ==> forall j :: r.value < j < |items| ==> items[j].ref.name != k
    ensures r.None? <==> k !in LabelsOf(items)
  {
    var p := (i: nat) => i < |items| && items[i].ref.name == k;
    assert forall i: nat :: p(i) == (i < |items| && items[i].ref.name == k);
    var r := LastWhere(0, |items|, p);
    assert r.None? ==> k !in LabelsOf(items) by {
      if r.None? {
        forall i | 0 <= i < |items| ensures LabelsOf(items)[i] != k { assert !p(i); }
      }
    }
    r
  }

  /** No later item carries the label of item `i`. */
  predicate LastOfLabel(items: seq<Located>, i: nat)
    requires i < |items|
  {
    forall j :: i < j < |items| ==> items[j].ref.name != items[i].ref.name
  }

  /** The assignments, one per item, in order. */
  function AssignAll(o: Suggestions, items: seq<Located>): (r: Suggestions)
    requires Valid(o)
    requires forall i :: 0 <= i < |items| ==> items[i].ref.position.Some?
    decreases |items|
    ensures Valid(r)
    ensures r.keys == AppendNew(o.keys, LabelsOf(items))
    ensures forall k :: k in r.entries <==> k in o.entries || k in LabelsOf(items)
    ensures forall k :: k in o.entries && k !in LabelsOf(items) ==> r.entries[k] == o.entries[k]
    ensures forall i :: 0 <= i < |items| && LastOfLabel(items, i) ==>
      r.entries[items[i].ref.name] == SuggestionOf(items[i])
  {
    if |items| == 0 then o
    else
      var x := items[0];
      var next := Assign(o, x.ref.name, SuggestionOf(x));
      var r := AssignAll(next, items[1..]);
      LabelsOfTail(items);
      AssignAllLastWins(items, next, r);
      assert AppendNew(o.keys, LabelsOf(items)) == AppendNew(next.keys, LabelsOf(items[1..]));
      r
  }

  /** The last-wins property of the whole list, from that of its tail and the
      head's own assignment. */
  lemma AssignAllLastWins(items: seq<Located>, next: Suggestions, r: Suggestions)
    requires |items| > 0
    requires forall i :: 0 <= i < |items| ==> items[i].ref.position.Some?
    requires items[0].ref.name in next.entries && next.entries[items[0].ref.name] == SuggestionOf(items[0])
    requires forall k :: k in next.entries && k !in LabelsOf(items[1..]) ==> k in r.entries && r.entries[k] == next.entries[k]
    requires forall i :: 0 <= i < |items[1..]| && LastOfLabel(items[1..], i) ==>
      items[1..][i].ref.name in r.entries && r.entries[items[1..][i].ref.name] == SuggestionOf(items[1..][i])
    ensures forall i :: 0 <= i < |items| && LastOfLabel(items, i) ==>
      items[i].ref.name in r.entries && r.entries[items[i].ref.name] == SuggestionOf(items[i])
  {
    LastOfLabelTail(items);
    forall i | 1 <= i < |items| && LastOfLabel(items, i)
      ensures items[i].ref.name in r.entries && r.entries[items[i].ref.name] == SuggestionOf(items[i])
    {
      assert items[1..][i - 1] == items[i];
    }
  }

  /** The labels of a list are its head's and then its tail's. */
  lemma LabelsOfTail(items: seq<Located>)
    requires |items| > 0
    ensures LabelsOf(items) == [items[0].ref.name] + LabelsOf(items[1..])
    ensures forall k :: k in LabelsOf(items) <==> k == items[0].ref.name || k in LabelsOf(items[1..])
  {
    assert LabelsOf(items) == [items[0].ref.name] + LabelsOf(items[1..]);
  }

  /** Being last of its label carries over to the tail, and the head is last
      of its label exactly when the tail does not hold that label. */
  lemma LastOfLabelTail(items: seq<Located>)
    requires |items| > 0
    ensures forall i :: 1 <= i < |items| && LastOfLabel(items, i) ==> LastOfLabel(items[1..], i - 1)
    ensures LastOfLabel(items, 0) ==> items[0].ref.name !in LabelsOf(items[1..])
  {
    forall i | 1 <= i < |items| && LastOfLabel(items, i) ensures LastOfLabel(items[1..], i - 1) {
      forall j | i - 1 < j < |items[1..]| ensures items[1..][j].ref.name != items[1..][i - 1].ref.name {
        assert items[1..][j] == items[j + 1];
      }
    }
    if LastOfLabel(items, 0) {
      forall j | 0 <= j < |items[1..]| ensures LabelsOf(items[1..])[j] != items[0].ref.name {
        assert items[1..][j] == items[j + 1];
      }
    }
  }

  /** `provide`: every reference with a range is assigned under its label,
      then every key not collected in this call is deleted; the completion
      list is the entries in key order. */
  function Provide(o: Suggestions, cache: seq<(string, Option<seq<CachedRef>>)>): (r: (Suggestions, seq<Suggestion>))
    requires Valid(o)
    ensures Valid(r.0)
    ensures |r.1| == |r.0.keys|
    ensures forall i :: 0 <= i < |r.0.keys| ==> r.1[i] == r.0.entries[r.0.keys[i]]
  {
    var items := Collected(cache);
    var labels := LabelsOf(items);
    var s := DeleteStale(AssignAll(o, items), labels);
    (s, seq(|s.keys|, i requires 0 <= i < |s.keys| => s.entries[s.keys[i]]))
  }

  /** After `provide`, the keys are exactly the labels collected in that call. */
  lemma ProvideKeys(o: Suggestions, cache: seq<(string, Option<seq<CachedRef>>)>, k: string)
    requires Valid(o)
    ensures k in Provide(o, cache).0.entries <==> k in LabelsOf(Collected(cache))
  {
  }

  /** For a label defined several times, the last definition visited wins. */
  lemma ProvideLastWins(o: Suggestions, cache: seq<(string, Option<seq<CachedRef>>)>, k: string)
    requires Valid(o)
    requires k in LabelsOf(Collected(cache))
    ensures var items := Collected(cache);
      var i := LastWithLabel(items, k).value;
      Provide(o, cache).0.entries[k] == SuggestionOf(items[i])
  {
    var items := Collected(cache);
    var i := LastWithLabel(items, k).value;
    assert items[i].ref.name == k;
    assert LastOfLabel(items, i);
  }

  /** What the entries after `provide` should be, stated without the object:
      each collected label maps to its last collected definition. */
  function Expected(cache: seq<(string, Option<seq<CachedRef>>)>): (m: map<string, Suggestion>)
    ensures forall k :: k in m <==> k in LabelsOf(Collected(cache))
  {
    var items := Collected(cache);
    map k | k in LabelsOf(items) :: SuggestionOf(items[LastWithLabel(items, k).value])
  }

  /** A label is a key after `provide` exactly when it is an expected one. */
  lemma ProvideKeysExpected(o: Suggestions, cache: seq<(string, Option<seq<CachedRef>>)>, k: string)
    requires Valid(o)
    ensures k in Provide(o, cache).0.entries <==> k in Expected(cache)
  {
    ProvideKeys(o, cache, k);
  }

  /** Each entry after `provide` is the expected one. */
  lemma ProvideValueExpected(o: Suggestions, cache: seq<(string, Option<seq<CachedRef>>)>, k: string)
    requires Valid(o)
    requires k in Provide(o, cache).0.entries
    ensures k in Expected(cache) && Provide(o, cache).0.entries[k] == Expected(cache)[k]
  {
    ProvideKeys(o, cache, k);
    ProvideLastWins(o, cache, k);
  }

  /** Maps with the same keys and the same values are equal. */
  lemma MapExtensional<K, V>(e: map<K, V>, x: map<K, V>)
    requires forall k :: k in e <==> k in x
    requires forall k :: k in e ==> e[k] == x[k]
    ensures e == x
  {
  }

  /** `provide` computes exactly the expected entries. */
  lemma ProvideIsExpected(o: Suggestions, cache: seq<(string, Option<seq<CachedRef>>)>)
    requires Valid(o)
    ensures Provide(o, cache).0.entries == Expected(cache)
  {
    var e := Provide(o, cache).0.entries;
    var x := Expected(cache);
    forall k ensures k in e <==> k in x {
      ProvideKeysExpected(o, cache, k);
    }
    forall k | k in e ensures e[k] == x[k] {
      ProvideValueExpected(o, cache, k);
    }
    MapExtensional(e, x);
  }

  /** Nothing of the previous object survives in the entries: not even a number
      from an earlier `setNumbersFromAuxFile`. */
  lemma ProvideForgetsPrevious(o1: Suggestions, o2: Suggestions, cache: seq<(string, Option<seq<CachedRef>>)>)
    requires Valid(o1) && Valid(o2)
    ensures Provide(o1, cache).0.entries == Provide(o2, cache).0.entries
  {
    ProvideIsExpected(o1, cache);
    ProvideIsExpected(o2, cache);
  }

  /** Every suggestion comes without a number. */
  lemma ProvideClearsNumbers(o: Suggestions, cache: seq<(string, Option<seq<CachedRef>>)>, k: string)
    requires Valid(o)
    requires k in Provide(o, cache).0.entries
    ensures Provide(o, cache).0.entries[k].prevIndex.None?
  {
    ProvideLastWins(o, cache, k);
  }

  /** The order of the keys: the surviving old keys in their old order, then
      the new labels in order of first appearance. */
  lemma ProvideOrder(o: Suggestions, cache: seq<(string, Option<seq<CachedRef>>)>)
    requires Valid(o)
    ensures var labels := LabelsOf(Collected(cache));
      Provide(o, cache).0.keys == Retain(o.keys, labels) + Fresh(o.keys, labels)
  {
    var labels := LabelsOf(Collected(cache));
    AppendNewIsFresh(o.keys, labels);
    RetainAppend(o.keys, Fresh(o.keys, labels), labels);
    FreshFromXs(o.keys, labels);
    RetainAll(Fresh(o.keys, labels), labels);
  }

  /** `x.ref` is among the references cached for `x.file`. */
  ghost predicate InCache(cache: seq<(string, Option<seq<CachedRef>>)>, x: Located) {
    exists j :: 0 <= j < |cache| && cache[j].0 == x.file && cache[j].1.Some? && x.ref in cache[j].1.value
  }

  /** A reference without a range never becomes a suggestion: the collected
      items are exactly the cached references that have one. */
  lemma {:induction false} CollectedIff(cache: seq<(string, Option<seq<CachedRef>>)>, x: Located)
    decreases |cache|
    ensures x in Collected(cache) <==> x.ref.position.Some? && InCache(cache, x)
  {
    var f := (entry: (string, Option<seq<CachedRef>>)) => EntryRefs(entry);
    if |cache| > 0 {
      CollectedIff(cache[1..], x);
      assert Collected(cache) == EntryRefs(cache[0]) + Collected(cache[1..]);
      assert x in Collected(cache) <==> x in EntryRefs(cache[0]) || x in Collected(cache[1..]);
      assert InCache(cache, x) <==> (cache[0].0 == x.file && cache[0].1.Some? && x.ref in cache[0].1.value)
                                    || InCache(cache[1..], x) by {
        if InCache(cache, x) {
          var j :| 0 <= j < |cache| && cache[j].0 == x.file && cache[j].1.Some? && x.ref in cache[j].1.value;
          if j > 0 { assert cache[1..][j - 1] == cache[j]; }
        }
        if InCache(cache[1..], x) {
          var j :| 0 <= j < |cache[1..]| && cache[1..][j].0 == x.file && cache[1..][j].1.Some? && x.ref in cache[1..][j].1.value;
          assert cache[j + 1] == cache[1..][j];
        }
      }
    }
  }

  // ---------------------------------------------------------------------------
  // setNumbersFromAuxFile (reference.ts:107-128)
  // ---------------------------------------------------------------------------

  /** One `\newlabel{label}{{number}{page}…` line of the aux file. */
  datatype NewLabel = NewLabel(name: string, refNumber: string, pageNumber: string)

  /** Every suggestion loses its number. */
  function ClearNumbers(o: Suggestions): (r: Suggestions)
    ensures r.keys == o.keys && r.entries.Keys == o.entries.Keys
    ensures forall k :: k in r.entries ==> r.entries[k] == o.entries[k].(prevIndex := None)
  {
    Suggestions(o.keys, map k | k in o.entries :: o.entries[k].(prevIndex := None))
  }

  /** The `\newlabel` lines in order: a label already suggested takes the
      line's number and page. */
  function ApplyNumbers(o: Suggestions, lines: seq<NewLabel>): (r: Suggestions)
    decreases |lines|
    ensures r.keys == o.keys && r.entries.Keys == o.entries.Keys
    ensures forall k :: k in r.entries ==> r.entries[k].(prevIndex := None) == o.entries[k].(prevIndex := None)
  {
    if |lines| == 0 then o
    else
      var n := lines[0];
      var next :=
        if n.name in o.entries
        then Suggestions(o.keys, o.entries[n.name := o.entries[n.name].(prevIndex := Some(PrevIndex(n.refNumber, n.pageNumber)))])
        else o;
      ApplyNumbers(next, lines[1..])
  }

  /** The number the last `\newlabel` line for `k` gives: the tail decides
      when it names `k`, else the head when it does. */
  function LastNumber(lines: seq<NewLabel>, k: string): (r: Option<PrevIndex>)
    decreases |lines|
    ensures r.None? <==> forall i :: 0 <= i < |lines| ==> lines[i].name != k
  {
    if |lines| == 0 then None
    else
      assert forall i :: 1 <= i < |lines| ==> lines[i] == lines[1..][i - 1];
      match LastNumber(lines[1..], k)
      case Some(v) => Some(v)
      case None => if lines[0].name == k then Some(PrevIndex(lines[0].refNumber, lines[0].pageNumber)) else None
  }

  /** `setNumbersFromAuxFile`, given the aux file's `\newlabel` lines or `None`
      when there is no aux file. */
  function SetNumbers(o: Suggestions, aux: Option<seq<NewLabel>>): (r: Suggestions)
    ensures r.keys == o.keys && r.entries.Keys == o.entries.Keys
    ensures forall k :: k in r.entries ==> r.entries[k].(prevIndex := None) == o.entries[k].(prevIndex := None)
    ensures aux.None? ==> forall k :: k in r.entries ==> r.entries[k].prevIndex.None?
  {
    var cleared := ClearNumbers(o);
    match aux
    case None => cleared
    case Some(lines) => ApplyNumbers(cleared, lines)
  }

  /** The number a suggestion ends up with is the one of the last `\newlabel`
      line for its label, and none when no line names it: whatever it had before. */
  lemma {:induction false} ApplyNumbersLastWins(o: Suggestions, lines: seq<NewLabel>, k: string)
    requires k in o.entries
    requires o.entries[k].prevIndex.None?
    decreases |lines|
    ensures ApplyNumbers(o, lines).entries[k].prevIndex == LastNumber(lines, k)
  {
    if |lines| > 0 {
      var n := lines[0];
      var next :=
        if n.name in o.entries
        then Suggestions(o.keys, o.entries[n.name := o.entries[n.name].(prevIndex := Some(PrevIndex(n.refNumber, n.pageNumber)))])
        else o;
      var rest := lines[1..];
      if LastNumber(rest, k).Some? {
        ApplyNumbersKeepsLater(next, rest, k);
      } else if n.name == k {
        ApplyNumbersUntouched(next, rest, k);
      } else {
        ApplyNumbersLastWins(next, rest, k);
      }
    }
  }

  /** A later line for `k` decides, whatever `k` held. */
  lemma {:induction false} ApplyNumbersKeepsLater(o: Suggestions, lines: seq<NewLabel>, k: string)
    requires k in o.entries && LastNumber(lines, k).Some?
    decreases |lines|
    ensures ApplyNumbers(o, lines).entries[k].prevIndex == LastNumber(lines, k)
  {
    var n := lines[0];
    var next :=
      if n.name in o.entries
      then Suggestions(o.keys, o.entries[n.name := o.entries[n.name].(prevIndex := Some(PrevIndex(n.refNumber, n.pageNumber)))])
      else o;
    var rest := lines[1..];
    if LastNumber(rest, k).Some? {
      ApplyNumbersKeepsLater(next, rest, k);
    } else {
      ApplyNumbersUntouched(next, rest, k);
    }
  }

  /** Lines that do not name `k` leave it alone. */
  lemma {:induction false} ApplyNumbersUntouched(o: Suggestions, lines: seq<NewLabel>, k: string)
    requires k in o.entries && LastNumber(lines, k).None?
    decreases |lines|
    ensures ApplyNumbers(o, lines).entries[k] == o.entries[k]
  {
    if |lines| > 0 {
      var n := lines[0];
      assert n.name != k;
      var next :=
        if n.name in o.entries
        then Suggestions(o.keys, o.entries[n.name := o.entries[n.name].(prevIndex := Some(PrevIndex(n.refNumber, n.pageNumber)))])
        else o;
      ApplyNumbersUntouched(next, lines[1..], k);
    }
  }

  /** The whole of `setNumbersFromAuxFile`: without an aux file no suggestion
      keeps a number; with one, each takes the number of the last `\newlabel`
      line for its label and none when no line names it. */
  lemma SetNumbersLastWins(o: Suggestions, aux: Option<seq<NewLabel>>, k: string)
    requires k in o.entries
    ensures k in SetNumbers(o, aux).entries
    ensures SetNumbers(o, aux).entries[k].prevIndex == if aux.None? then None else LastNumber(aux.value, k)
  {
    if aux.Some? {
      ApplyNumbersLastWins(ClearNumbers(o), aux.value, k);
    }
  }

  // ---------------------------------------------------------------------------
  // getReferenceFromNode (reference.ts:64-105)
  // ---------------------------------------------------------------------------

  /** A 1-based line number, as the LaTeX parser reports them. */
  type LineNo = n: nat | 1 <= n witness 1

  datatype Location = Location(startLine: LineNo, startColumn: nat, endLine: LineNo, endColumn: nat)

  /** The parts of the LaTeX syntax tree the extraction looks at: commands with
      their arguments, text strings, groups, other nodes with a content array
      (environments and the like), and nodes with neither. */
  datatype TexNode =
    | Command(name: string, args: seq<TexNode>, loc: Location)
    | TextString(text: string, loc: Location)
    | Group(content: seq<TexNode>, loc: Location)
    | Container(content: seq<TexNode>, loc: Location)
    | Leaf(loc: Location)

  /** The first group among a command's arguments. */
  function FirstGroup(args: seq<TexNode>): (r: Option<TexNode>)
    ensures r.Some? ==> r.value.Group? && r.value in args
    ensures r.None? ==> forall i :: 0 <= i < |args| ==> !args[i].Group?
  {
    if |args| == 0 then None
    else if args[0].Group? then Some(args[0])
    else FirstGroup(args[1..])
  }

  /** The label a node defines: the first group of `\label`, or the group that
      follows a `label=` text; empty otherwise. */
  function LabelOf(node: TexNode, next: Option<TexNode>, stringify: seq<TexNode> -> string): (r: string)
    ensures r != "" ==> node.Command? || node.TextString?
  {
    match node
    case Command(name, args, _) =>
      if name == "label" then
        match FirstGroup(args)
        case None => ""
        case Some(g) => stringify(g.content)
      else ""
    case TextString(text, _) =>
      if text == "label=" && next.Some? && next.value.Group? then stringify(next.value.content) else ""
    case _ => ""
  }

  /** `lines.slice(start.line - 2, end.line + 4).join('\n')` as written: for a
      label on the first line the start index is -1, which counts from the end. */
  function DocumentationAsWritten(lines: seq<string>, loc: Location): (r: string)
    ensures loc.startLine >= 2 ==> r == Documentation(lines, loc)
  {
    Join(Slice(lines, loc.startLine - 2, loc.endLine + 4), '\n')
  }

  /** The lines around a definition: from the line before it to four lines
      after its end, clipped to the document. */
  function DocumentationWindow(lines: seq<string>, loc: Location): (r: seq<string>)
    ensures loc.startLine <= |lines| && loc.startLine <= loc.endLine ==> lines[loc.startLine - 1] in r
  {
    var w := Slice(lines, if loc.startLine < 2 then 0 else loc.startLine - 2, loc.endLine + 4);
    assert loc.startLine <= |lines| && loc.startLine <= loc.endLine ==>
      w[loc.startLine - 1 - (if loc.startLine < 2 then 0 else loc.startLine - 2)] == lines[loc.startLine - 1];
    w
  }

  /** The documentation the model uses: the window, joined by line breaks. */
  function Documentation(lines: seq<string>, loc: Location): string {
    Join(DocumentationWindow(lines, loc), '\n')
  }

  /** From the second line on, the window is the slice as written. */
  lemma DocumentationAgrees(lines: seq<string>, loc: Location)
    requires loc.startLine >= 2
    ensures Documentation(lines, loc) == DocumentationAsWritten(lines, loc)
  {
  }

  /** A label on the first line of a document of seven lines: the slice as
      written starts at the last line, past its end, and documents nothing;
      the window holds the label's own line. */
  lemma DocumentationFirstLineLost()
    ensures var lines := ["\\label{a}", "b", "c", "d", "e", "f", "g"];
      var loc := Location(1, 1, 1, 10);
      && DocumentationAsWritten(lines, loc) == ""
      && Documentation(lines, loc) == "\\label{a}\nb\nc\nd\ne"
  {
    var lines := ["\\label{a}", "b", "c", "d", "e", "f", "g"];
    var loc := Location(1, 1, 1, 10);
    assert Slice(lines, -1, 5) == [];
    assert DocumentationWindow(lines, loc) == ["\\label{a}", "b", "c", "d", "e"];
  }

  /** The reference a labelled node defines, located where the node starts. */
  function RefAt(name: string, node: TexNode, lines: seq<string>): (r: CachedRef)
    ensures r.name == name && r.position == Some(Pos(node.loc.startLine - 1, node.loc.startColumn))
    ensures r.documentation == Join(DocumentationWindow(lines, node.loc), '\n')
    ensures node.loc.startLine >= 2 ==> r.documentation == DocumentationAsWritten(lines, node.loc)
  {
    CachedRef(name, Documentation(lines, node.loc), Some(Pos(node.loc.startLine - 1, node.loc.startColumn)))
  }

  /** Every group anywhere in the tree, as its stringified content: the only
      places a label can come from. */
  ghost function GroupTexts(nodes: seq<TexNode>, stringify: seq<TexNode> -> string): set<string>
    decreases nodes
  {
    if |nodes| == 0 then {}
    else NodeGroupTexts(nodes[0], stringify) + GroupTexts(nodes[1..], stringify)
  }

  ghost function NodeGroupTexts(node: TexNode, stringify: seq<TexNode> -> string): set<string>
    decreases node
  {
    match node
    case Command(_, args, _) => GroupTexts(args, stringify)
    case Group(content, _) => {stringify(content)} + GroupTexts(content, stringify)
    case Container(content, _) => GroupTexts(content, stringify)
    case _ => {}
  }

  /** `getReferenceFromNode`: a node that defines a label yields that one
      reference and is not looked into; otherwise a node with a content array
      is searched. */
  function RefsOfNode(node: TexNode, next: Option<TexNode>, lines: seq<string>, stringify: seq<TexNode> -> string): (r: seq<CachedRef>)
    decreases node, 1
    ensures forall i :: 0 <= i < |r| ==> r[i].name != "" && r[i].position.Some?
    ensures node.Command? || node.TextString? ==> |r| <= 1
    ensures node.Leaf? ==> r == []
    ensures forall i :: 0 <= i < |r| ==>
      r[i].name in NodeGroupTexts(node, stringify) || (next.Some? && r[i].name in NodeGroupTexts(next.value, stringify))
  {
    var text := LabelOf(node, next, stringify);
    if text != "" && (node.Command? || node.TextString?) then
      LabelFromGroup(node, next, stringify);
      [RefAt(text, node, lines)]
    else if node.Group? || node.Container? then
      var r := RefsOfNodes(node.content, lines, stringify);
      assert node.Group? ==> NodeGroupTexts(node, stringify) == {stringify(node.content)} + GroupTexts(node.content, stringify);
      r
    else []
  }

  /** A label is the text of a group: the command's first group argument, or
      the group after `label=`. */
  lemma LabelFromGroup(node: TexNode, next: Option<TexNode>, stringify: seq<TexNode> -> string)
    requires LabelOf(node, next, stringify) != ""
    ensures LabelOf(node, next, stringify) in NodeGroupTexts(node, stringify)
      || (next.Some? && LabelOf(node, next, stringify) in NodeGroupTexts(next.value, stringify))
  {
    if node.Command? {
      var g := FirstGroup(node.args).value;
      GroupTextsHasGroup(node.args, g, stringify);
    } else {
      assert NodeGroupTexts(next.value, stringify) == {stringify(next.value.content)} + GroupTexts(next.value.content, stringify);
    }
  }

  /** A group of the list contributes its own text. */
  lemma {:induction false} GroupTextsHasGroup(nodes: seq<TexNode>, g: TexNode, stringify: seq<TexNode> -> string)
    requires g in nodes && g.Group?
    decreases |nodes|
    ensures stringify(g.content) in GroupTexts(nodes, stringify)
  {
    if nodes[0] == g {
      assert NodeGroupTexts(g, stringify) == {stringify(g.content)} + GroupTexts(g.content, stringify);
    } else {
      GroupTextsHasGroup(nodes[1..], g, stringify);
    }
  }

  /** `getReferenceFromNodeArray`: each node with the one after it, in order. */
  function RefsOfNodes(nodes: seq<TexNode>, lines: seq<string>, stringify: seq<TexNode> -> string): (r: seq<CachedRef>)
    decreases nodes, 0
    ensures forall i :: 0 <= i < |r| ==> r[i].name != "" && r[i].position.Some?
    ensures forall i :: 0 <= i < |r| ==> r[i].name in GroupTexts(nodes, stringify)
  {
    if |nodes| == 0 then []
    else
      var next := if |nodes| > 1 then Some(nodes[1]) else None;
      var head := RefsOfNode(nodes[0], next, lines, stringify);
      var rest := RefsOfNodes(nodes[1..], lines, stringify);
      assert next.Some? ==> NodeGroupTexts(next.value, stringify) <= GroupTexts(nodes[1..], stringify) by {
        if next.Some? {
          assert GroupTexts(nodes[1..], stringify) == NodeGroupTexts(nodes[1], stringify) + GroupTexts(nodes[2..], stringify);
        }
      }
      assert forall i :: 0 <= i < |rest| ==> (head + rest)[|head| + i] == rest[i];
      head + rest
  }

  /** A command other than `\label` yields nothing, whatever its arguments
      hold: arguments are not content and are never searched. */
  lemma CommandArgsNotSearched(name: string, args: seq<TexNode>, loc: Location, next: Option<TexNode>,
                               lines: seq<string>, stringify: seq<TexNode> -> string)
    requires name != "label"
    ensures RefsOfNode(Command(name, args, loc), next, lines, stringify) == []
  {
  }

  /** A `\label` with a non-empty group yields exactly its reference, and
      nothing nested below it is looked at. */
  lemma LabelCommandYieldsOne(args: seq<TexNode>, loc: Location, next: Option<TexNode>,
                              lines: seq<string>, stringify: seq<TexNode> -> string)
    requires FirstGroup(args).Some? && stringify(FirstGroup(args).value.content) != ""
    ensures var node := Command("label", args, loc);
      RefsOfNode(node, next, lines, stringify)
        == [CachedRef(stringify(FirstGroup(args).value.content), Documentation(lines, loc), Some(Pos(loc.startLine - 1, loc.startColumn)))]
  {
  }
}

=== FILE: seqs.dfy ===
/** Sequence helpers shared by the log interpreter and the completers. */
module Seqs {

  /** `xs.flatMap(f)`: the pieces `f` gives for each element, in order. */
  function ConcatMap<T(!new), U>(f: T -> seq<U>, xs: seq<T>): (r: seq<U>)
    decreases |xs|
    ensures (forall x :: |f(x)| <= 1) ==> |r| <= |xs|
  {
    if |xs| == 0 then [] else f(xs[0]) + ConcatMap(f, xs[1..])
  }

  /** Mapping a concatenation maps each part. */
  lemma {:induction false} ConcatMapAppend<T(!new), U>(f: T -> seq<U>, a: seq<T>, b: seq<T>)
    decreases |a|
    ensures ConcatMap(f, a + b) == ConcatMap(f, a) + ConcatMap(f, b)
  {
    if |a| == 0 {
      assert a + b == b;
    } else {
      assert (a + b)[0] == a[0];
      assert (a + b)[1..] == a[1..] + b;
      ConcatMapAppend(f, a[1..], b);
    }
  }

  /** A property every piece has, the whole has. */
  lemma {:induction false} ConcatMapKeeps<T(!new), U>(f: T -> seq<U>, xs: seq<T>, p: U -> bool)
    requires forall x, k :: 0 <= k < |f(x)| ==> p(f(x)[k])
    decreases |xs|
    ensures forall k :: 0 <= k < |ConcatMap(f, xs)| ==> p(ConcatMap(f, xs)[k])
  {
    if |xs| > 0 {
      ConcatMapKeeps(f, xs[1..], p);
      var h := f(xs[0]);
      var t := ConcatMap(f, xs[1..]);
      assert ConcatMap(f, xs) == h + t;
      forall k | 0 <= k < |h + t| ensures p((h + t)[k]) {
        if k >= |h| {
          assert (h + t)[k] == t[k - |h|];
        }
      }
    }
  }

  /** No element occurs twice. */
  predicate Distinct<T(==,!new)>(xs: seq<T>) {
    forall i, j :: 0 <= i < j < |xs| ==> xs[i] != xs[j]
  }

  /** The push-unless-included loop of the completers: each element of `xs`
      not yet in the list is appended, in order. */
  function AppendNew<T(==,!new)>(acc: seq<T>, xs: seq<T>): (r: seq<T>)
    decreases |xs|
    ensures |acc| <= |r| && r[..|acc|] == acc
    ensures forall y :: y in r <==> y in acc || y in xs
    ensures Distinct(acc) ==> Distinct(r)
  {
    if |xs| == 0 then acc
    else
      var next := if xs[0] in acc then acc else acc + [xs[0]];
      var r := AppendNew(next, xs[1..]);
      assert r[..|acc|] == r[..|next|][..|acc|];
      assert forall y :: y in xs <==> y == xs[0] || y in xs[1..];
      r
  }

  /** The elements of `xs` that are neither in `acc` nor earlier in `xs`, in
      order: the reference definition of what `AppendNew` adds. */
  function Fresh<T(==,!new)>(acc: seq<T>, xs: seq<T>): seq<T>
    decreases |xs|
  {
    if |xs| == 0 then []
    else
      var init := xs[..|xs| - 1];
      var last := xs[|xs| - 1];
      Fresh(acc, init) + (if last in acc || last in init then [] else [last])
  }

  /** Appending one more element. */
  lemma {:induction false} AppendNewSnoc<T(!new)>(acc: seq<T>, xs: seq<T>, x: T)
    decreases |xs|
    ensures AppendNew(acc, xs + [x])
      == var r := AppendNew(acc, xs); if x in r then r else r + [x]
  {
    if |xs| == 0 {
      assert xs + [x] == [x];
    } else {
      var next := if xs[0] in acc then acc else acc + [xs[0]];
      assert (xs + [x])[0] == xs[0];
      assert (xs + [x])[1..] == xs[1..] + [x];
      AppendNewSnoc(next, xs[1..], x);
    }
  }

  /** What the loop appends is exactly the first occurrences of the new elements. */
  lemma {:induction false} AppendNewIsFresh<T(!new)>(acc: seq<T>, xs: seq<T>)
    decreases |xs|
    ensures AppendNew(acc, xs) == acc + Fresh(acc, xs)
  {
    if |xs| == 0 {
      assert acc + [] == acc;
    } else {
      var init := xs[..|xs| - 1];
      var last := xs[|xs| - 1];
      assert xs == init + [last];
      var r := AppendNew(acc, init);
      var f := Fresh(acc, init);
      var tail := if last in acc || last in init then [] else [last];
      assert (last in r) == (last in acc || last in init);
      calc {
        AppendNew(acc, xs);
      == { AppendNewSnoc(acc, init, last); }
        if last in r then r else r + [last];
      ==
        r + tail;
      == { AppendNewIsFresh(acc, init); }
        (acc + f) + tail;
      ==
        acc + (f + tail);
      ==
        acc + Fresh(acc, xs);
      }
    }
  }

  /** The elements of `xs` that `keep` holds, in order: a `filter` by membership. */
  function Retain<T(==,!new)>(xs: seq<T>, keep: seq<T>): (r: seq<T>)
    decreases |xs|
    ensures |r| <= |xs|
    ensures forall y :: y in r <==> y in xs && y in keep
  {
    if |xs| == 0 then []
    else
      var rest := Retain(xs[1..], keep);
      assert forall y :: y in xs <==> y == xs[0] || y in xs[1..];
      (if xs[0] in keep then [xs[0]] else []) + rest
  }

  /** Filtering a concatenation filters each part. */
  lemma {:induction false} RetainAppend<T(!new)>(a: seq<T>, b: seq<T>, keep: seq<T>)
    decreases |a|
    ensures Retain(a + b, keep) == Retain(a, keep) + Retain(b, keep)
  {
    if |a| == 0 {
      assert a + b == b;
    } else {
      assert (a + b)[0] == a[0];
      assert (a + b)[1..] == a[1..] + b;
      RetainAppend(a[1..], b, keep);
    }
  }

  /** Filtering keeps everything when everything is kept. */
  lemma {:induction false} RetainAll<T(!new)>(xs: seq<T>, keep: seq<T>)
    requires forall y :: y in xs ==> y in keep
    decreases |xs|
    ensures Retain(xs, keep) == xs
  {
    if |xs| > 0 {
      assert xs[0] in xs;
      assert forall y :: y in xs[1..] ==> y in xs;
      RetainAll(xs[1..], keep);
      assert [xs[0]] + xs[1..] == xs;
    }
  }

  /** What `Fresh` picks comes from `xs`. */
  lemma {:induction false} FreshFromXs<T(!new)>(acc: seq<T>, xs: seq<T>)
    decreases |xs|
    ensures forall y :: y in Fresh(acc, xs) ==> y in xs
  {
    if |xs| > 0 {
      var init := xs[..|xs| - 1];
      FreshFromXs(acc, init);
      assert forall y :: y in init ==> y in xs;
      assert xs[|xs| - 1] in xs;
    }
  }

  /** What `Fresh` picks is new: listed once, and not already in `acc`. */
  lemma {:induction false} FreshIsNew<T(!new)>(acc: seq<T>, xs: seq<T>)
    decreases |xs|
    ensures Distinct(Fresh(acc, xs))
    ensures forall y :: y in Fresh(acc, xs) ==> y !in acc
  {
    if |xs| > 0 {
      var init := xs[..|xs| - 1];
      var last := xs[|xs| - 1];
      FreshIsNew(acc, init);
      FreshFromXs(acc, init);
      var f := Fresh(acc, init);
      if last !in acc && last !in init {
        assert last !in f;
        assert forall i :: 0 <= i < |f| ==> (f + [last])[i] == f[i];
      } else {
        assert f + [] == f;
      }
    }
  }

  /** Two lists of new elements, each listed once and the second new also with
      respect to the first, make one list of new elements. */
  lemma DistinctNewConcat<T(!new)>(acc: seq<T>, b: seq<T>, c: seq<T>)
    requires Distinct(b) && Distinct(c)
    requires forall y :: y in b ==> y !in acc
    requires forall y :: y in c ==> y !in acc + b
    ensures Distinct(b + c)
    ensures forall y :: y in b + c ==> y !in acc
  {
    forall i, j | 0 <= i < j < |b + c| ensures (b + c)[i] != (b + c)[j] {
      if i < |b| && j >= |b| {
        assert (b + c)[i] in acc + b;
        assert (b + c)[j] == c[j - |b|];
      } else if i >= |b| {
        assert (b + c)[i] == c[i - |b|];
        assert (b + c)[j] == c[j - |b|];
      }
    }
    forall y | y in b + c ensures y !in acc {
      if y in c { assert forall d :: d in acc ==> d in acc + b; }
    }
  }

  /** Two rounds of `AppendNew`: what each round adds, and that together they
      add each element once and none already in `acc`. */
  lemma AppendNewTwice<T(!new)>(acc: seq<T>, xs: seq<T>, ys: seq<T>)
    ensures AppendNew(AppendNew(acc, xs), ys) == acc + (Fresh(acc, xs) + Fresh(acc + Fresh(acc, xs), ys))
    ensures Distinct(Fresh(acc, xs) + Fresh(acc + Fresh(acc, xs), ys))
    ensures forall y :: y in Fresh(acc, xs) + Fresh(acc + Fresh(acc, xs), ys) ==> y !in acc
  {
    var first := Fresh(acc, xs);
    var mid := acc + first;
    var second := Fresh(mid, ys);
    calc {
      AppendNew(AppendNew(acc, xs), ys);
      { AppendNewIsFresh(acc, xs); }
      AppendNew(mid, ys);
      { AppendNewIsFresh(mid, ys); }
      mid + second;
      acc + (first + second);
    }
    FreshIsNew(acc, xs);
    FreshIsNew(mid, ys);
    DistinctNewConcat(acc, first, second);
  }

  /** `AppendNew` from the empty list: first occurrences, in order. */
  function Dedup<T(==,!new)>(xs: seq<T>): (r: seq<T>)
    ensures Distinct(r)
    ensures forall y :: y in r <==> y in xs
  {
    AppendNew([], xs)
  }
}

=== FILE: texsnippets.dfy ===
/** The TeX-snippet helpers behind math hover previews: delimiter stripping,
    comment cutting, the line searches that find an environment's ends, inline
    math under the cursor and the label-to-tag rewriting. */
module TexSnippets {
  import opened Wrappers
  import opened JsString

  // ---------------------------------------------------------------------------
  // Documents and positions
  // ---------------------------------------------------------------------------

  /** A zero-based line and column, as `vscode.Position`. */
  datatype Pos = Pos(line: nat, character: nat)

  datatype Range = Range(start: Pos, end: Pos)

  /** What the finders return: the snippet, where it is, and its environment. */
  datatype TexMathEnv = TexMathEnv(texString: string, range: Range, envname: string)

  /** `a` is not after `b`, in document order. */
  predicate NotAfter(a: Pos, b: Pos) {
    a.line < b.line || (a.line == b.line && a.character <= b.character)
  }

  /** `document.getText(range)` for a document given as its lines, with columns
      clamped to their line as the editor does. */
  function GetText(lines: seq<string>, a: Pos, b: Pos): (r: string)
    requires a.line <= b.line < |lines|
    ensures a.line == b.line && a.character <= b.character <= |lines[a.line]| ==>
      r == lines[a.line][a.character..b.character]
    ensures a.line < b.line ==>
      && StartsWith(r, lines[a.line][Clamp(a.character, |lines[a.line]|)..] + "\n")
      && EndsWith(r, "\n" + lines[b.line][..Clamp(b.character, |lines[b.line]|)])
    ensures a.line < b.line ==>
      r == Join([lines[a.line][Clamp(a.character, |lines[a.line]|)..]] + lines[a.line + 1..b.line]
                + [lines[b.line][..Clamp(b.character, |lines[b.line]|)]], '\n')
  {
    var first := lines[a.line];
    var last := lines[b.line];
    var from := Clamp(a.character, |first|);
    var to := Clamp(b.character, |last|);
    if a.line == b.line then Substring(first, from, to)
    else
      JoinAround(first[from..], lines[a.line + 1..b.line], last[..to], '\n');
      if a.line + 1 == b.line then first[from..] + "\n" + last[..to]
      else first[from..] + "\n" + Join(lines[a.line + 1..b.line], '\n') + "\n" + last[..to]
  }

  // ---------------------------------------------------------------------------
  // stripTeX (components/mathpreview.ts:165-176)
  // ---------------------------------------------------------------------------

  datatype Delimiters = Delimiters(open: string, close: string)

  /** The pairs `stripTeX` tries, in order. */
  const MathDelimiters: seq<Delimiters> :=
    [Delimiters("$$", "$$"), Delimiters("$", "$"), Delimiters("\\(", "\\)"), Delimiters("\\[", "\\]")]

  predicate Encloses(tex: string, d: Delimiters) {
    StartsWith(tex, d.open) && EndsWith(tex, d.close)
  }

  /** `tex.slice(|open|, tex.length - |close|)`. */
  function Unwrap(tex: string, d: Delimiters): (r: string)
    requires Encloses(tex, d) && |d.open| > 0
    ensures |r| < |tex|
    ensures exists a, b :: 0 <= a <= b <= |tex| && r == tex[a..b]
  {
    var r := Slice(tex, |d.open|, |tex| - |d.close|);
    if |d.open| < |tex| - |d.close| then
      assert r == tex[|d.open|..|tex| - |d.close|];
      r
    else
      assert r == tex[0..0];
      r
  }

  /** The first pair, in `stripTeX`'s order, that encloses the text. */
  function FirstEnclosing(tex: string): (r: Option<nat>)
    ensures r.Some? ==> r.value < |MathDelimiters| && Encloses(tex, MathDelimiters[r.value])
    ensures r.None? <==> forall i :: 0 <= i < |MathDelimiters| ==> !Encloses(tex, MathDelimiters[i])
  {
    if Encloses(tex, MathDelimiters[0]) then Some(0)
    else if Encloses(tex, MathDelimiters[1]) then Some(1)
    else if Encloses(tex, MathDelimiters[2]) then Some(2)
    else if Encloses(tex, MathDelimiters[3]) then Some(3)
    else None
  }

  /** `stripTeX`: removes the first enclosing pair of `$$`, `$`, `\(`, `\[`
      and nothing else; leaves the text alone when none encloses it. */
  function StripTeX(tex: string): (r: string)
    ensures exists a, b :: 0 <= a <= b <= |tex| && r == tex[a..b]
    ensures r == tex <==> forall i :: 0 <= i < |MathDelimiters| ==> !Encloses(tex, MathDelimiters[i])
  {
    match FirstEnclosing(tex)
    case Some(i) => Unwrap(tex, MathDelimiters[i])
    case None =>
      assert tex == tex[0..|tex|];
      tex
  }

  /** Display math loses exactly its `$$` pair, whatever it holds. */
  lemma StripDisplayMath(body: string)
    ensures StripTeX("$$" + body + "$$") == body
  {
    var t := "$$" + body + "$$";
    assert t[..2] == "$$" && t[|t| - 2..] == "$$";
    assert t[2..|t| - 2] == body;
  }

  /** Inline math loses its `$` pair, unless the body itself starts and ends
      with `$`: then the text reads as display math and two are cut. */
  lemma StripInlineMath(body: string)
    requires body == "" || !(StartsWith(body, "$") && EndsWith(body, "$"))
    ensures StripTeX("$" + body + "$") == body
  {
    var t := "$" + body + "$";
    if body == "" {
      assert t == "$$";
      assert Encloses(t, MathDelimiters[0]);
      assert StripTeX(t) == Unwrap(t, MathDelimiters[0]);
    } else {
      InlineIsNotDisplay(body);
      assert t[..1] == "$" && t[|t| - 1..] == "$";
      assert FirstEnclosing(t) == Some(1);
      assert Unwrap(t, MathDelimiters[1]) == t[1..|t| - 1];
      assert t[1..|t| - 1] == body;
    }
  }

  /** A body that does not both start and end with `$` does not make `$…$`
      read as display math. */
  lemma InlineIsNotDisplay(body: string)
    requires body != "" && !(StartsWith(body, "$") && EndsWith(body, "$"))
    ensures !Encloses("$" + body + "$", MathDelimiters[0])
  {
    var t := "$" + body + "$";
    assert t[1] == body[0] && t[|t| - 2] == body[|body| - 1];
    assert StartsWith(t, "$$") ==> t[..2][1] == '$';
    assert EndsWith(t, "$$") ==> t[|t| - 2..][0] == '$';
    assert body[0] == '$' ==> StartsWith(body, "$") by {
      if body[0] == '$' { assert body[..1] == "$"; }
    }
    assert body[|body| - 1] == '$' ==> EndsWith(body, "$") by {
      if body[|body| - 1] == '$' { assert body[|body| - 1..] == "$"; }
    }
  }

  /** The overlapping case: a lone `$` both opens and closes, leaving nothing. */
  lemma StripLoneDollar()
    ensures StripTeX("$") == ""
  {
    assert Encloses("$", MathDelimiters[1]);
  }

  /** `\(…\)` loses its pair. */
  lemma StripParenMath(body: string)
    ensures StripTeX("\\(" + body + "\\)") == body
  {
    var t := "\\(" + body + "\\)";
    assert t[0] == '\\' && t[1] == '(';
    assert !Encloses(t, MathDelimiters[0]) && !Encloses(t, MathDelimiters[1]);
    assert t[..2] == "\\(" && t[|t| - 2..] == "\\)";
    assert t[2..|t| - 2] == body;
  }

  /** `\[…\]` loses its pair. */
  lemma StripBracketMath(body: string)
    ensures StripTeX("\\[" + body + "\\]") == body
  {
    var t := "\\[" + body + "\\]";
    assert t[0] == '\\' && t[1] == '[';
    assert !Encloses(t, MathDelimiters[0]) && !Encloses(t, MathDelimiters[1]) && !Encloses(t, MathDelimiters[2]);
    assert t[..2] == "\\[" && t[|t| - 2..] == "\\]";
    assert t[2..|t| - 2] == body;
  }

  // ---------------------------------------------------------------------------
  // removeComment (components/mathpreview.ts:346-348)
  // ---------------------------------------------------------------------------

  /** A backslash with a character after it: the pair `\\.` consumes. */
  predicate EscapeAt(s: string, p: nat) {
    p + 1 < |s| && s[p] == '\\'
  }

  /** Where the scan `(?:\\.|[^%])*` starting at `p` stops: at the first `%`
      that no backslash escapes, or at the end. */
  function CommentCut(s: string, p: nat): (c: nat)
    requires p <= |s|
    decreases |s| - p
    ensures p <= c <= |s|
    ensures c == |s| || s[c] == '%'
  {
    if p == |s| then p
    else if EscapeAt(s, p) then CommentCut(s, p + 2)
    else if s[p] == '%' then p
    else CommentCut(s, p + 1)
  }

  /** The number of backslashes directly before position `q`. */
  function BackslashRun(s: string, q: nat): (n: nat)
    requires q <= |s|
    ensures n <= q
  {
    if q > 0 && s[q - 1] == '\\' then 1 + BackslashRun(s, q - 1) else 0
  }

  /** Every position the scan reaches is preceded by an even run of
      backslashes, since `\\.` consumes them in pairs; so the scan stops at
      the first `%` after an even run, and every `%` it passes over follows
      an odd run. */
  lemma {:induction false} CommentCutParity(s: string, p: nat)
    requires p <= |s| && (p < |s| ==> BackslashRun(s, p) % 2 == 0)
    decreases |s| - p
    ensures var c := CommentCut(s, p);
      && (c == |s| || BackslashRun(s, c) % 2 == 0)
      && forall q :: p <= q < c && s[q] == '%' ==> BackslashRun(s, q) % 2 == 1
  {
    if p == |s| {
    } else if EscapeAt(s, p) {
      assert BackslashRun(s, p + 1) == 1 + BackslashRun(s, p);
      if p + 2 < |s| {
        assert BackslashRun(s, p + 2) == if s[p + 1] == '\\' then 1 + BackslashRun(s, p + 1) else 0;
      }
      CommentCutParity(s, p + 2);
    } else if s[p] == '%' {
    } else {
      if p + 1 < |s| {
        assert s[p] != '\\';
        assert BackslashRun(s, p + 1) == 0;
      }
      CommentCutParity(s, p + 1);
    }
  }

  /** `removeComment`: the line up to its first `%` that follows an even run
      of backslashes (none, or whole pairs); every `%` kept follows an odd
      run, that is, is escaped. */
  function RemoveComment(line: string): (r: string)
    ensures |r| <= |line| && r == line[..|r|]
    ensures |r| == |line| || (line[|r|] == '%' && BackslashRun(line, |r|) % 2 == 0)
    ensures forall q :: 0 <= q < |r| && line[q] == '%' ==> BackslashRun(line, q) % 2 == 1
  {
    CommentCutParity(line, 0);
    line[..CommentCut(line, 0)]
  }

  /** A `%` after two backslashes is not escaped: the pair is one escaped
      backslash, so `a`, two backslashes, `%b` is cut before its `%`. */
  lemma RemoveCommentDoubleBackslash()
    ensures RemoveComment("a\\\\%b") == "a\\\\"
  {
    var s := "a\\\\%b";
    assert BackslashRun(s, 3) == 2;
    assert CommentCut(s, 0) == 3;
  }

  /** Cutting at the stop point and scanning again stops at the end. */
  lemma {:induction false} CommentCutPrefix(s: string, p: nat)
    requires p <= |s|
    decreases |s| - p
    ensures p <= CommentCut(s, p) && CommentCut(s[..CommentCut(s, p)], p) == CommentCut(s, p)
  {
    var c := CommentCut(s, p);
    var t := s[..c];
    if p == |s| {
      assert t == s;
    } else if EscapeAt(s, p) {
      CommentCutPrefix(s, p + 2);
      assert EscapeAt(t, p);
    } else if s[p] == '%' {
    } else {
      CommentCutPrefix(s, p + 1);
      assert !EscapeAt(t, p) && t[p] != '%';
    }
  }

  /** Removing comments twice is removing them once. */
  lemma RemoveCommentIdempotent(line: string)
    ensures RemoveComment(RemoveComment(line)) == RemoveComment(line)
  {
    CommentCutPrefix(line, 0);
  }

  /** A line without `%` has no comment. */
  lemma {:induction false} NoPercentNoComment(s: string, p: nat)
    requires p <= |s| && '%' !in s
    decreases |s| - p
    ensures CommentCut(s, p) == |s|
  {
    if p < |s| {
      if EscapeAt(s, p) {
        NoPercentNoComment(s, p + 2);
      } else {
        NoPercentNoComment(s, p + 1);
      }
    }
  }

  /** An escaped `%` is kept; the first bare one starts the comment. */
  lemma RemoveCommentExample()
    ensures RemoveComment("a\\%b%c") == "a\\%b"
  {
    var s := "a\\%b%c";
    assert EscapeAt(s, 1) && !EscapeAt(s, 0) && !EscapeAt(s, 3) && !EscapeAt(s, 4);
    assert CommentCut(s, 4) == 4;
    assert CommentCut(s, 3) == 4;
    assert CommentCut(s, 1) == 4;
    assert CommentCut(s, 0) == 4;
  }

  // ---------------------------------------------------------------------------
  // Matching a line against a pattern
  // ---------------------------------------------------------------------------

  /** `m.index` and `m[0].length` of a match. */
  datatype Match = Match(index: nat, length: nat)

  /** A regular expression, seen only through `String.prototype.match`. */
  type Matcher = string -> Option<Match>

  /** The pattern matches the comment-free line `n` at column `col`. */
  predicate MatchStartsAt(lines: seq<string>, pat: Matcher, n: nat, col: nat) {
    n < |lines| && pat(RemoveComment(lines[n])).Some? && pat(RemoveComment(lines[n])).value.index == col
  }

  predicate NoMatchOn(lines: seq<string>, pat: Matcher, n: nat)
    requires n < |lines|
  {
    pat(RemoveComment(lines[n])).None?
  }

  /** A literal, such as `\end{align}` after `escapeRegExp`: its first occurrence. */
  function LiteralMatcher(lit: string): (m: Matcher)
    ensures forall s :: m(s).Some? ==> m(s).value.length == |lit| && OccursAt(s, lit, m(s).value.index)
  {
    (s: string) => match FindLiteral(s, lit) case Some(i) => Some(Match(i, |lit|)) case None => None
  }

  // ---------------------------------------------------------------------------
  // findBeginPair (components/mathpreview.ts:375-395)
  // ---------------------------------------------------------------------------

  /** The loop: line `n` and the ones above it, at most `budget` of them. */
  function SearchBack(lines: seq<string>, pat: Matcher, n: int, budget: int): (r: Option<Pos>)
    requires n < |lines|
    decreases if n < 0 then 0 else n + 1
    ensures r.Some? ==> n - budget < r.value.line <= n && MatchStartsAt(lines, pat, r.value.line, r.value.character)
    ensures r.Some? ==> forall k :: r.value.line < k <= n ==> NoMatchOn(lines, pat, k)
    ensures r.None? ==> forall k :: 0 <= k <= n && n - budget < k ==> NoMatchOn(lines, pat, k)
  {
    if n < 0 || budget <= 0 then None
    else
      match pat(RemoveComment(lines[n]))
      case Some(m) => Some(Pos(n, m.index))
      case None => SearchBack(lines, pat, n - 1, budget - 1)
  }

  /** `findBeginPair`: first the current line before the column, then at most
      `limit` lines above it, nearest first. */
  function FindBeginPair(lines: seq<string>, pat: Matcher, endPos: Pos, limit: int): (r: Option<Pos>)
    requires endPos.line < |lines|
    ensures r.Some? ==> r.value.line <= endPos.line
    ensures r.Some? && r.value.line < endPos.line ==> endPos.line - limit <= r.value.line
    ensures var head := pat(RemoveComment(Substring(lines[endPos.line], 0, endPos.character)));
      && (head.Some? ==> r == Some(Pos(endPos.line, head.value.index)))
      && (head.None? && r.Some? ==>
            && r.value.line < endPos.line && MatchStartsAt(lines, pat, r.value.line, r.value.character)
            && forall k :: r.value.line < k < endPos.line ==> NoMatchOn(lines, pat, k))
      && (r.None? ==> head.None? && forall k :: endPos.line - limit <= k < endPos.line && 0 <= k ==> NoMatchOn(lines, pat, k))
  {
    match pat(RemoveComment(Substring(lines[endPos.line], 0, endPos.character)))
    case Some(m) => Some(Pos(endPos.line, m.index))
    case None => SearchBack(lines, pat, endPos.line - 1, limit)
  }

  /** The default window of `findBeginPair`. */
  const BeginSearchLimit := 20

  // ---------------------------------------------------------------------------
  // findEndPair (components/mathpreview.ts:353-370)
  // ---------------------------------------------------------------------------

  /** Where the loop below line `n` ends up. */
  function SearchForward(lines: seq<string>, pat: Matcher, n: nat): (r: Option<Pos>)
    decreases |lines| - n
    ensures r.Some? ==> n <= r.value.line < |lines|
    ensures r.Some? ==> var m := pat(RemoveComment(lines[r.value.line]));
      m.Some? && r.value.character == m.value.index + m.value.length
    ensures r.Some? ==> forall k :: n <= k < r.value.line ==> NoMatchOn(lines, pat, k)
    ensures r.None? ==> forall k :: n <= k < |lines| ==> NoMatchOn(lines, pat, k)
  {
    if n >= |lines| then None
    else
      match pat(RemoveComment(lines[n]))
      case Some(m) => Some(Pos(n, m.index + m.length))
      case None => SearchForward(lines, pat, n + 1)
  }

  /** The comment-free rest of the start line, from the start column. */
  function TailFrom(lines: seq<string>, start: Pos): (r: string)
    requires start.line < |lines|
    ensures |r| <= |lines[start.line]|
  {
    RemoveComment(Substring(lines[start.line], start.character, |lines[start.line]|))
  }

  /** `findEndPair` with the loop stopping at the last line: the end of the
      first match, on the start line (offset by the start column) or below. */
  function FindEndPair(lines: seq<string>, pat: Matcher, start: Pos): (r: Option<Pos>)
    requires start.line < |lines|
    ensures var head := pat(TailFrom(lines, start));
      && (head.Some? ==> r == Some(Pos(start.line, start.character + head.value.index + head.value.length)))
      && (head.None? ==> r == SearchForward(lines, pat, start.line + 1))
    ensures r.Some? ==> start.line <= r.value.line < |lines|
    ensures r.None? ==> forall k :: start.line < k < |lines| ==> NoMatchOn(lines, pat, k)
  {
    match pat(TailFrom(lines, start))
    case Some(m) => Some(Pos(start.line, start.character + m.index + m.length))
    case None => SearchForward(lines, pat, start.line + 1)
  }

  /** What `findEndPair` as written can do: find, give up, or fail reading a
      line past the end of the document. */
  datatype EndSearch = Found(pos: Pos) | NotFound | Throws

  /** The loop as written, `while (lineNum <= document.lineCount)`: at
      `lineNum == lineCount` it asks for a line that does not exist. */
  function SearchForwardAsWritten(lines: seq<string>, pat: Matcher, n: nat): (r: EndSearch)
    decreases |lines| + 1 - n
    ensures n <= |lines| ==> !r.NotFound?
    ensures r.Found? ==> n <= r.pos.line < |lines|
    ensures r.Throws? ==> n <= |lines|
  {
    if n > |lines| then NotFound
    else if n == |lines| then Throws
    else
      match pat(RemoveComment(lines[n]))
      case Some(m) => Found(Pos(n, m.index + m.length))
      case None => SearchForwardAsWritten(lines, pat, n + 1)
  }

  function FindEndPairAsWritten(lines: seq<string>, pat: Matcher, start: Pos): (r: EndSearch)
    requires start.line < |lines|
    ensures !r.NotFound?
    ensures r.Found? ==> start.line <= r.pos.line < |lines|
  {
    match pat(TailFrom(lines, start))
    case Some(m) => Found(Pos(start.line, start.character + m.index + m.length))
    case None => SearchForwardAsWritten(lines, pat, start.line + 1)
  }

  lemma {:induction false} SearchForwardAgrees(lines: seq<string>, pat: Matcher, n: nat)
    requires n <= |lines|
    decreases |lines| - n
    ensures var w := SearchForwardAsWritten(lines, pat, n);
      && (SearchForward(lines, pat, n).Some? <==> w.Found?)
      && (w.Found? ==> SearchForward(lines, pat, n) == Some(w.pos))
      && (SearchForward(lines, pat, n).None? <==> w.Throws?)
  {
    if n < |lines| && pat(RemoveComment(lines[n])).None? {
      SearchForwardAgrees(lines, pat, n + 1);
    }
  }

  /** As written, a missing end never yields `undefined`: it throws. Otherwise
      the two versions agree. */
  lemma FindEndPairAsWrittenThrows(lines: seq<string>, pat: Matcher, start: Pos)
    requires start.line < |lines|
    ensures var w := FindEndPairAsWritten(lines, pat, start);
      && !w.NotFound?
      && (w.Throws? <==> FindEndPair(lines, pat, start).None?)
      && (w.Found? ==> FindEndPair(lines, pat, start) == Some(w.pos))
  {
    if pat(TailFrom(lines, start)).None? {
      SearchForwardAgrees(lines, pat, start.line + 1);
    }
  }

  /** The smallest witness: one line, no end marker anywhere. */
  lemma FindEndPairThrowsOnMissingEnd()
    ensures FindEndPairAsWritten(["x"], LiteralMatcher("\\]"), Pos(0, 0)) == Throws
  {
    var pat := LiteralMatcher("\\]");
    assert TailFrom(["x"], Pos(0, 0)) == "x" by {
      assert RemoveComment("x") == "x" by { NoPercentNoComment("x", 0); }
    }
    assert pat("x").None?;
  }

  // ---------------------------------------------------------------------------
  // findMathEnvFromBeginEnvname (components/mathpreview.ts:400-409)
  // ---------------------------------------------------------------------------

  /** `'\\begin{}'`: its length is what the end search skips besides the name. */
  const BeginBraces := "\\begin{}"

  function EndMarker(envname: string): string {
    "\\end{" + envname + "}"
  }

  /** The environment opened at `startPos`: from there to the end of its
      `\end{envname}`, the search for which starts just after `\begin{envname}`. */
  function FindMathEnvFromBeginEnvname(lines: seq<string>, envname: string, startPos: Pos): (r: Option<TexMathEnv>)
    requires startPos.line < |lines|
    ensures r.Some? ==> r.value.envname == envname && r.value.range.start == startPos
    ensures r.Some? ==> EndsWith(r.value.texString, EndMarker(envname))
    ensures r.Some? ==> var e := r.value.range.end;
      e.line > startPos.line || e.character >= startPos.character + |envname| + |BeginBraces| + |EndMarker(envname)|
    ensures r.None? <==> FindEndPair(lines, LiteralMatcher(EndMarker(envname)),
                                      Pos(startPos.line, startPos.character + |envname| + |BeginBraces|)).None?
    ensures r.Some? ==>
      && FindEndPair(lines, LiteralMatcher(EndMarker(envname)),
                     Pos(startPos.line, startPos.character + |envname| + |BeginBraces|)) == Some(r.value.range.end)
      && startPos.line <= r.value.range.end.line < |lines|
      && r.value.texString == GetText(lines, startPos, r.value.range.end)
  {
    var lit := EndMarker(envname);
    var from := Pos(startPos.line, startPos.character + |envname| + |BeginBraces|);
    match FindEndPair(lines, LiteralMatcher(lit), from)
    case None => None
    case Some(e) =>
      EndMarkerClosesText(lines, lit, startPos, from, e);
      Some(TexMathEnv(GetText(lines, startPos, e), Range(startPos, e), envname))
  }

  /** A literal found in the comment-free rest of a line, from column `c`,
      stands in the line itself. */
  lemma LiteralInTail(line: string, lit: string, c: nat, i: nat)
    requires |lit| > 0
    requires OccursAt(RemoveComment(Substring(line, c, |line|)), lit, i)
    ensures c + i + |lit| <= |line| && line[c + i..c + i + |lit|] == lit
  {
    var s := Substring(line, c, |line|);
    var t := RemoveComment(s);
    assert 0 < |t| <= |s|;
    assert c < |line|;
    assert s == line[c..];
    assert t[i..i + |lit|] == s[i..i + |lit|];
  }

  /** A text that ends with `lit` still does after something is put before it. */
  lemma EndsWithAfter(x: string, y: string, lit: string)
    requires EndsWith(y, lit)
    ensures EndsWith(x + y, lit)
  {
    assert (x + y)[|x + y| - |lit|..] == y[|y| - |lit|..];
  }

  /** The end found on the start line: the text from the start column to it
      ends with the literal. */
  lemma EndOnStartLine(lines: seq<string>, lit: string, startPos: Pos, from: Pos, e: Pos)
    requires startPos.line == from.line < |lines| && startPos.character <= from.character && |lit| > 0
    requires LiteralMatcher(lit)(TailFrom(lines, from)).Some?
    requires FindEndPair(lines, LiteralMatcher(lit), from) == Some(e)
    ensures e.line == startPos.line && e.character >= from.character + |lit|
    ensures EndsWith(GetText(lines, startPos, e), lit)
  {
    var line := lines[from.line];
    var i := LiteralMatcher(lit)(TailFrom(lines, from)).value.index;
    LiteralInTail(line, lit, from.character, i);
    var text := GetText(lines, startPos, e);
    assert text == line[startPos.character..e.character];
  }

  /** The line up to the end of a literal's match in its comment-free part
      ends with the literal. */
  lemma LiteralEndsPrefix(line: string, lit: string)
    requires LiteralMatcher(lit)(RemoveComment(line)).Some?
    ensures var m := LiteralMatcher(lit)(RemoveComment(line)).value;
      && m.index + m.length <= |line| && EndsWith(line[..m.index + m.length], lit)
  {
    var t := RemoveComment(line);
    var m := LiteralMatcher(lit)(t).value;
    assert OccursAt(t, lit, m.index);
    var c := m.index + |lit|;
    assert line[..c][c - |lit|..] == t[m.index..c];
  }

  /** The end found on a later line: the text ends with that line's prefix
      up to the end of the match, which ends with the literal. */
  lemma EndOnLaterLine(lines: seq<string>, lit: string, startPos: Pos, from: Pos, e: Pos)
    requires startPos.line == from.line < |lines| && |lit| > 0
    requires LiteralMatcher(lit)(TailFrom(lines, from)).None?
    requires FindEndPair(lines, LiteralMatcher(lit), from) == Some(e)
    ensures startPos.line < e.line < |lines|
    ensures EndsWith(GetText(lines, startPos, e), lit)
  {
    var line := lines[e.line];
    assert SearchForward(lines, LiteralMatcher(lit), from.line + 1) == Some(e);
    LiteralEndsPrefix(line, lit);
    var last := line[..e.character];
    var first := lines[startPos.line][Clamp(startPos.character, |lines[startPos.line]|)..];
    if startPos.line + 1 == e.line {
      EndsWithAfter(first + "\n", last, lit);
    } else {
      EndsWithAfter(first + "\n" + Join(lines[startPos.line + 1..e.line], '\n') + "\n", last, lit);
    }
  }

  /** The text up to a literal's match ends with that literal. */
  lemma EndMarkerClosesText(lines: seq<string>, lit: string, startPos: Pos, from: Pos, e: Pos)
    requires startPos.line == from.line < |lines| && startPos.character <= from.character && |lit| > 0
    requires FindEndPair(lines, LiteralMatcher(lit), from) == Some(e)
    ensures startPos.line <= e.line < |lines|
    ensures e.line > startPos.line || e.character >= from.character + |lit|
    ensures EndsWith(GetText(lines, startPos, e), lit)
  {
    if LiteralMatcher(lit)(TailFrom(lines, from)).Some? {
      EndOnStartLine(lines, lit, startPos, from, e);
    } else {
      EndOnLaterLine(lines, lit, startPos, from, e);
    }
  }

  // ---------------------------------------------------------------------------
  // findInlineMath (components/mathpreview.ts:425-448)
  // ---------------------------------------------------------------------------

  /** What the inline-math pattern guarantees: a match lies inside the text and
      is never empty (it has at least its two delimiters). */
  ghost predicate Sound(pat: Matcher) {
    forall s :: pat(s).Some? ==> pat(s).value.length > 0 && pat(s).value.index + pat(s).value.length <= |s|
  }

  /** The loop from `base`: the first match of the rest of the line whose
      closed span contains column `ch`, as absolute columns. */
  function InlineFrom(line: string, ch: int, pat: Matcher, base: nat): (r: Option<(nat, nat)>)
    requires base <= |line| && Sound(pat)
    decreases |line| - base
    ensures r.Some? ==> base <= r.value.0 <= ch <= r.value.1 <= |line|
  {
    match pat(line[base..])
    case None => None
    case Some(m) =>
      var start := base + m.index;
      var end := start + m.length;
      if start <= ch <= end then Some((start, end))
      else InlineFrom(line, ch, pat, end)
  }

  /** The spans the loop visits from `base` when no span holds the cursor:
      each match of the rest of the line, the next search starting where it
      ends. They do not depend on the cursor. */
  function Spans(line: string, pat: Matcher, base: nat): (sp: seq<(nat, nat)>)
    requires base <= |line| && Sound(pat)
    decreases |line| - base
    ensures forall k :: 0 <= k < |sp| ==> base <= sp[k].0 < sp[k].1 <= |line|
    ensures forall k :: 0 <= k < |sp| - 1 ==> sp[k].1 <= sp[k + 1].0
  {
    match pat(line[base..])
    case None => []
    case Some(m) =>
      var start := base + m.index;
      var end := start + m.length;
      var rest := Spans(line, pat, end);
      assert forall k :: 0 < k < |[(start, end)] + rest| ==> ([(start, end)] + rest)[k] == rest[k - 1];
      [(start, end)] + rest
  }

  predicate Covers(span: (nat, nat), ch: int) {
    span.0 <= ch <= span.1
  }

  /** Index of the first span covering `ch`. */
  function FirstCovering(sp: seq<(nat, nat)>, ch: int): (r: Option<nat>)
    ensures r.Some? ==> r.value < |sp| && Covers(sp[r.value], ch)
    ensures r.Some? ==> forall j :: 0 <= j < r.value ==> !Covers(sp[j], ch)
    ensures r.None? <==> forall k :: 0 <= k < |sp| ==> !Covers(sp[k], ch)
  {
    if |sp| == 0 then None
    else if Covers(sp[0], ch) then Some(0)
    else
      match FirstCovering(sp[1..], ch)
      case None =>
        assert forall k :: 1 <= k < |sp| ==> sp[k] == sp[1..][k - 1];
        None
      case Some(i) => Some(i + 1)
  }

  /** The loop returns the first visited span that covers the cursor's
      column, and nothing exactly when no span covers it. */
  lemma {:induction false} InlineFromFirstCovering(line: string, ch: int, pat: Matcher, base: nat)
    requires base <= |line| && Sound(pat)
    decreases |line| - base
    ensures var sp := Spans(line, pat, base); var f := FirstCovering(sp, ch);
      InlineFrom(line, ch, pat, base) == if f.Some? then Some(sp[f.value]) else None
  {
    match pat(line[base..])
    case None =>
    case Some(m) =>
      var start := base + m.index;
      var end := start + m.length;
      var rest := Spans(line, pat, end);
      var sp := [(start, end)] + rest;
      assert sp == Spans(line, pat, base);
      assert sp[1..] == rest;
      if !Covers((start, end), ch) {
        InlineFromFirstCovering(line, ch, pat, end);
      }
  }

  /** `findInlineMath`: the span on the cursor's line, tagged `$`. */
  function FindInlineMath(lines: seq<string>, pos: Pos, pat: Matcher): (r: Option<TexMathEnv>)
    requires pos.line < |lines| && Sound(pat)
    ensures r.Some? ==> var rg := r.value.range;
      && rg.start.line == pos.line && rg.end.line == pos.line
      && rg.start.character <= pos.character <= rg.end.character <= |lines[pos.line]|
      && r.value.texString == lines[pos.line][rg.start.character..rg.end.character]
      && r.value.envname == "$"
    ensures var sp := Spans(lines[pos.line], pat, 0);
      && (r.None? <==> forall k :: 0 <= k < |sp| ==> !Covers(sp[k], pos.character))
      && (r.Some? ==> FirstCovering(sp, pos.character).Some?
                      && sp[FirstCovering(sp, pos.character).value] == (r.value.range.start.character, r.value.range.end.character))
  {
    var line := lines[pos.line];
    InlineFromFirstCovering(line, pos.character, pat, 0);
    match InlineFrom(line, pos.character, pat, 0)
    case None => None
    case Some((a, b)) =>
      var rg := Range(Pos(pos.line, a), Pos(pos.line, b));
      Some(TexMathEnv(GetText(lines, rg.start, rg.end), rg, "$"))
  }

  // ---------------------------------------------------------------------------
  // getFirstRmemberedSubstring (components/mathpreview.ts:338-344) on the
  // environment pattern of findMathEnvOnBeginEnvname (line 278)
  // ---------------------------------------------------------------------------

  const NeverReturnHere := "never return here"

  /** Capture group 1 when it is a non-empty string, else the fallback. */
  function FirstRemembered(group: Option<string>): (r: string)
    ensures r != ""
    ensures r == NeverReturnHere || (group.Some? && r == group.value)
    ensures group.Some? && group.value != "" ==> r == group.value
  {
    if group.Some? && group.value != "" then group.value else NeverReturnHere
  }

  /** The alternatives of `\\begin\{(…)\}`, in the pattern's order. */
  const MathEnvNames: seq<string> := [
    "align", "align*", "alignat", "alignat*", "aligned", "alignedat", "array",
    "Bmatrix", "bmatrix", "cases", "CD", "eqnarray", "eqnarray*", "equation",
    "equation*", "gather", "gather*", "gathered", "matrix", "multline",
    "multline*", "pmatrix", "smallmatrix", "split", "subarray", "Vmatrix", "vmatrix"]

  function BeginTag(name: string): string {
    "\\begin{" + name + "}"
  }

  lemma EnvNamesUnbraced()
    ensures forall k :: 0 <= k < |MathEnvNames| ==> |MathEnvNames[k]| > 0 && '}' !in MathEnvNames[k]
  {
  }

  /** The alternative that matches at `i`, trying them in order. */
  function EnvAlternative(s: string, i: nat): (r: Option<nat>)
    ensures r.Some? ==> r.value < |MathEnvNames| && OccursAt(s, BeginTag(MathEnvNames[r.value]), i)
    ensures r.None? ==> forall k :: 0 <= k < |MathEnvNames| ==> !OccursAt(s, BeginTag(MathEnvNames[k]), i)
  {
    var p := (k: nat) => k < |MathEnvNames| && OccursAt(s, BeginTag(MathEnvNames[k]), i);
    assert forall k: nat :: p(k) == (k < |MathEnvNames| && OccursAt(s, BeginTag(MathEnvNames[k]), i));
    FirstWhere(0, |MathEnvNames|, p)
  }

  /** The leftmost position where some alternative matches. */
  function EnvBeginStart(s: string): (r: Option<nat>)
    ensures r.Some? ==> r.value <= |s| && EnvAlternative(s, r.value).Some?
  {
    var p := (i: nat) => i <= |s| && EnvAlternative(s, i).Some?;
    FirstWhere(0, |s| + 1, p)
  }

  /** Group 1 of the environment pattern, if it matches. */
  function EnvCapture(s: string): Option<string> {
    match EnvBeginStart(s)
    case None => None
    case Some(i) => Some(MathEnvNames[EnvAlternative(s, i).value])
  }

  /** The name of the environment a `\begin{…}` text opens. */
  function BeginEnvName(s: string): (r: string)
    ensures r == NeverReturnHere || r in MathEnvNames
  {
    FirstRemembered(EnvCapture(s))
  }

  /** A tag written at `i`: its name, its brace, then the rest of the text. */
  lemma BeginTagAt(s: string, i: nat, a: string)
    requires OccursAt(s, BeginTag(a), i)
    ensures i + 8 + |a| <= |s| && s[i + 7..] == a + ("}" + s[i + 8 + |a|..])
  {
    var t := BeginTag(a);
    assert s[i..i + |t|] == t;
    assert t[7..] == a + "}";
    assert s[i + 7..i + |t|] == t[7..];
    assert s[i + 7..] == s[i + 7..i + |t|] + s[i + |t|..];
  }

  /** Two `\begin{…}` tags at one place name one environment. */
  lemma BeginTagUnique(s: string, i: nat, a: string, b: string)
    requires '}' !in a && '}' !in b
    requires OccursAt(s, BeginTag(a), i) && OccursAt(s, BeginTag(b), i)
    ensures a == b
  {
    BeginTagAt(s, i, a);
    BeginTagAt(s, i, b);
    PieceBeforeSeparator(s[i + 7..], a, s[i + 8 + |a|..], b, s[i + 8 + |b|..], '}');
  }

  /** The piece before the first separator is determined by the text. */
  lemma PieceBeforeSeparator(x: string, a: string, ra: string, b: string, rb: string, sep: char)
    requires sep !in a && sep !in b
    requires x == a + ([sep] + ra) && x == b + ([sep] + rb)
    ensures a == b
  {
    assert a + ([sep] + ra) == a + [sep] + ra;
    assert b + ([sep] + rb) == b + [sep] + rb;
    IndexOfAfterPiece(a, ra, sep);
    IndexOfAfterPiece(b, rb, sep);
    assert a == x[..|a|];
    assert b == x[..|b|];
  }

  /** Reading back the name of a tag that was written: the round trip. */
  lemma BeginEnvNameRoundTrip(name: string)
    requires name in MathEnvNames
    ensures BeginEnvName(BeginTag(name)) == name
  {
    var s := BeginTag(name);
    EnvNamesUnbraced();
    var k :| 0 <= k < |MathEnvNames| && MathEnvNames[k] == name;
    assert OccursAt(s, BeginTag(MathEnvNames[k]), 0);
    assert EnvAlternative(s, 0).Some?;
    var i := EnvBeginStart(s).value;
    assert i == 0;
    BeginTagUnique(s, 0, MathEnvNames[EnvAlternative(s, 0).value], name);
  }

  // ---------------------------------------------------------------------------
  // The label part of replaceLabelWithTag (components/mathpreview.ts:93-106)
  // ---------------------------------------------------------------------------

  const LabelOpen := "\\label{"

  /** Where the lazy `(.*?)\}` after `\label{` closes: the first `}`, with no
      line break before it. */
  function LabelClose(s: string, p: nat): (r: Option<nat>)
    requires p <= |s|
    ensures r.Some? ==> p <= r.value < |s| && s[r.value] == '}' && AllDot(s[p..r.value]) && '}' !in s[p..r.value]
  {
    match IndexOf(s[p..], '}')
    case None => None
    case Some(k) => if AllDot(s[p..p + k]) then Some(p + k) else None
  }

  /** A `\label{…}` match at the head of the text. */
  predicate LabelHere(s: string) {
    StartsWith(s, LabelOpen) && LabelClose(s, |LabelOpen|).Some?
  }

  /** No `\label{` anywhere in the text. */
  predicate LabelFree(s: string) {
    forall i :: 0 <= i <= |s| ==> !OccursAt(s, LabelOpen, i)
  }

  /** The replacement for one label: with a reference label, its own label
      becomes `\tag{tag}` (or `\tag{label}` for an empty tag) and every other
      label `\notag`; without one, every label becomes its own tag. */
  function TagFor(refLabel: Option<string>, tag: Option<string>, name: string): (r: string)
    ensures refLabel.None? || refLabel == Some("") ==> r == "\\tag{" + name + "}"
    ensures refLabel.Some? && refLabel.value != "" && refLabel.value != name ==> r == "\\notag"
    ensures refLabel == Some(name) && name != "" ==>
      r == "\\tag{" + (if tag.Some? && tag.value != "" then tag.value else name) + "}"
  {
    if refLabel.Some? && refLabel.value != "" then
      if refLabel.value == name then
        if tag.Some? && tag.value != "" then "\\tag{" + tag.value + "}" else "\\tag{" + name + "}"
      else "\\notag"
    else "\\tag{" + name + "}"
  }

  /** `tex.replace(/\\label\{(.*?)\}/g, …)`: scanning left to right, a match
      at the head is replaced and the scan resumes after it; otherwise the
      head character is kept and the scan moves on by one. */
  function ReplaceLabels(s: string, refLabel: Option<string>, tag: Option<string>): (r: string)
    decreases |s|
    ensures LabelFree(s) ==> r == s
  {
    if |s| == 0 then ""
    else if LabelHere(s) then
      assert !LabelFree(s) by {
        assert OccursAt(s, LabelOpen, 0);
      }
      var close := LabelClose(s, |LabelOpen|).value;
      TagFor(refLabel, tag, s[|LabelOpen|..close]) + ReplaceLabels(s[close + 1..], refLabel, tag)
    else
      assert LabelFree(s) ==> LabelFree(s[1..]) by {
        if LabelFree(s) {
          LabelFreeTail(s);
        }
      }
      assert [s[0]] + s[1..] == s;
      [s[0]] + ReplaceLabels(s[1..], refLabel, tag)
  }

  /** A text without `\label{` neither starts one nor gains one by dropping
      its head. */
  lemma LabelFreeTail(s: string)
    requires LabelFree(s) && |s| > 0
    ensures !LabelHere(s) && LabelFree(s[1..])
  {
    assert !OccursAt(s, LabelOpen, 0);
    assert |LabelOpen| <= |s| ==> s[..|LabelOpen|] == s[0..|LabelOpen|];
    forall i | 0 <= i <= |s[1..]| ensures !OccursAt(s[1..], LabelOpen, i) {
      assert !OccursAt(s, LabelOpen, i + 1);
      if i + |LabelOpen| <= |s[1..]| {
        assert s[1..][i..i + |LabelOpen|] == s[i + 1..i + 1 + |LabelOpen|];
      }
    }
  }

  /** Text without a label is left as it is. */
  lemma {:induction false} ReplaceLabelsLabelFree(s: string, refLabel: Option<string>, tag: Option<string>)
    requires LabelFree(s)
    decreases |s|
    ensures ReplaceLabels(s, refLabel, tag) == s
  {
    if |s| > 0 {
      LabelFreeTail(s);
      ReplaceLabelsLabelFree(s[1..], refLabel, tag);
      assert [s[0]] + s[1..] == s;
    }
  }

  /** No `\label{` starts across the end of a label-free `a` into the
      `\label{` that follows it. */
  lemma LabelOpenNotStraddling(a: string, rest: string)
    requires LabelFree(a) && |a| > 0
    ensures !StartsWith(a + (LabelOpen + rest), LabelOpen)
  {
    var s := a + (LabelOpen + rest);
    assert s[|a|] == '\\';
    if |LabelOpen| <= |a| {
      assert !OccursAt(a, LabelOpen, 0);
      assert s[..|LabelOpen|] == a[0..|LabelOpen|];
    } else {
      var d := |a|;
      assert LabelOpen[d] != '\\';
      assert |LabelOpen| <= |s| ==> s[..|LabelOpen|][d] == s[|a|];
    }
  }

  /** A lazy close from `p` stops at the first brace after it. */
  lemma LabelCloseAt(s: string, p: nat, name: string, b: string)
    requires p <= |s| && s[p..] == name + ['}'] + b
    requires AllDot(name) && '}' !in name
    ensures LabelClose(s, p) == Some(p + |name|)
    ensures s[p..p + |name|] == name && s[p + |name| + 1..] == b
  {
    IndexOfAfterPiece(name, b, '}');
    assert s[p..p + |name|] == s[p..][..|name|];
    assert s[p..][..|name|] == name;
    assert s[p + |name| + 1..] == s[p..][|name| + 1..];
  }

  /** The written `\label{name}` closes at the written brace. */
  lemma LabelCloseWritten(name: string, b: string)
    requires AllDot(name) && '}' !in name
    ensures var s := LabelOpen + (name + ("}" + b));
      && LabelHere(s) && LabelClose(s, |LabelOpen|) == Some(|LabelOpen| + |name|)
      && s[|LabelOpen|..|LabelOpen| + |name|] == name && s[|LabelOpen| + |name| + 1..] == b
  {
    var s := LabelOpen + (name + ("}" + b));
    assert s[..|LabelOpen|] == LabelOpen;
    assert s[|LabelOpen|..] == name + ['}'] + b;
    LabelCloseAt(s, |LabelOpen|, name, b);
  }

  /** The scan keeps a head that starts no label. */
  lemma ReplaceLabelsSkip(s: string, refLabel: Option<string>, tag: Option<string>)
    requires |s| > 0 && !LabelHere(s)
    ensures ReplaceLabels(s, refLabel, tag) == [s[0]] + ReplaceLabels(s[1..], refLabel, tag)
  {
  }

  /** A label at the head is replaced and the scan resumes after its brace. */
  lemma ReplaceLabelsAtHead(s: string, c: nat, refLabel: Option<string>, tag: Option<string>)
    requires LabelHere(s) && LabelClose(s, |LabelOpen|) == Some(c)
    ensures ReplaceLabels(s, refLabel, tag)
      == TagFor(refLabel, tag, s[|LabelOpen|..c]) + ReplaceLabels(s[c + 1..], refLabel, tag)
  {
  }

  /** The written label at the head becomes its replacement. */
  lemma ReplaceLabelsHead(name: string, b: string, refLabel: Option<string>, tag: Option<string>)
    requires AllDot(name) && '}' !in name
    ensures ReplaceLabels(LabelOpen + (name + ("}" + b)), refLabel, tag)
      == TagFor(refLabel, tag, name) + ReplaceLabels(b, refLabel, tag)
  {
    var s := LabelOpen + (name + ("}" + b));
    LabelCloseWritten(name, b);
    var from := |LabelOpen|;
    ReplaceLabelsAtHead(s, from + |name|, refLabel, tag);
  }

  /** Before a label, the head of a label-free text is kept. */
  lemma ReplaceLabelsPastHead(a: string, x: string, refLabel: Option<string>, tag: Option<string>)
    requires LabelFree(a) && |a| > 0
    ensures LabelFree(a[1..])
    ensures ReplaceLabels(a + (LabelOpen + x), refLabel, tag)
      == [a[0]] + ReplaceLabels(a[1..] + (LabelOpen + x), refLabel, tag)
  {
    var s := a + (LabelOpen + x);
    LabelOpenNotStraddling(a, x);
    ReplaceLabelsSkip(s, refLabel, tag);
    LabelFreeTail(a);
    assert s[1..] == a[1..] + (LabelOpen + x);
  }

  lemma ConsKept(a: string, whole: string, tail: string, after: string)
    requires |a| > 0 && whole == [a[0]] + tail && tail == a[1..] + after
    ensures whole == a + after
  {
    assert [a[0]] + a[1..] == a;
  }

  /** Labels are replaced one at a time, left to right: in `a \label{name} b`
      with no label in `a`, `a` is kept, the written label becomes its
      replacement and the rest is processed alone. */
  lemma {:induction false} ReplaceLabelsStep(a: string, name: string, b: string, refLabel: Option<string>, tag: Option<string>)
    requires LabelFree(a)
    requires AllDot(name) && '}' !in name
    decreases |a|
    ensures ReplaceLabels(a + (LabelOpen + (name + ("}" + b))), refLabel, tag)
      == a + (TagFor(refLabel, tag, name) + ReplaceLabels(b, refLabel, tag))
  {
    var rest := LabelOpen + (name + ("}" + b));
    var t := TagFor(refLabel, tag, name);
    var r := ReplaceLabels(b, refLabel, tag);
    if |a| == 0 {
      assert a + rest == rest;
      ReplaceLabelsHead(name, b, refLabel, tag);
      assert a + (t + r) == t + r;
    } else {
      ReplaceLabelsPastHead(a, name + ("}" + b), refLabel, tag);
      ReplaceLabelsStep(a[1..], name, b, refLabel, tag);
      ConsKept(a, ReplaceLabels(a + rest, refLabel, tag), ReplaceLabels(a[1..] + rest, refLabel, tag), t + r);
    }
  }

  // ---------------------------------------------------------------------------
  // The environment wrapping of mathjaxify (components/mathpreview.ts:271-273)
  // ---------------------------------------------------------------------------

  /** The environments MathJax renders only inside a numbered equation. */
  const MatrixEnvNames: seq<string> := [
    "aligned", "alignedat", "array", "Bmatrix", "bmatrix", "cases", "CD", "gathered",
    "matrix", "pmatrix", "smallmatrix", "split", "subarray", "Vmatrix", "vmatrix"]

  const EquationBegin := "\\begin{equation}"
  const EquationEnd := "\\end{equation}"

  /** Wraps the snippet in an `equation` exactly for those environments. */
  function WrapForMathJax(s: string, envname: string): (r: string)
    ensures envname in MatrixEnvNames <==> |r| > |s|
    ensures envname !in MatrixEnvNames ==> r == s
    ensures envname in MatrixEnvNames ==>
      |r| == |EquationBegin| + |s| + |EquationEnd|
      && StartsWith(r, EquationBegin) && EndsWith(r, EquationEnd)
      && r[|EquationBegin|..|r| - |EquationEnd|] == s
  {
    if envname in MatrixEnvNames then
      var r := EquationBegin + s + EquationEnd;
      assert r[..|EquationBegin|] == EquationBegin;
      assert r[|r| - |EquationEnd|..] == EquationEnd;
      assert r[|EquationBegin|..|r| - |EquationEnd|] == s;
      r
    else s
  }
}

=== FILE: wrappers.dfy ===
/** Optional values, used wherever the source returns `undefined` or `null`. */
module Wrappers {

  datatype Option<+T> = None | Some(value: T) {

    /** The value, or `default` when there is none. */
    function GetOr(default: T): T {
      match this
      case Some(v) => v
      case None => default
    }
  }

  /** First index in [lo, hi) satisfying `p`: the choice a lazy regular-expression
      quantifier makes when it extends one step at a time. */
  function FirstWhere(lo: nat, hi: nat, p: nat -> bool): (r: Option<nat>)
    decreases hi - lo
    ensures r.Some? ==> lo <= r.value < hi && p(r.value)
    ensures r.Some? ==> forall j :: lo <= j < r.value ==> !p(j)
    ensures r.None? ==> forall j :: lo <= j < hi ==> !p(j)
  {
    if lo >= hi then None
    else if p(lo) then Some(lo)
    else FirstWhere(lo + 1, hi, p)
  }

  /** Last index in [lo, hi) satisfying `p`: the choice a greedy quantifier makes
      when it backtracks from the longest candidate. */
  function LastWhere(lo: nat, hi: nat, p: nat -> bool): (r: Option<nat>)
    decreases hi - lo
    ensures r.Some? ==> lo <= r.value < hi && p(r.value)
    ensures r.Some? ==> forall j :: r.value < j < hi ==> !p(j)
    ensures r.None? ==> forall j :: lo <= j < hi ==> !p(j)
  {
    if lo >= hi then None
    else if p(hi - 1) then Some(hi - 1)
    else LastWhere(lo, hi - 1, p)
  }
}

/** The pieces of ECMAScript string semantics the source relies on. */
module JsString {
  import opened Wrappers

  /** Characters the regular-expression `.` refuses and `^`/`$` treat as line ends. */
  predicate IsLineTerminator(c: char) {
    c == '\n' || c == '\r' || c == '\U{2028}' || c == '\U{2029}'
  }

  /** The regular-expression `.` (without the `s` flag). */
  predicate IsDot(c: char) {
    !IsLineTerminator(c)
  }

  /** `\s` in a regular expression, and what `String.prototype.trim` strips. */
  predicate IsWhitespace(c: char) {
    || c == '\t' || c == '\n' || c == '\U{B}' || c == '\U{C}' || c == '\r' || c == ' '
    || c == '\U{A0}' || c == '\U{1680}' || ('\U{2000}' <= c <= '\U{200A}')
    || c == '\U{2028}' || c == '\U{2029}' || c == '\U{202F}' || c == '\U{205F}'
    || c == '\U{3000}' || c == '\U{FEFF}'
  }

  /** `\d`: ASCII digits only. */
  predicate IsDigit(c: char) {
    '0' <= c <= '9'
  }

  predicate IsLower(c: char) {
    'a' <= c <= 'z'
  }

  predicate IsLetter(c: char) {
    'a' <= c <= 'z' || 'A' <= c <= 'Z'
  }

  predicate AllDot(s: string) {
    forall i :: 0 <= i < |s| ==> IsDot(s[i])
  }

  predicate AllDigits(s: string) {
    forall i :: 0 <= i < |s| ==> IsDigit(s[i])
  }

  predicate AllWhitespace(s: string) {
    forall i :: 0 <= i < |s| ==> IsWhitespace(s[i])
  }

  predicate StartsWith(s: string, prefix: string) {
    |prefix| <= |s| && s[..|prefix|] == prefix
  }

  /** A string that starts with `p` is `p` followed by the rest. */
  lemma SplitPrefix(s: string, p: string)
    requires StartsWith(s, p)
    ensures s == p + s[|p|..]
  {
    assert s == s[..|p|] + s[|p|..];
  }

  /** A cut splits a string into its two sides. */
  lemma CutAt(s: string, k: nat)
    requires k <= |s|
    ensures s == s[..k] + s[k..]
  {
  }

  /** Two cuts split a string into three consecutive pieces. */
  lemma Split3(s: string, i: nat, j: nat)
    requires i <= j <= |s|
    ensures s == s[..i] + (s[i..][..j - i] + s[j..])
  {
    assert s[i..] == s[i..][..j - i] + s[j..];
  }

  /** A prefix of the part after `a` extends to a prefix of the whole. */
  lemma StartsWithAfter(s: string, a: string, t: string, u: string)
    requires s == a + t && StartsWith(t, u)
    ensures StartsWith(s, a + u)
  {
    assert s[..|a| + |u|] == a + t[..|u|];
  }

  /** The text around the character at `i`. */
  lemma CharSplit(s: string, i: nat)
    requires i < |s|
    ensures s == s[..i] + ([s[i]] + s[i + 1..])
  {
    assert s[i..] == [s[i]] + s[i + 1..];
    CutAt(s, i);
  }

  /** Cutting out the character at `i`. */
  lemma ColonSplit(s: string, i: nat)
    requires i < |s| && s[i] == ':'
    ensures s == s[..i] + (":" + s[i + 1..])
  {
    assert s[i..] == [s[i]] + s[i + 1..];
    assert s == s[..i] + s[i..];
  }

  predicate EndsWith(s: string, suffix: string) {
    |suffix| <= |s| && s[|s| - |suffix|..] == suffix
  }

  /** True when `lit` occurs in `s` starting at `i`. */
  predicate OccursAt(s: string, lit: string, i: nat) {
    i + |lit| <= |s| && s[i..i + |lit|] == lit
  }

  /** `s.indexOf(lit)`, as an option. */
  function FindLiteral(s: string, lit: string): (r: Option<nat>)
    ensures r.Some? ==> OccursAt(s, lit, r.value)
    ensures r.Some? ==> forall j :: 0 <= j < r.value ==> !OccursAt(s, lit, j)
    ensures r.None? ==> forall j :: 0 <= j <= |s| ==> !OccursAt(s, lit, j)
  {
    var p := (j: nat) => OccursAt(s, lit, j);
    var r := FirstWhere(0, |s| + 1, p);
    assert forall j: nat :: p(j) == OccursAt(s, lit, j);
    r
  }

  /** The value of a digit string; `parseInt(d, 10)` on a non-empty `\d+` capture. */
  function DigitsValue(s: string): nat {
    if |s| == 0 then 0
    else
      var c := s[|s| - 1];
      DigitsValue(s[..|s| - 1]) * 10 + (if IsDigit(c) then c as int - '0' as int else 0)
  }

  /** Length of the run of digits starting at `i`: what a greedy `\d+` or `\d*` takes. */
  function DigitRun(s: string, i: nat): (n: nat)
    requires i <= |s|
    decreases |s| - i
    ensures i + n <= |s|
    ensures forall k :: i <= k < i + n ==> IsDigit(s[k])
    ensures i + n == |s| || !IsDigit(s[i + n])
  {
    if i < |s| && IsDigit(s[i]) then 1 + DigitRun(s, i + 1) else 0
  }

  /** Length of the run of whitespace starting at `i`: what a greedy `\s+` takes. */
  function WhitespaceRun(s: string, i: nat): (n: nat)
    requires i <= |s|
    decreases |s| - i
    ensures i + n <= |s|
    ensures forall k :: i <= k < i + n ==> IsWhitespace(s[k])
    ensures i + n == |s| || !IsWhitespace(s[i + n])
  {
    if i < |s| && IsWhitespace(s[i]) then 1 + WhitespaceRun(s, i + 1) else 0
  }

  /** Length of the run of non-whitespace starting at `i`: what a greedy `\S*` takes. */
  function NonWhitespaceRun(s: string, i: nat): (n: nat)
    requires i <= |s|
    decreases |s| - i
    ensures i + n <= |s|
    ensures forall k :: i <= k < i + n ==> !IsWhitespace(s[k])
    ensures i + n == |s| || IsWhitespace(s[i + n])
  {
    if i < |s| && !IsWhitespace(s[i]) then 1 + NonWhitespaceRun(s, i + 1) else 0
  }

  /** A digit run stops exactly where a maximal block of digits ends. */
  lemma {:induction false} DigitRunConcat(a: string, b: string, i: nat)
    requires i <= |a| && AllDigits(a) && (|b| == 0 || !IsDigit(b[0]))
    ensures DigitRun(a + b, i) == |a| - i
    decreases |a| - i
  {
    var s := a + b;
    if i < |a| {
      assert s[i] == a[i];
      DigitRunConcat(a, b, i + 1);
    } else {
      assert |b| > 0 ==> s[i] == b[0];
    }
  }

  /** The index `Array.prototype.slice` and `String.prototype.slice` derive from a
      relative argument: negative values count from the end. */
  function RelativeIndex(x: int, len: nat): (r: nat)
    ensures r <= len
  {
    if x < 0 then (if len + x < 0 then 0 else len + x) else (if x > len then len else x)
  }

  /** `s.slice(start, end)`. */
  function Slice<T>(s: seq<T>, start: int, end: int): (r: seq<T>)
    ensures |r| <= |s|
  {
    var from := RelativeIndex(start, |s|);
    var to := RelativeIndex(end, |s|);
    if from < to then s[from..to] else []
  }

  /** `s.slice(start)`. */
  function SliceFrom<T>(s: seq<T>, start: int): (r: seq<T>)
    ensures |r| <= |s|
  {
    s[RelativeIndex(start, |s|)..]
  }

  function Clamp(x: int, len: nat): (r: nat)
    ensures r <= len
  {
    if x < 0 then 0 else if x > len then len else x
  }

  /** `s.substring(a, b)`: arguments clamped to [0, |s|] and swapped when reversed. */
  function Substring(s: string, a: int, b: int): (r: string)
    ensures |r| <= |s|
  {
    var x := Clamp(a, |s|);
    var y := Clamp(b, |s|);
    if x <= y then s[x..y] else s[y..x]
  }

  /** `s.trim()`. */
  function Trim(s: string): (r: string)
    ensures |r| <= |s|
    ensures exists a, b :: 0 <= a <= b <= |s| && r == s[a..b]
    ensures |r| > 0 ==> !IsWhitespace(r[0]) && !IsWhitespace(r[|r| - 1])
  {
    var t := TrimStart(s);
    var r := TrimEnd(t);
    assert r == s[|s| - |t|..|s| - |t| + |r|];
    r
  }

  function TrimStart(s: string): (r: string)
    ensures |r| <= |s| && r == s[|s| - |r|..]
    ensures |r| > 0 ==> !IsWhitespace(r[0])
    ensures AllWhitespace(s[..|s| - |r|])
  {
    if |s| > 0 && IsWhitespace(s[0]) then
      var r := TrimStart(s[1..]);
      assert s[..|s| - |r|] == [s[0]] + s[1..][..|s[1..]| - |r|];
      r
    else s
  }

  function TrimEnd(s: string): (r: string)
    ensures |r| <= |s| && r == s[..|r|]
    ensures |r| > 0 ==> !IsWhitespace(r[|r| - 1])
    ensures AllWhitespace(s[|r|..])
  {
    if |s| > 0 && IsWhitespace(s[|s| - 1]) then
      var r := TrimEnd(s[..|s| - 1]);
      assert s[|r|..] == s[..|s| - 1][|r|..] + [s[|s| - 1]];
      r
    else s
  }

  /** `s.trim() === ''` holds exactly for all-whitespace strings. */
  lemma TrimEmptyIffBlank(s: string)
    ensures Trim(s) == "" <==> AllWhitespace(s)
  {
    var t := TrimStart(s);
    assert |t| > 0 ==> t[0] == s[|s| - |t|];
    if AllWhitespace(s) {
      assert |t| == 0;
    }
    if Trim(s) == "" {
      assert TrimEnd(t) == "";
      assert t[0..] == t;
      assert |t| == 0;
      assert s[..|s|] == s;
    }
  }

  /** Index of the first occurrence of `c`. */
  function IndexOf(s: string, c: char): (r: Option<nat>)
    ensures r.Some? ==> r.value < |s| && s[r.value] == c && c !in s[..r.value]
    ensures r.None? <==> c !in s
  {
    if c !in s then None
    else if s[0] == c then Some(0)
    else
      var r := IndexOf(s[1..], c);
      assert r.Some?;
      assert s[..r.value + 1] == [s[0]] + s[1..][..r.value];
      Some(r.value + 1)
  }

  /** `s.split(sep)` for a one-character separator: never empty, `"" -> [""]`. */
  function Split(s: string, sep: char): (r: seq<string>)
    decreases |s|
    ensures |r| >= 1
    ensures forall k :: 0 <= k < |r| ==> sep !in r[k]
  {
    match IndexOf(s, sep)
    case None => [s]
    case Some(i) => [s[..i]] + Split(s[i + 1..], sep)
  }

  /** `xs.join(sep)`. */
  function Join(xs: seq<string>, sep: char): string
  {
    if |xs| == 0 then ""
    else if |xs| == 1 then xs[0]
    else xs[0] + [sep] + Join(xs[1..], sep)
  }

  /** Joining one more piece puts a separator and the piece after the rest. */
  lemma {:induction false} JoinSnoc(ys: seq<string>, z: string, sep: char)
    requires |ys| >= 1
    decreases |ys|
    ensures Join(ys + [z], sep) == Join(ys, sep) + [sep] + z
  {
    var xs := ys + [z];
    assert xs[1..] == ys[1..] + [z];
    if |ys| > 1 {
      JoinSnoc(ys[1..], z, sep);
    }
  }

  /** Joining a first piece, some middle pieces and a last piece. */
  lemma JoinAround(x: string, mid: seq<string>, z: string, sep: char)
    ensures Join([x] + mid + [z], sep) ==
      if |mid| == 0 then x + [sep] + z else x + [sep] + Join(mid, sep) + [sep] + z
  {
    JoinSnoc([x] + mid, z, sep);
    if |mid| > 0 {
      assert ([x] + mid)[1..] == mid;
    }
  }

  /** Joining what was split gives back the text. */
  lemma {:induction false} JoinSplit(s: string, sep: char)
    decreases |s|
    ensures Join(Split(s, sep), sep) == s
  {
    match IndexOf(s, sep)
    case None =>
    case Some(i) =>
      JoinSplit(s[i + 1..], sep);
      var rest := Split(s[i + 1..], sep);
      assert Split(s, sep) == [s[..i]] + rest;
      assert ([s[..i]] + rest)[1..] == rest;
      assert s == s[..i] + [sep] + s[i + 1..];
  }

  lemma IndexOfAfterPiece(a: string, b: string, sep: char)
    requires sep !in a
    ensures IndexOf(a + [sep] + b, sep) == Some(|a|)
  {
    var s := a + [sep] + b;
    assert s[|a|] == sep;
    assert s[..|a|] == a;
  }

  /** A character the text lacks is in none of its pieces. */
  lemma {:induction false} SplitKeepsAbsent(s: string, sep: char, c: char)
    requires c !in s
    decreases |s|
    ensures forall k :: 0 <= k < |Split(s, sep)| ==> c !in Split(s, sep)[k]
  {
    match IndexOf(s, sep)
    case None =>
    case Some(i) =>
      assert s == s[..i] + s[i..];
      assert s[i..] == [s[i]] + s[i + 1..];
      SplitKeepsAbsent(s[i + 1..], sep, c);
  }

  /** Joining pieces that lack a character, with another separator, lacks it too. */
  lemma {:induction false} JoinKeepsAbsent(xs: seq<string>, sep: char, c: char)
    requires c != sep && forall k :: 0 <= k < |xs| ==> c !in xs[k]
    decreases |xs|
    ensures c !in Join(xs, sep)
  {
    if |xs| > 1 {
      JoinKeepsAbsent(xs[1..], sep, c);
    }
  }

  /** Splitting what was joined gives back the pieces, when no piece holds the separator. */
  lemma {:induction false} SplitJoin(xs: seq<string>, sep: char)
    requires |xs| >= 1
    requires forall k :: 0 <= k < |xs| ==> sep !in xs[k]
    ensures Split(Join(xs, sep), sep) == xs
  {
    if |xs| > 1 {
      var rest := Join(xs[1..], sep);
      var s := xs[0] + [sep] + rest;
      assert Join(xs, sep) == s;
      IndexOfAfterPiece(xs[0], rest, sep);
      assert s[..|xs[0]|] == xs[0];
      assert s[|xs[0]| + 1..] == rest;
      assert Split(s, sep) == [xs[0]] + Split(rest, sep);
      SplitJoin(xs[1..], sep);
      assert xs == [xs[0]] + xs[1..];
    }
  }

  /** ASCII part of `String.prototype.toLowerCase`. */
  function ToLower(s: string): (r: string)
    ensures |r| == |s|
    ensures forall i :: 0 <= i < |s| ==> ('A' <= s[i] <= 'Z' ==> r[i] as int == s[i] as int + 32)
    ensures forall i :: 0 <= i < |s| ==> (!('A' <= s[i] <= 'Z') ==> r[i] == s[i])
  {
    if |s| == 0 then ""
    else
      var c := s[0];
      var lc := if 'A' <= c <= 'Z' then (c as int + 32) as char else c;
      [lc] + ToLower(s[1..])
  }
}
